=== FILE: README.md ===
# Amber front end and binding engine, in Dafny

This project models the core of Amber, a small declarative UI language. It covers four parts.

- **Parser.** The parser reads a frame:
  - a frame has the form `ident : ClassName { members }`;
  - a member is a typed property holding a scalar, array, dictionary or enum literal;
  - or a `Func` or `Listner` function with a return type;
  - or an `Event` or `Init` function without one;
  - or a nested frame.

  Before parsing, adjacent string tokens are folded into one.
- **Frame model.** This is the tagged value algebra of frames. It includes the JavaScript text synthesized for each function kind:
  - the parameter list, with or without the implicit `self`;
  - the function header;
  - the anonymous function wrapper.
- **Frame compiler.** The compiler turns a frame tree into a heap of reactive objects:
  - it rejects duplicate member names;
  - it compiles functions through the script engine;
  - it builds the dotted path → object map;
  - it resolves each listener's path arguments to object pointers;
  - it registers one observer callback per listener on every pointed property.
- **Reactive object and component layer.** This covers:
  - the reactive object: a property table, mangled listener slots, a pointer table and observer lists;
  - the component tree that mirrors the object tree;
  - the class-name allocator registry;
  - the executor that runs every `Init` function, children first.

## How the model is organized

Modules, one per file:

- **Wrappers** (`wrappers.dfy`): `Option` and `Result`.
- **Strings** (`strings.dfy`): Swift's `joined(separator:)`, an independent `Split` that inverts it, and the decimal printing of line numbers in parse errors.
- **Tokens** (`tokens.dfy`): the token kinds and the string-folding pass `preprocess`.
- **Frames** (`frame.dfy`): types, values, members and frames. It also holds the keyword tables, `checkResultType`, the dictionary `set` and the script builders. Independent decoders read the synthesized script text back.
- **Parser** (`parser.dfy`): the recursive-descent parser over a token sequence with a cursor. Every step returns the value and the next cursor, or an error message and its position.
- **ParserFacts** (`parser_facts.dfy`): one lemma per grammar decision.
- **ParserRoundTrip** (`parser_print.dfy`): a token printer for frames, and the theorem that the parser inverts it.
- **ReactObjects** (`react_object.dfy`): `AMBReactObject` as an immutable record.
- **Binding** (`binding.dfy`): the heap of objects, the script engine as uninterpreted functions, and the listener callback.
- **FrameCompiler** (`compiler.dfy`): `AMBFrameCompiler`.
- **Components** (`components.dfy`): the component layer.

How the program's runtime pieces are represented:

- **Objects and references.** Objects live in a `seq<ReactObject>` heap. An object is addressed by its index.
- **Child frames.** They are compiled after their parent, so a reference from parent to child always points forward. That ordering gives every tree walk its termination measure.
- **The script engine.** It is an `Engine` record of two functions:
  - `evaluate` gives the outcome of a script: it failed, or it ran and left the temporary bound or unbound;
  - `call` gives the answer of a function call, or nothing.
- **Calls are pure.** A call cannot change the heap except through the value the callback writes back.
- **Observer notification.** A write runs the observers of the written property synchronously, in registration order. The source has no cycle guard, so the depth of a cascade is bounded by a `fuel` parameter.

## Model

| member | source | states |
|---|---|---|
| Tokens.DecodeNewlines | Source/Language/AMBParser.swift:55-56 | the decoded text contains no backslash-n escape, is never longer, leaves escape-free text unchanged, and turns a leading escape into a newline |
| Tokens.PreprocessLoop | Source/Language/AMBParser.swift:48-74 | the loop of `preprocess` computes exactly the functional folding pass |
| Tokens.FoldedRun | Source/Language/AMBParser.swift:54-70 | a run of string tokens followed by another token becomes one string token: the texts concatenated with escapes decoded, and the line of the run's first token |
| Tokens.NonStringPassesThrough | Source/Language/AMBParser.swift:64-70 | a non-string token passes through unchanged, in place |
| Tokens.TrailingRunDropped | Source/Language/AMBParser.swift:72-73 | a string run at the very end of the input is not flushed, so the output is as if the run were absent |
| Tokens.FoldShape | Source/Language/AMBParser.swift:48-74 | folding never leaves two string tokens adjacent, keeps the non-string tokens in order, and never ends with a string token |
| Tokens.Preprocess | Source/Language/AMBParser.swift:48-74 | the output of `preprocess` has no two adjacent string tokens, never ends with a string token, and its non-string tokens are those of the input, in order |
| Tokens.PreprocessSettled | Source/Language/AMBParser.swift:48-74 | tokens in which every string token is free of `\n` escapes and followed by a non-string token come out of `preprocess` unchanged, whatever tokens follow them |
| Strings.Join | Source/Language/AMBFrame.swift:303-314 | `joined(separator:)` starts with the first element and is as long as all elements plus one separator between each two; no elements give the empty string |
| Strings.SplitJoin | Source/Language/AMBFrame.swift:491-499 | joining with a one-character separator that no element contains, then splitting on it, gives the elements back |
| Strings.BelowChildIsBelowParent | Source/Compiler/AMBFrameCompiler.swift:203-216 | a path under `q.n` is a path under `q`, and strictly longer than `q` |
| Strings.SiblingPathsDisjoint | Source/Compiler/AMBFrameCompiler.swift:203-216 | two sibling paths with dot-free names share no descendant unless the names are equal |
| Strings.NatToString | Source/Language/AMBParser.swift:441-449 | a line number prints as a non-empty run of decimal digits with no leading zero, and 0 prints as "0" |
| Strings.NatToStringRoundTrip | Source/Language/AMBParser.swift:441-449 | the printed digits read back as the number |
| Frames.DecodeFunctionKind | Source/Language/AMBParser.swift:118-129 | exactly the four keywords `Init`, `Event`, `Listner`, `Func` decode to a function kind |
| Frames.FunctionKeywordRoundTrip | Source/Language/AMBParser.swift:118-129 | decoding a kind's keyword gives that kind back, and only that keyword decodes to it |
| Frames.DecodeType | Source/Language/AMBParser.swift:116-117 | a name decodes to a type iff it is a built-in type keyword or a registered enum type; built-in keywords win over enum names |
| Frames.TypeKeywordRoundTrip | Source/Language/AMBParser.swift:116-117 | every type decodes back from its own spelling |
| Frames.TypeOf | Source/Language/AMBFrame.swift:31-40 | a frame's type tag is `.frame(className)`, a scalar's is a scalar tag, and exactly the four function values carry a function tag |
| Frames.CheckResultType | Source/Language/AMBParser.swift:252-296 | no message iff the literal fits the declared type: booleans for Bool, numbers for Int and Float, strings for String, arrays for Array, dictionaries for Dictionary; URL and enum declarations always log "Can not happen" |
| Frames.DictSet | Source/Language/AMBFrame.swift:175-177 | the key then reads the new value, every other key reads what it read before, an existing key is overwritten in place (the same keys in the same order), and a new key is appended |
| Frames.DictSetKeepsUniqueKeys | Source/Language/AMBFrame.swift:175-177 | setting a key keeps the dictionary's keys distinct |
| Frames.EmptyFrame | Source/Language/AMBFrame.swift:413-418 | a new frame has type `.frame(className)`, the given instance name and no members |
| Frames.AppendMember | Source/Language/AMBFrame.swift:420-422 | append adds the member at the end and keeps the earlier members, in order, and the frame's names |
| Frames.ParametersRoundTrip | Source/Language/AMBFrame.swift:310-314 | a parameter list written with `", "` between well-formed names reads back as exactly those names |
| Frames.ScriptArgument | Source/Language/AMBFrame.swift:247-392 | the parameter text of Init, Event and Listener functions reads back as `self` followed by the declared names; a procedure's reads back as the declared names only |
| Frames.ToScript | Source/Language/AMBFrame.swift:232-237 | the synthesized function text reads back as exactly its parameter text and its body |
| Frames.FunctionHeader | Source/Language/AMBFrame.swift:268-387 | the header starts with the keyword of the function's kind, which decodes back to that kind, and ends with ` %{` |
| Frames.HeaderAndScriptArgument | Source/Language/AMBFrame.swift:268-387 | the Init header is exactly `Init %{` and its parameter text is `self`; every other header is its keyword, the declared names joined by `", "` in parentheses, and ` %{`; a procedure's parameter text is exactly the list in its `Func(…) %{` header, and an Event or Listener function's is that list behind `self` |
| Frames.InitObjectName | Source/Language/AMBFrame.swift:264-266 | the storage name is the member name followed by `@body` |
| Frames.InitObjectNameInjective | Source/Language/AMBFrame.swift:264-266 | the `@body` storage name begins with the member name, so two Init members never share a slot |
| Frames.PathToString | Source/Language/AMBFrame.swift:491-499 | a path's text splits on the dot back into its elements when none holds a dot; the empty path prints as the empty string |
| Parser.Parse | Source/Language/AMBParser.swift:22-40 | parsing succeeds iff the frame parser succeeds on the folded tokens, and then yields its frame; otherwise it yields the frame parser's message followed by where the cursor stands. Its partner is ParserRoundTrip.ParseRoundTrip: a printed frame goes through this entry point back to exactly itself |
| Parser.ErrorTextReadsBack | Source/Language/AMBParser.swift:425-449 | the error text starts with the message; on a token it goes on with "near token", the token's description, and ends with the token's line in decimal digits, which read back as the line; past the last token it is the message alone |
| Parser.ParseFrame | Source/Language/AMBParser.swift:76-87 | a parsed frame takes its instance name from the first identifier and its class name from the third token |
| Parser.ParseFrameBody | Source/Language/AMBParser.swift:89-104 | a parsed body keeps the given names and lies between `{` and the matching `}` |
| Parser.ParseMembers | Source/Language/AMBParser.swift:96-101 | the member loop ends on `}` and only appends: the members read before stay at the front, in order |
| Parser.ParseMember | Source/Language/AMBParser.swift:106-135 | a parsed member is named by the identifier at the cursor and consumes more than its three-token head |
| Parser.ParseProperty | Source/Language/AMBParser.swift:137-147 | a typed member keeps its name and records its declared type |
| Parser.ParseExpression | Source/Language/AMBParser.swift:162-208 | a literal parse consumes at least one token and yields a literal value |
| Parser.ParseArrayElems | Source/Language/AMBParser.swift:210-225 | the array loop only appends literal elements: the elements read before stay at the front, in order |
| Parser.ParseDictElems | Source/Language/AMBParser.swift:227-250 | every key already read keeps a value, and distinct keys stay distinct, since a repeated key overwrites |
| Parser.ParseArgNames | Source/Language/AMBParser.swift:304-325 | the argument loop ends on `)` and only appends names: those read before stay at the front |
| Parser.ParsePathArgs | Source/Language/AMBParser.swift:327-348 | the listener-argument loop ends on `)` and only appends arguments, each with a non-empty path |
| Parser.ParsePathExpression | Source/Language/AMBParser.swift:398-415 | a path has at least one element, starts with the identifier at the cursor, and stops where no dot follows |
| Parser.ParsePathArgument | Source/Language/AMBParser.swift:387-396 | a path argument is named by the identifier at the cursor and has a non-empty path |
| Parser.ParseProceduralFunc | Source/Language/AMBParser.swift:304-325 | a procedural function opens with `(` and its script is the text token that ends it |
| Parser.ParseListenerFunc | Source/Language/AMBParser.swift:327-348 | a listener function opens with `(` and its script is the text token that ends it |
| Parser.ParseEventFunc | Source/Language/AMBParser.swift:350-371 | an event function opens with `(` and its script is the text token that ends it |
| Parser.ParseInitFunc | Source/Language/AMBParser.swift:373-378 | an Init function succeeds iff a text token follows, and is exactly that body |
| ParserFacts.DispatchValueType | Source/Language/AMBParser.swift:116-117 | a type name after the colon is tried first: the member is a property or a typed function |
| ParserFacts.DispatchUntypedFunction | Source/Language/AMBParser.swift:120-122 | `Func` or `Listner` without a preceding type is an error |
| ParserFacts.DispatchEvent | Source/Language/AMBParser.swift:123-125 | `Event` is read as an event function with no declared type |
| ParserFacts.DispatchInit | Source/Language/AMBParser.swift:126-128 | `Init` is read as an Init function with no declared type |
| ParserFacts.DispatchFrame | Source/Language/AMBParser.swift:131-134 | neither a type nor a function keyword: a nested frame whose instance name is the member name and whose class name is the type token |
| ParserFacts.PropertyProcedure | Source/Language/AMBParser.swift:138-153 | after a type, `Func` reads a procedural function with that return type |
| ParserFacts.PropertyListener | Source/Language/AMBParser.swift:138-156 | after a type, `Listner` reads a listener function with that return type |
| ParserFacts.PropertyEventInit | Source/Language/AMBParser.swift:149-159 | after a type, `Event` and `Init` are rejected with "Event/Init function does not have return type" |
| ParserFacts.PropertyLiteral | Source/Language/AMBParser.swift:137-146 | after a type, anything but a function keyword is a literal starting at that very token |
| ParserFacts.MismatchIsNotFatal | Source/Language/AMBParser.swift:145 | `a : Bool 3` parses to a member holding 3, and the mismatch only yields a message |
| ParserFacts.EmptyFrame | Source/Language/AMBParser.swift:89-104 | `x : C { }` is a frame with no members |
| ParserFacts.MembersStep | Source/Language/AMBParser.swift:96-101 | a member that parses is appended and the loop goes on after it; a member error ends the parse with that error |
| ParserFacts.ArrayStep | Source/Language/AMBParser.swift:210-225 | one array element is appended and the loop goes on after it |
| ParserFacts.ArrayNeedsComma | Source/Language/AMBParser.swift:216-219 | two array elements with no comma between them are an error |
| ParserFacts.DictStep | Source/Language/AMBParser.swift:227-250 | one `key : value` entry is stored with the dictionary's `set` and the loop goes on after it |
| ParserFacts.RepeatedKeyOverwrites | Source/Language/AMBParser.swift:227-250 | `{ k : 1 , k : 2 }` holds the single entry `k : 2` |
| ParserFacts.IdentifierLiteral | Source/Language/AMBParser.swift:175-186 | an identifier literal parses iff the type is an enum type that declares it, and then yields that member's integer |
| ParserFacts.ArgumentListForms | Source/Language/AMBParser.swift:304-325 | `()` is the empty list, a trailing comma before `)` is accepted, and names are kept in order |
| ParserFacts.PathArgsStep | Source/Language/AMBParser.swift:333-343 | after a listener argument, `)` ends the list, `,` goes on, and anything else is an error |
| ParserFacts.InitTakesNoList | Source/Language/AMBParser.swift:373-378 | a parenthesised list after `Init` is an error |
| ParserFacts.OneSegmentPath | Source/Language/AMBParser.swift:398-415 | a single identifier is a complete path: the parser sets no minimum length |
| ParserRoundTrip.PathRoundTrip | Source/Language/AMBParser.swift:398-415 | a printed path reads back as itself when no dot follows it |
| ParserRoundTrip.ArgNamesRoundTrip | Source/Language/AMBParser.swift:304-325 | a printed argument list reads back as its names, after those already read |
| ParserRoundTrip.PathArgsRoundTrip | Source/Language/AMBParser.swift:327-348 | a printed listener argument list reads back as its arguments, after those already read |
| ParserRoundTrip.LiteralRoundTrip | Source/Language/AMBParser.swift:162-250 | a printed literal (with distinct dictionary keys) reads back as itself, under any declared type |
| ParserRoundTrip.ElemsRoundTrip | Source/Language/AMBParser.swift:210-225 | the printed rest of an array reads back, completing the array |
| ParserRoundTrip.EntriesRoundTrip | Source/Language/AMBParser.swift:227-250 | the printed rest of a dictionary reads back, completing the dictionary |
| ParserRoundTrip.ProcCallRoundTrip | Source/Language/AMBParser.swift:304-325 | a printed procedural argument list and body read back as the procedural function |
| ParserRoundTrip.EventCallRoundTrip | Source/Language/AMBParser.swift:350-371 | a printed event argument list and body read back as the event function |
| ParserRoundTrip.ListenerCallRoundTrip | Source/Language/AMBParser.swift:327-348 | a printed listener argument list and body read back as the listener function |
| ParserRoundTrip.MemberRoundTrip | Source/Language/AMBParser.swift:106-135 | every printable member, of each of the member kinds, reads back as itself |
| ParserRoundTrip.MembersRoundTrip | Source/Language/AMBParser.swift:96-101 | the printed rest of a member list reads back, completing the members in order |
| ParserRoundTrip.BodyRoundTrip | Source/Language/AMBParser.swift:89-104 | a printed frame body reads back as the frame |
| ParserRoundTrip.FrameRoundTrip | Source/Language/AMBParser.swift:76-87 | printing a frame and parsing the tokens gives the frame back, and leaves what follows unread |
| ParserRoundTrip.ParseRoundTrip | Source/Language/AMBParser.swift:22-40 | `parse` of a printed frame whose strings hold no `\n` escapes yields exactly that frame, whatever tokens follow it: the folding pass leaves the printed tokens alone and the frame parser reads them back |
| ReactObjects.ToInt32 | Source/Component/AMBReactObject.swift:123-130 | the result is a signed 32-bit integer congruent to the number modulo 2^32 |
| ReactObjects.Int32Unchanged | Source/Component/AMBReactObject.swift:123-130 | a number already in 32-bit range is read back unchanged |
| ReactObjects.NewObject | Source/Component/AMBReactObject.swift:40-58 | a new object holds exactly `instanceName` and `className` with the frame's names, and has no scripted names, pointers or observers |
| ReactObjects.AddScriptedName | Source/Component/AMBReactObject.swift:60-62 | the name is appended after the earlier names, and nothing else changes |
| ReactObjects.ImmediateValue | Source/Component/AMBReactObject.swift:94-100 | a value exactly when one is stored under the property, and then that value |
| ReactObjects.SetImmediateValue | Source/Component/AMBReactObject.swift:94-104 | the property then reads the new value, every other property reads as before, and nothing else changes |
| ReactObjects.Get | Source/Component/AMBReactObject.swift:64-73 | a string name reads its property; a missing or non-string name reads null |
| ReactObjects.BoolValue | Source/Component/AMBReactObject.swift:106-113 | a result exactly when the property holds a boolean, and then that boolean |
| ReactObjects.Int32Value | Source/Component/AMBReactObject.swift:123-130 | a result exactly when the property holds a number, and then that number wrapped to 32 bits |
| ReactObjects.FloatValue | Source/Component/AMBReactObject.swift:140-147 | a result exactly when the property holds a number, and then that number |
| ReactObjects.StringValue | Source/Component/AMBReactObject.swift:157-164 | a result exactly when the property holds a string, and then that string |
| ReactObjects.ObjectValue | Source/Component/AMBReactObject.swift:174-181 | a result exactly when the property holds a script object, and then that object |
| ReactObjects.TypedRoundTrips | Source/Component/AMBReactObject.swift:106-189 | each typed setter (bool, int32, float, string, object) is read back by its getter, the object getter only when the value is a script object; other properties are untouched; a getter of another type finds nothing |
| ReactObjects.ChildFrame | Source/Component/AMBReactObject.swift:191-200 | a result exactly when the property holds a react object, and then that object |
| ReactObjects.ChildFrameRoundTrip | Source/Component/AMBReactObject.swift:191-204 | a stored child frame reads back; a plain value under the same name is no child frame |
| ReactObjects.ListenerFunctionRoundTrip | Source/Component/AMBReactObject.swift:206-222 | a listener function is read back from its `_lfunc_` slot, leaves other listeners alone, and never overwrites the property of the same name |
| ReactObjects.SetListenerFuncPointers | Source/Component/AMBReactObject.swift:224-240 | pointers are read back for their listener, every other listener keeps its own, and the property table is untouched |
| ReactObjects.ObserversOf | Source/Component/AMBReactObject.swift:242-244 | the registered callbacks of a property, none for a property nobody observes |
| ReactObjects.AddObserver | Source/Component/AMBReactObject.swift:242-244 | the callback is appended to that property's observers only; values, names and pointers are untouched |
| Binding.PointedValues | Source/Compiler/AMBFrameCompiler.swift:335-344 | values exist iff every pointed property is present, and then they are those properties' values in pointer order |
| Binding.SetAndNotify | Source/Component/AMBReactObject.swift:102-104 | a write followed by its observers changes only property values and keeps every registered callback's objects in the heap; without observers it is just the table write |
| Binding.Set | Source/Component/AMBReactObject.swift:75-83 | a string name writes the value through the observed table and answers true; when nobody observes it, `get` then reads the value and no other object changes; any other name answers false and changes nothing |
| Binding.Notify | Source/Component/AMBReactObject.swift:242-244 | running observers changes only property values and keeps every registered callback's objects in the heap |
| Binding.Fire | Source/Compiler/AMBFrameCompiler.swift:330-353 | a missing pointed value or a call without an answer leaves the heap as it was; an answer lands in the owner's property, and with nobody observing that property nothing else changes |
| Binding.CallbackArguments | Source/Compiler/AMBFrameCompiler.swift:330-353 | the listener is called with the owner first and then the pointed values in pointer order; a missing pointed value or a call without an answer leaves the heap as it was |
| Binding.CallbackWritesOwner | Source/Compiler/AMBFrameCompiler.swift:346-348 | when the owner's property named after the listener has no observers, an answer is written into it, and nothing else changes |
| Binding.NotifyAppend | Source/Component/AMBReactObject.swift:242-244 | observers run in registration order: notifying two lists in a row is notifying their concatenation |
| Binding.SetAndNotifyUnfold | Source/Component/AMBReactObject.swift:102-104 | a write with fuel left is the table write followed by the observers registered on that property, in order |
| Binding.ListenerSeesWrite | Source/Compiler/AMBFrameCompiler.swift:328-357 | after a write, the observing listener is called with the new value at every pointer to the written property, and its answer lands in the owner's property; with no answer nothing else changes |
| Binding.AddCallback | Source/Compiler/AMBFrameCompiler.swift:328-357 | one callback is appended to the observers of each pointed property, once per pointer naming it, after the observers it had; nothing but observer lists changes |
| Binding.RegisterObservers | Source/Compiler/AMBFrameCompiler.swift:355-357 | registration appends the callback to each pointed property once per pointer naming it, after the observers it had |
| Binding.RegisterKeeps | Source/Compiler/AMBFrameCompiler.swift:355-357 | registration changes nothing but observer lists |
| Binding.AddCallbackRegistersEverywhere | Source/Compiler/AMBFrameCompiler.swift:328-357 | the callback calls the listener on behalf of the owner, every pointed property has it among its observers, and unpointed properties and all values are unchanged |
| Binding.AddCallbackValid | Source/Compiler/AMBFrameCompiler.swift:328-357 | registering a callback whose objects exist keeps every registered callback's objects in the heap |
| FrameCompiler.ToJs | Source/Compiler/AMBFrameCompiler.swift:69-89 | scalars convert to the script value of the same kind, and a literal never converts to an object reference or a function |
| FrameCompiler.JsElements | Source/Language/AMBFrame.swift:144-150 | an array converts element by element, in order |
| FrameCompiler.JsFieldsLookup | Source/Language/AMBFrame.swift:183-190 | a dictionary converts to a script object whose keys are exactly the entries' keys, each holding its converted value |
| FrameCompiler.DefinitionRoundTrip | Source/Compiler/AMBFrameCompiler.swift:171-189 | the evaluated script reads back as the temporary's assignment followed by the function text of the value |
| FrameCompiler.CompileFunction | Source/Compiler/AMBFrameCompiler.swift:171-189 | success iff the script runs without error and binds the temporary, and then the result is the bound function; a script error or an unbound temporary is an error |
| FrameCompiler.AddPropertyName | Source/Compiler/AMBFrameCompiler.swift:154-161 | a name already declared fails with "Multi defined property names: " and the name; otherwise it is appended, keeping the names duplicate-free |
| FrameCompiler.CompileFrame | Source/Compiler/AMBFrameCompiler.swift:63-152 | the frame's object is appended to the heap after what was there, with the frame and its member names in order; a duplicate member name is an error |
| FrameCompiler.CompileMembers | Source/Compiler/AMBFrameCompiler.swift:65-150 | the members are compiled in order: other existing objects are untouched and the object declares exactly the frame's member names |
| FrameCompiler.CompileMember | Source/Compiler/AMBFrameCompiler.swift:66-146 | one member compiled: other existing objects and the object's frame and names are untouched |
| FrameCompiler.StoreLiteral | Source/Compiler/AMBFrameCompiler.swift:69-89 | a literal member's converted value is stored under its name, and no other property changes |
| FrameCompiler.CompileChild | Source/Compiler/AMBFrameCompiler.swift:90-100 | a nested frame's objects are appended and the parent holds the child under the child's instance name; compiling the child fails iff the nested compile fails |
| FrameCompiler.CompileFunctionMember | Source/Compiler/AMBFrameCompiler.swift:101-145 | a function member fails exactly when its script does not compile, with that message; Init is stored under its `@body` name, Event and procedure functions under the member name, a listener in its listener slot with a null initial value |
| FrameCompiler.InitListenerReturnValue | Source/Compiler/AMBFrameCompiler.swift:124-128 | the listener's property starts out null, other properties and the listener's own function slot are untouched |
| FrameCompiler.ObjectMap | Source/Compiler/AMBFrameCompiler.swift:202-220 | the object is keyed by its path; every key is a path below it and names an object of its subtree |
| FrameCompiler.MergeChildren | Source/Compiler/AMBFrameCompiler.swift:211-218 | merging the child maps keeps every key already present, and only adds keys strictly below the parent's path |
| FrameCompiler.SiblingMapsDisjoint | Source/Compiler/AMBFrameCompiler.swift:211-218 | the maps of two different child frames share no key |
| FrameCompiler.MergeIsFold | Source/Compiler/AMBFrameCompiler.swift:211-218 | the merge is the left-to-right union of the child frames' maps |
| FrameCompiler.ChildMapIncluded | Source/Compiler/AMBFrameCompiler.swift:202-220 | every entry of a child frame's map is an entry of its parent's map; in particular the child is keyed by the parent's path, a dot and its instance name |
| FrameCompiler.MakePointerString | Source/Compiler/AMBFrameCompiler.swift:284-308 | fewer than two segments fail with "Too short path expression: " and the path; otherwise the property is the last segment, and the object path is the current path (for `self`) or the root, each followed by the middle segments with a dot before each |
| FrameCompiler.MakePointerStringLoop | Source/Compiler/AMBFrameCompiler.swift:284-308 | the loop over the middle segments computes exactly `makePointerString` |
| FrameCompiler.PathToPointer | Source/Compiler/AMBFrameCompiler.swift:271-282 | a short path keeps its error; an object path absent from the map fails with "No object at path " and the path; otherwise the resulting pointer carries the argument name, the object found and the property |
| FrameCompiler.SelfPointer | Source/Compiler/AMBFrameCompiler.swift:271-308 | `self.p` resolves to property `p` of the object the current path names |
| FrameCompiler.ListenerPointers | Source/Compiler/AMBFrameCompiler.swift:251-260 | success iff every argument resolves, and then one pointer per argument in order; otherwise the error of the first argument that fails |
| FrameCompiler.MakeObjectPointer | Source/Compiler/AMBFrameCompiler.swift:243-269 | only the pointer table changes, and the object succeeds iff every listener member's arguments resolve |
| FrameCompiler.MakeObjectPointerFails | Source/Compiler/AMBFrameCompiler.swift:243-269 | a failure is the error of the first listener whose arguments do not resolve: that listener fails with exactly this message and every listener before it resolves |
| FrameCompiler.MakeObjectPointerKeeps | Source/Compiler/AMBFrameCompiler.swift:243-269 | a name no later member declares keeps its pointer entry |
| FrameCompiler.MakeObjectPointerStores | Source/Compiler/AMBFrameCompiler.swift:243-269 | with distinct member names, each listener ends up with exactly the pointers its arguments resolve to |
| FrameCompiler.MakeObjectPointers | Source/Compiler/AMBFrameCompiler.swift:222-241 | the walk changes pointer tables only, objects outside the subtree are untouched, and on success every object of the subtree has each listener resolved, under the path the object map gives that object, to exactly the pointers its arguments name |
| FrameCompiler.PointersOfChildren | Source/Compiler/AMBFrameCompiler.swift:233-239 | the child walk changes only the child subtrees still to visit, and resolves every object in them |
| FrameCompiler.SelfResolvesToOwner | Source/Compiler/AMBFrameCompiler.swift:222-232 | with the object's own map inside the map being resolved against, `self.p` names the compiling object itself, at property `p` |
| FrameCompiler.ChildWalkAgrees | Source/Compiler/AMBFrameCompiler.swift:202-241 | the pointer walk hands each child frame the path under which the object map holds it |
| FrameCompiler.SelfArgumentPointsAtOwner | Source/Compiler/AMBFrameCompiler.swift:202-307 | in a tree resolved against a map that holds the tree's own map, with dot-free member names, a listener argument `self.p` of any object of the tree points at that object's own property `p` |
| FrameCompiler.LinkedSelfArgument | Source/Compiler/AMBFrameCompiler.swift:191-200 | after `allocateListnerCallers` on a built tree with dot-free member names, which is the heap `compile` returns, every `self.p` argument of every object of the tree points at that object's own property `p` |
| FrameCompiler.Nested | Source/Compiler/AMBFrameCompiler.swift:202-241 | two subtrees that share an object are nested |
| FrameCompiler.SiblingTreesDisjoint | Source/Compiler/AMBFrameCompiler.swift:233-239 | an object below one child frame is not below a later sibling, so visiting one child does not disturb the others |
| FrameCompiler.LinkOne | Source/Compiler/AMBFrameCompiler.swift:318-323 | a listener without pointers fails with "Failed to get pointers for listner: " and the name; otherwise its callback gets registered on every pointed property, and only observer lists grow |
| FrameCompiler.LinkListeners | Source/Compiler/AMBFrameCompiler.swift:310-326 | every listener slot of every object of the subtree has pointers and gets its callback registered, and only observer lists grow; a failure is a missing-pointers error |
| FrameCompiler.LinkChildren | Source/Compiler/AMBFrameCompiler.swift:312-324 | the loop over scripted names links the remaining child subtrees and registers the remaining listener slots; a failure is a missing-pointers error |
| FrameCompiler.AllocateListenerCallers | Source/Compiler/AMBFrameCompiler.swift:191-200 | a pointer error is returned as is; success changes no frame, value or name, resolves every listener of the tree under its object-map path, and registers every listener's callback |
| FrameCompiler.Compile | Source/Compiler/AMBFrameCompiler.swift:35-61 | the stages run in order and the first failure is returned; on success the root object holds the frame and its member names, every listener of the tree is resolved and registered, the default mapper's component tree mirrors the object tree, and a custom mapper's answer is returned as is |
| FrameCompiler.BuiltTreeShaped | Source/Compiler/AMBFrameCompiler.swift:63-100 | the compiled heap is a tree: children after parents, one parent each, distinct names per object |
| Components.NewComponent | Source/Component/AMBComponent.swift:42-46 | a new component has no object and no children |
| Components.AddChild | Source/Component/AMBComponent.swift:53-55 | the child is appended after the earlier children, which stay as they were |
| Components.Setup | Source/Component/AMBComponent.swift:48-51 | `setup` never fails and makes the object readable, keeping the children |
| Components.ChildObjects | Source/Component/AMBComponentMapper.swift:41-53 | every child-frame object lies after its parent in the heap |
| Components.Map | Source/Component/AMBComponentMapper.swift:23-25 | the default mapper never fails and gives a component tree that mirrors the object tree; a mapper that overrides `map` answers exactly what its own function answers |
| Components.MapObject | Source/Component/AMBComponentMapper.swift:27-39 | the component holds the object and has one child per child frame, each mirroring its object; another class name is only logged |
| Components.MapChildObjects | Source/Component/AMBComponentMapper.swift:41-53 | one child component per scripted name holding a child frame, appended after the existing children, in scripted-name order |
| Components.NewManager | Source/Component/AMBComponentManager.swift:37-50 | a fresh manager knows exactly the class `Object`, with the built-in allocator |
| Components.Allocate | Source/Component/AMBComponentManager.swift:52-59 | an unregistered class fails with a message naming it; `Object` gives a set-up component; a custom allocator gives what it answers |
| Components.AddAllocator | Source/Component/AMBComponentManager.swift:61-71 | the class then has exactly the new allocator, and every other class keeps its allocator |
| Components.FreshManager | Source/Component/AMBComponentManager.swift:37-59 | a fresh manager allocates a set-up component with no children for class `Object` |
| Components.Shared | Source/Component/AMBComponentManager.swift:25-35 | the stored manager is returned unchanged, and a new one is stored first when none is |
| Components.SharedIsStable | Source/Component/AMBComponentManager.swift:25-35 | every access after the first returns the same manager and changes nothing |
| Components.InitCalls | Source/Component/AMBComponentExecutor.swift:26-38 | at most one call per member, every call with no arguments |
| Components.InitCallsExactly | Source/Component/AMBComponentExecutor.swift:26-38 | a call is made exactly for a function that an Init member of the object holds, with no arguments; absent functions are skipped |
| Components.InitCallsAppend | Source/Component/AMBComponentExecutor.swift:28-37 | the calls follow member order: the calls for `ms + ns` are the calls for `ms` followed by those for `ns` |
| Components.InitCallOfMember | Source/Component/AMBComponentExecutor.swift:28-37 | one member gives exactly one call, to the function stored under its `@body` name with no arguments, when it is an Init member whose function the object holds, and no call otherwise |
| Components.Exec | Source/Component/AMBComponentExecutor.swift:20-39 | execution runs the Init calls of the objects in post-order: each child's subtree, in child order, before the component's own calls |

## Left out

- The tokenizer (`CNStringToToken`, `CNTokenStream`) is not part of this model. The parser reads a `seq<Token>` with a cursor. A token is consumed only when it matches.
- `unget` after the type in `parseProperty` depends on the unseen stream. It is modelled as a look-ahead: the next token starts the literal when it is not a function keyword.
- `requireAnyIdentifier` is modelled as accepting an identifier only.
- Floating-point literals and `NSNumber`/`JSValue` conversions are left out. Numbers are integers, and `floatValue` is the integer read as a real.
- The script engine is uninterpreted. `evaluateScript`, error counts and `JSValue.call` are the `Engine` parameter.
- Script calls cannot touch the heap except through the value a callback writes back.
- `defineRootProperty` and `defineGetterAndSetters` (Source/Compiler/AMBFrameCompiler.swift:364-401) only emit script text whose meaning lives in the engine, so they are left out.
- `CNObservedValueTable` is external. Notification is modelled as synchronous, in registration order.
- ReactObjects.SetImmediateValue: it writes the object's table only. The notification that the observed table performs on every write is modelled at heap level by Binding.SetAndNotify, which Binding.Set and Binding.Fire go through. The typed setters (`setBoolValue`, `setInt32Value`, `setFloatValue`, `setStringValue`, `setObjectValue`) are modelled the same way, as object-level writes.
- ReactObjects.SetObjectValue: the conversion of a native object into a script value (`JSValue(object:in:)`) is outside the model; the setter takes the converted value. The failure branch of each typed setter, which only logs, is left out, because allocating a value does not fail in the model.
- Binding.SetAndNotify: the cascade of observer calls is bounded by `fuel`. The source has no cycle guard, so termination is not claimed. What happens beyond the fuel bound is not modelled.
- `initListnerReturnValue` is not defined in the `AMBReactObject` shown. It is modelled as storing null under the listener's property.
- The executor calls each Init function with an empty argument list, as the source does, although the function text declares a `self` parameter. What `self` then means inside the script is up to the engine, which is uninterpreted.
- The executor reads an Init function under `ident + "@body"`, the name the compiler stores it under. The executor's `functionName` accessor is not defined in the `AMBFrame.swift` shown.
- Parser.Parse: the stream's `lineNo` is taken to be the line of the token at the cursor. Past the last token, neither a token nor a line is named. A token's `description` belongs to the tokenizer, so it is the `describe` parameter of the parser's context.
- Parser.ParseDictElems: its contract states only that keys are kept and stay distinct. The exact entries after each step are stated by ParserFacts.DictStep and ParserFacts.RepeatedKeyOverwrites.
- Strings.Join: its contract states the first element and the length only. The full content is pinned down by Strings.SplitJoin, which splits the text back into the elements.
- FrameCompiler.LinkedSelfArgument: it assumes dot-free member names. The tokenizer is configured so that identifiers never contain a period (Source/Language/AMBParser.swift:35), and a name with a dot could make two paths collide in the object map. It is stated for the heap `allocateListnerCallers` returns, which Compile's contract identifies as the heap `compile` returns.
- ParserRoundTrip.ParseRoundTrip: it is stated for frames whose string literals hold no backslash-n escape. The folding pass decodes such an escape into a newline, so the printed text would not read back as itself.
- Frames.FunctionHeader: its contract states the keyword and the closing ` %{` only. The exact header of every function kind, `Init %{` and the parenthesised parameter list of the others, is stated by Frames.HeaderAndScriptArgument.
- FrameCompiler.Compile: a mapper that overrides `map` is an arbitrary function of the object tree. Nothing is promised of its component tree beyond its being returned as is.
- The private `decode` helper of the parser, which would also decode tab escapes, is never called. Only the newline escape is decoded.
- FrameCompiler.ToJs: function values and frames never occur inside array or dictionary literals, so their conversion is not modelled (it gives null).
- ParserRoundTrip.LiteralRoundTrip: the printer spells only scalars, arrays and dictionaries with distinct keys. Identifier (enum) literals are covered by ParserFacts.IdentifierLiteral instead.
- Logging (`CNLog`) is left out.
- The log message for a class name other than `Object` during mapping is left out.
- `checkResultType` messages are computed from the parsed tree (Frames.CheckResultType) rather than threaded through the parser, since they never change its result.
- `AMBThread` and `AMBSemaphore` (concurrency and file loading) are left out.
- `AMBLibraryCompiler` (library binding) is left out.
- `AMBDataReader` is left out.
- The dumpers are left out.
- The superseded revisions `AMBIR.swift`, `Source/Compiler/AMBCompiler.swift` and `Source/Component/AMBCompiler.swift` are not part of this model.

=== FILE: binding.dfy ===
/** The heap of compiled react objects, the script engine as the compiler sees it, and the
    listener callback of `AMBFrameCompiler.addCallback`: how a callback gathers its
    arguments, where it writes its result, and how a write notifies the observers of the
    written property. */
module Binding {
  import opened Wrappers
  import opened Frames
  import opened ReactObjects

  /** All react objects, addressed by index. */
  type Heap = seq<ReactObject>

  /** What evaluating `name = function(...) {...}` leaves behind: the script failed (the
      engine's error count went up), or it ran and `name` is bound to a function object
      or to nothing. */
  datatype EvalOutcome = ScriptFailed | Evaluated(bound: Option<nat>)

  /** The script engine, uninterpreted: evaluating a script, and calling a function value
      with arguments (`JSValue.call(withArguments:)`). */
  datatype Engine = Engine(evaluate: string -> EvalOutcome, call: (JsValue, seq<JsValue>) -> Option<JsValue>)

  predicate PointersIn(ptrs: seq<ObjectPointer>, n: nat) {
    forall i :: 0 <= i < |ptrs| ==> ptrs[i].pointedObject < n
  }

  predicate CallbackIn(cb: Callback, n: nat) {
    cb.owner < n && PointersIn(cb.pointers, n)
  }

  predicate CallbacksIn(cbs: seq<Callback>, n: nat) {
    forall j :: 0 <= j < |cbs| ==> CallbackIn(cbs[j], n)
  }

  /** Every object a registered callback names exists. */
  predicate Valid(h: Heap) {
    forall i, p :: 0 <= i < |h| && p in h[i].observers ==> CallbacksIn(h[i].observers[p], |h|)
  }

  lemma ValidObservers(h: Heap, i: nat, p: string)
    requires Valid(h) && i < |h|
    ensures CallbacksIn(ObserversOf(h[i], p), |h|)
  {
  }

  /** Two heaps that differ at most in property values. */
  predicate SameShape(h: Heap, r: Heap) {
    |r| == |h|
    && forall i :: 0 <= i < |h| ==>
         r[i].frame == h[i].frame && r[i].scripted == h[i].scripted
         && r[i].observers == h[i].observers && r[i].pointerTable == h[i].pointerTable
  }

  lemma SameShapeValid(h: Heap, r: Heap)
    requires Valid(h) && SameShape(h, r)
    ensures Valid(r)
  {
    forall i, p | 0 <= i < |r| && p in r[i].observers
      ensures CallbacksIn(r[i].observers[p], |r|)
    {
      assert r[i].observers == h[i].observers;
    }
  }

  lemma SameShapeTrans(a: Heap, b: Heap, c: Heap)
    requires SameShape(a, b) && SameShape(b, c)
    ensures SameShape(a, c)
  {
  }

  /** Child frames are compiled after their parent, so every react object a property
      refers to comes later in the heap. */
  predicate Forward(h: Heap) {
    forall i, p :: 0 <= i < |h| && p in h[i].props && h[i].props[p].JRef? ==> i < h[i].props[p].id < |h|
  }

  /** A child frame is stored under its own instance name. */
  predicate ChildrenNamed(h: Heap) {
    forall i, p :: 0 <= i < |h| && p in h[i].props && h[i].props[p].JRef? ==>
      h[i].props[p].id < |h| && h[h[i].props[p].id].frame.instanceName == p
  }

  lemma ChildAfterParent(h: Heap, i: ObjId, p: string)
    requires Forward(h) && i < |h| && ChildFrame(h[i], p).Some?
    ensures i < ChildFrame(h[i], p).value < |h|
  {
  }

  /** Heaps that agree on everything the tree walks read: frames, properties, scripted names. */
  predicate SameTree(h: Heap, r: Heap) {
    |r| == |h|
    && forall i :: 0 <= i < |h| ==> r[i].frame == h[i].frame && r[i].props == h[i].props && r[i].scripted == h[i].scripted
  }

  lemma SameTreeKeeps(h: Heap, r: Heap)
    requires SameTree(h, r)
    ensures Forward(h) ==> Forward(r)
    ensures ChildrenNamed(h) ==> ChildrenNamed(r)
  {
  }

  // ---------------------------------------------------------------------------
  // The callback

  /** The current values of the pointed properties, in pointer order; nothing as soon as
      one of them is absent. */
  function PointedValues(h: Heap, ptrs: seq<ObjectPointer>): (r: Option<seq<JsValue>>)
    requires PointersIn(ptrs, |h|)
    ensures r.Some? <==> forall i :: 0 <= i < |ptrs| ==> ptrs[i].pointedName in h[ptrs[i].pointedObject].props
    ensures r.Some? ==> (|r.value| == |ptrs|
      && forall i :: 0 <= i < |ptrs| ==> r.value[i] == h[ptrs[i].pointedObject].props[ptrs[i].pointedName])
  {
    if |ptrs| == 0 then Some([])
    else
      match ImmediateValue(h[ptrs[0].pointedObject], ptrs[0].pointedName)
      case None => None
      case Some(v) =>
        match PointedValues(h, ptrs[1..])
        case None => None
        case Some(vs) => Some([v] + vs)
  }

  /** The arguments of the listener call: the owner object, then the pointed values. */
  function CallArguments(h: Heap, cb: Callback): Option<seq<JsValue>>
    requires CallbackIn(cb, |h|)
  {
    match PointedValues(h, cb.pointers)
    case None => None
    case Some(vs) => Some([JRef(cb.owner)] + vs)
  }

  /** Writing `v` into property `p` of object `id`, then running the observers of that
      property in registration order. `fuel` bounds the depth of the cascade: with no fuel
      left the value is written and nobody is notified. Without observers on the written
      property, the write is just the table write. */
  function SetAndNotify(h: Heap, eng: Engine, id: ObjId, p: string, v: JsValue, fuel: nat): (r: Heap)
    requires Valid(h) && id < |h|
    ensures SameShape(h, r) && Valid(r)
    ensures ObserversOf(h[id], p) == [] || fuel == 0 ==> r == h[id := SetImmediateValue(h[id], p, v)]
    decreases fuel, 1
  {
    var h1 := h[id := SetImmediateValue(h[id], p, v)];
    assert SameShape(h, h1);
    SameShapeValid(h, h1);
    if fuel == 0 then h1
    else
      assert ObserversOf(h1[id], p) == ObserversOf(h[id], p);
      ValidObservers(h1, id, p);
      var r := Notify(h1, eng, ObserversOf(h1[id], p), fuel - 1);
      SameShapeTrans(h, h1, r);
      r
  }

  /** `set(_:_:)` from script: a string name stores the value, notifying the observers of
      that property, and answers true; any other name changes nothing and answers false. */
  function Set(h: Heap, eng: Engine, id: ObjId, name: JsValue, v: JsValue, fuel: nat): (r: (JsValue, Heap))
    requires Valid(h) && id < |h|
    ensures name.JStr? <==> r.0 == JBool(true)
    ensures !name.JStr? ==> r == (JBool(false), h)
    ensures name.JStr? ==> r.1 == SetAndNotify(h, eng, id, name.s, v, fuel) && SameShape(h, r.1) && Valid(r.1)
    ensures name.JStr? && (ObserversOf(h[id], name.s) == [] || fuel == 0) ==>
      Get(r.1[id], name) == v && forall i :: 0 <= i < |h| && i != id ==> r.1[i] == h[i]
  {
    if name.JStr? then
      (JBool(true), SetAndNotify(h, eng, id, name.s, v, fuel))
    else (JBool(false), h)
  }

  /** Runs the callbacks one after the other, each on the heap the previous one left. */
  function Notify(h: Heap, eng: Engine, cbs: seq<Callback>, fuel: nat): (r: Heap)
    requires Valid(h) && CallbacksIn(cbs, |h|)
    ensures SameShape(h, r) && Valid(r)
    decreases fuel, 3, |cbs|
  {
    if |cbs| == 0 then h
    else
      var h1 := Fire(h, eng, cbs[0], fuel);
      var r := Notify(h1, eng, cbs[1..], fuel);
      SameShapeTrans(h, h1, r);
      r
  }

  /** One run of the callback: when every pointed value is present and the call answers,
      the answer is written into the owner's property; otherwise no object changes. */
  function Fire(h: Heap, eng: Engine, cb: Callback, fuel: nat): (r: Heap)
    requires Valid(h) && CallbackIn(cb, |h|)
    ensures SameShape(h, r) && Valid(r)
    ensures CallArguments(h, cb).None? ==> r == h
    ensures CallArguments(h, cb).Some? && eng.call(cb.listener, CallArguments(h, cb).value).None? ==> r == h
    ensures CallArguments(h, cb).Some? && eng.call(cb.listener, CallArguments(h, cb).value).Some?
            && ObserversOf(h[cb.owner], cb.ownerProperty) == [] ==>
      ImmediateValue(r[cb.owner], cb.ownerProperty) == eng.call(cb.listener, CallArguments(h, cb).value)
      && (forall q :: q != cb.ownerProperty ==> ImmediateValue(r[cb.owner], q) == ImmediateValue(h[cb.owner], q))
      && (forall i :: 0 <= i < |h| && i != cb.owner ==> r[i] == h[i])
    decreases fuel, 2
  {
    match CallArguments(h, cb)
    case None => h
    case Some(args) =>
      match eng.call(cb.listener, args)
      case None => h
      case Some(res) => SetAndNotify(h, eng, cb.owner, cb.ownerProperty, res, fuel)
  }

  /** The callback rule: the listener is called with the owner first and then the pointed
      values in pointer order; if a pointed value is missing, or the call gives nothing,
      no object changes. */
  lemma CallbackArguments(h: Heap, eng: Engine, cb: Callback, fuel: nat)
    requires Valid(h) && CallbackIn(cb, |h|)
    ensures CallArguments(h, cb).Some? <==>
      forall i :: 0 <= i < |cb.pointers| ==> cb.pointers[i].pointedName in h[cb.pointers[i].pointedObject].props
    ensures CallArguments(h, cb).Some? ==>
      var args := CallArguments(h, cb).value;
      |args| == |cb.pointers| + 1 && args[0] == JRef(cb.owner)
      && forall i :: 0 <= i < |cb.pointers| ==>
           args[i + 1] == h[cb.pointers[i].pointedObject].props[cb.pointers[i].pointedName]
    ensures CallArguments(h, cb).None? ==> Fire(h, eng, cb, fuel) == h
    ensures CallArguments(h, cb).Some? && eng.call(cb.listener, CallArguments(h, cb).value).None?
            ==> Fire(h, eng, cb, fuel) == h
  {
  }

  /** When the owner's property has no observers, a callback that answers `res` writes
      `res` into that property and changes nothing else. */
  lemma CallbackWritesOwner(h: Heap, eng: Engine, cb: Callback, fuel: nat, res: JsValue)
    requires Valid(h) && CallbackIn(cb, |h|)
    requires CallArguments(h, cb).Some? && eng.call(cb.listener, CallArguments(h, cb).value) == Some(res)
    requires ObserversOf(h[cb.owner], cb.ownerProperty) == []
    ensures var r := Fire(h, eng, cb, fuel);
      ImmediateValue(r[cb.owner], cb.ownerProperty) == Some(res)
      && (forall q :: q != cb.ownerProperty ==> ImmediateValue(r[cb.owner], q) == ImmediateValue(h[cb.owner], q))
      && (forall i :: 0 <= i < |h| && i != cb.owner ==> r[i] == h[i])
  {
    var r := Fire(h, eng, cb, fuel);
    assert r == SetAndNotify(h, eng, cb.owner, cb.ownerProperty, res, fuel);
    if fuel > 0 {
      var h1 := h[cb.owner := SetImmediateValue(h[cb.owner], cb.ownerProperty, res)];
      assert ObserversOf(h1[cb.owner], cb.ownerProperty) == [];
      assert Notify(h1, eng, [], fuel - 1) == h1;
    }
  }

  /** A write with fuel left is the table write followed by the observers of the written
      property, as registered, with one unit of fuel less. */
  lemma SetAndNotifyUnfold(h: Heap, eng: Engine, id: ObjId, p: string, v: JsValue, fuel: nat)
    requires Valid(h) && id < |h| && fuel > 0
    ensures var h1 := h[id := SetImmediateValue(h[id], p, v)];
      Valid(h1) && CallbacksIn(ObserversOf(h[id], p), |h1|)
      && SetAndNotify(h, eng, id, p, v, fuel) == Notify(h1, eng, ObserversOf(h[id], p), fuel - 1)
  {
    var h1 := h[id := SetImmediateValue(h[id], p, v)];
    assert SameShape(h, h1);
    SameShapeValid(h, h1);
    ValidObservers(h, id, p);
  }

  /** Observers run in registration order: notifying `xs + ys` is notifying `xs`, then
      `ys` on the heap `xs` left. */
  lemma {:induction false} NotifyAppend(h: Heap, eng: Engine, xs: seq<Callback>, ys: seq<Callback>, fuel: nat)
    requires Valid(h) && CallbacksIn(xs, |h|) && CallbacksIn(ys, |h|)
    ensures CallbacksIn(xs + ys, |h|) && CallbacksIn(ys, |Notify(h, eng, xs, fuel)|)
    ensures Notify(h, eng, xs + ys, fuel) == Notify(Notify(h, eng, xs, fuel), eng, ys, fuel)
    decreases |xs|
  {
    if |xs| == 0 {
      assert xs + ys == ys;
    } else {
      var h1 := Fire(h, eng, xs[0], fuel);
      assert (xs + ys)[0] == xs[0];
      assert (xs + ys)[1..] == xs[1..] + ys;
      NotifyAppend(h1, eng, xs[1..], ys, fuel);
    }
  }

  /** A listener pointing at the written property sees the new value among its arguments,
      and its answer lands in the owner's property: writing `v` notifies the one observer
      `cb`, which calls the listener with the owner and the pointed values read after the
      write. */
  lemma ListenerSeesWrite(h: Heap, eng: Engine, id: ObjId, p: string, v: JsValue, fuel: nat, cb: Callback)
    requires Valid(h) && id < |h| && fuel >= 1
    requires ObserversOf(h[id], p) == [cb] && cb.owner < |h| && ObserversOf(h[cb.owner], cb.ownerProperty) == []
    ensures var h1 := h[id := SetImmediateValue(h[id], p, v)];
      var r := SetAndNotify(h, eng, id, p, v, fuel);
      CallbackIn(cb, |h1|)
      && (CallArguments(h1, cb).Some? ==>
            (forall i :: 0 <= i < |cb.pointers| && cb.pointers[i].pointedObject == id && cb.pointers[i].pointedName == p
                         ==> CallArguments(h1, cb).value[i + 1] == v)
            && (eng.call(cb.listener, CallArguments(h1, cb).value).Some? ==>
                  ImmediateValue(r[cb.owner], cb.ownerProperty) == eng.call(cb.listener, CallArguments(h1, cb).value)))
      && (CallArguments(h1, cb).None? || eng.call(cb.listener, CallArguments(h1, cb).value).None? ==> r == h1)
  {
    var h1 := h[id := SetImmediateValue(h[id], p, v)];
    SetAndNotifyUnfold(h, eng, id, p, v, fuel);
    assert CallbackIn(cb, |h1|) by {
      assert ObserversOf(h[id], p)[0] == cb;
    }
    assert [cb][1..] == [];
    assert SetAndNotify(h, eng, id, p, v, fuel) == Fire(h1, eng, cb, fuel - 1);
    CallbackArguments(h1, eng, cb, fuel - 1);
    match CallArguments(h1, cb)
    case None =>
    case Some(args) =>
      match eng.call(cb.listener, args)
      case None =>
      case Some(res) =>
        assert ObserversOf(h1[cb.owner], cb.ownerProperty) == [];
        CallbackWritesOwner(h1, eng, cb, fuel - 1, res);
  }

  // ---------------------------------------------------------------------------
  // Registration

  /** `count` copies of `cb`. */
  function Repeat(cb: Callback, count: nat): (r: seq<Callback>)
    ensures |r| == count && forall j :: 0 <= j < count ==> r[j] == cb
  {
    if count == 0 then [] else [cb] + Repeat(cb, count - 1)
  }

  /** How many pointers name property `p` of object `o`. */
  function PointsAt(ptrs: seq<ObjectPointer>, o: ObjId, p: string): nat {
    if |ptrs| == 0 then 0
    else (if ptrs[0].pointedObject == o && ptrs[0].pointedName == p then 1 else 0) + PointsAt(ptrs[1..], o, p)
  }

  lemma {:induction false} PointsAtMember(ptrs: seq<ObjectPointer>, i: nat)
    requires i < |ptrs|
    ensures PointsAt(ptrs, ptrs[i].pointedObject, ptrs[i].pointedName) > 0
    decreases i
  {
    if i > 0 {
      PointsAtMember(ptrs[1..], i - 1);
    }
  }

  lemma RepeatAdd(cb: Callback, a: nat, b: nat)
    ensures Repeat(cb, a) + Repeat(cb, b) == Repeat(cb, a + b)
  {
  }

  /** `addCallback`: one callback for the listener, appended to the observers of the
      pointed property of every pointer, once per pointer naming that property; nothing
      but observer lists changes. */
  function AddCallback(h: Heap, ptrs: seq<ObjectPointer>, owner: ObjId, prop: string, listener: JsValue): (r: Heap)
    requires owner < |h| && PointersIn(ptrs, |h|)
    ensures |r| == |h|
    ensures forall o, p :: 0 <= o < |h| ==>
      ObserversOf(r[o], p) == ObserversOf(h[o], p) + Repeat(Callback(owner, prop, listener, ptrs), PointsAt(ptrs, o, p))
    ensures forall o :: 0 <= o < |h| ==>
      r[o].props == h[o].props && r[o].frame == h[o].frame
      && r[o].scripted == h[o].scripted && r[o].pointerTable == h[o].pointerTable
  {
    var cb := Callback(owner, prop, listener, ptrs);
    var r := Register(h, ptrs, cb);
    assert forall o, p :: 0 <= o < |h| ==>
      ObserversOf(r[o], p) == ObserversOf(h[o], p) + Repeat(cb, PointsAt(ptrs, o, p)) by {
      forall o, p | 0 <= o < |h|
        ensures ObserversOf(r[o], p) == ObserversOf(h[o], p) + Repeat(cb, PointsAt(ptrs, o, p))
      {
        RegisterObservers(h, ptrs, cb, o, p);
      }
    }
    assert forall o :: 0 <= o < |h| ==>
      r[o].props == h[o].props && r[o].frame == h[o].frame
      && r[o].scripted == h[o].scripted && r[o].pointerTable == h[o].pointerTable by {
      forall o | 0 <= o < |h|
        ensures r[o].props == h[o].props && r[o].frame == h[o].frame
             && r[o].scripted == h[o].scripted && r[o].pointerTable == h[o].pointerTable
      {
        RegisterKeeps(h, ptrs, cb, o);
      }
    }
    r
  }

  function Register(h: Heap, ptrs: seq<ObjectPointer>, cb: Callback): (r: Heap)
    requires PointersIn(ptrs, |h|)
    ensures |r| == |h|
    decreases |ptrs|
  {
    if |ptrs| == 0 then h
    else
      var o := ptrs[0].pointedObject;
      Register(h[o := AddObserver(h[o], ptrs[0].pointedName, cb)], ptrs[1..], cb)
  }

  /** Registration appends the callback to each pointed property once per pointer naming it. */
  lemma {:induction false} RegisterObservers(h: Heap, ptrs: seq<ObjectPointer>, cb: Callback, o: ObjId, p: string)
    requires PointersIn(ptrs, |h|) && o < |h|
    ensures ObserversOf(Register(h, ptrs, cb)[o], p) == ObserversOf(h[o], p) + Repeat(cb, PointsAt(ptrs, o, p))
    decreases |ptrs|
  {
    if |ptrs| > 0 {
      var h1 := FirstRegistered(h, ptrs, cb);
      assert PointersIn(ptrs[1..], |h1|);
      RegisterObservers(h1, ptrs[1..], cb, o, p);
      RegisterStep(h, ptrs, cb, o, p);
    }
  }

  /** The heap after registering on the first pointer only. */
  function FirstRegistered(h: Heap, ptrs: seq<ObjectPointer>, cb: Callback): (r: Heap)
    requires |ptrs| > 0 && PointersIn(ptrs, |h|)
    ensures |r| == |h|
  {
    h[ptrs[0].pointedObject := AddObserver(h[ptrs[0].pointedObject], ptrs[0].pointedName, cb)]
  }

  lemma RegisterStep(h: Heap, ptrs: seq<ObjectPointer>, cb: Callback, o: ObjId, p: string)
    requires |ptrs| > 0 && PointersIn(ptrs, |h|) && o < |h|
    requires ObserversOf(Register(FirstRegistered(h, ptrs, cb), ptrs[1..], cb)[o], p)
          == ObserversOf(FirstRegistered(h, ptrs, cb)[o], p) + Repeat(cb, PointsAt(ptrs[1..], o, p))
    ensures ObserversOf(Register(h, ptrs, cb)[o], p) == ObserversOf(h[o], p) + Repeat(cb, PointsAt(ptrs, o, p))
  {
    var h1 := FirstRegistered(h, ptrs, cb);
    var here := if o == ptrs[0].pointedObject && p == ptrs[0].pointedName then 1 else 0;
    var before := ObserversOf(h[o], p);
    var first := Repeat(cb, here);
    var rest := Repeat(cb, PointsAt(ptrs[1..], o, p));
    RegisterUnfold(h, ptrs, cb);
    PointsAtUnfold(ptrs, o, p);
    OneObserver(h, ptrs[0].pointedObject, ptrs[0].pointedName, cb, o, p);
    assert ObserversOf(h1[o], p) == before + first;
    RepeatAdd(cb, here, PointsAt(ptrs[1..], o, p));
    assert (before + first) + rest == before + (first + rest);
  }

  lemma RegisterUnfold(h: Heap, ptrs: seq<ObjectPointer>, cb: Callback)
    requires |ptrs| > 0 && PointersIn(ptrs, |h|)
    ensures Register(h, ptrs, cb) == Register(FirstRegistered(h, ptrs, cb), ptrs[1..], cb)
  {
  }

  lemma PointsAtUnfold(ptrs: seq<ObjectPointer>, o: ObjId, p: string)
    requires |ptrs| > 0
    ensures PointsAt(ptrs, o, p)
         == (if o == ptrs[0].pointedObject && p == ptrs[0].pointedName then 1 else 0) + PointsAt(ptrs[1..], o, p)
  {
  }

  lemma OneObserver(h: Heap, o0: ObjId, q: string, cb: Callback, o: ObjId, p: string)
    requires o0 < |h| && o < |h|
    ensures ObserversOf(h[o0 := AddObserver(h[o0], q, cb)][o], p)
         == ObserversOf(h[o], p) + Repeat(cb, if o == o0 && p == q then 1 else 0)
  {
    if o == o0 && p == q {
      assert Repeat(cb, 1) == [cb];
    } else {
      assert ObserversOf(h[o], p) + Repeat(cb, 0) == ObserversOf(h[o], p);
    }
  }

  /** Registration changes nothing but observer lists. */
  lemma {:induction false} RegisterKeeps(h: Heap, ptrs: seq<ObjectPointer>, cb: Callback, o: ObjId)
    requires PointersIn(ptrs, |h|) && o < |h|
    ensures var r := Register(h, ptrs, cb);
      r[o].props == h[o].props && r[o].frame == h[o].frame
      && r[o].scripted == h[o].scripted && r[o].pointerTable == h[o].pointerTable
    decreases |ptrs|
  {
    if |ptrs| > 0 {
      var o0 := ptrs[0].pointedObject;
      RegisterKeeps(h[o0 := AddObserver(h[o0], ptrs[0].pointedName, cb)], ptrs[1..], cb, o);
    }
  }

  /** The registered callback calls the listener on behalf of the owner, and every pointed
      property now has it among its observers. */
  lemma {:induction false} AddCallbackRegistersEverywhere(h: Heap, ptrs: seq<ObjectPointer>, owner: ObjId, prop: string, listener: JsValue)
    requires owner < |h| && PointersIn(ptrs, |h|)
    ensures var r := AddCallback(h, ptrs, owner, prop, listener);
      var cb := Callback(owner, prop, listener, ptrs);
      (forall i :: 0 <= i < |ptrs| ==> cb in ObserversOf(r[ptrs[i].pointedObject], ptrs[i].pointedName))
      && (forall o, p :: 0 <= o < |h| && PointsAt(ptrs, o, p) == 0 ==> ObserversOf(r[o], p) == ObserversOf(h[o], p))
      && (forall o :: 0 <= o < |h| ==> r[o].props == h[o].props)
  {
    var cb := Callback(owner, prop, listener, ptrs);
    var r := AddCallback(h, ptrs, owner, prop, listener);
    forall i | 0 <= i < |ptrs|
      ensures cb in ObserversOf(r[ptrs[i].pointedObject], ptrs[i].pointedName)
    {
      var o := ptrs[i].pointedObject;
      var p := ptrs[i].pointedName;
      RegisterObservers(h, ptrs, cb, o, p);
      PointsAtMember(ptrs, i);
      assert ObserversOf(r[o], p)[|ObserversOf(h[o], p)|] == cb;
    }
    forall o, p | 0 <= o < |h| && PointsAt(ptrs, o, p) == 0
      ensures ObserversOf(r[o], p) == ObserversOf(h[o], p)
    {
      RegisterObservers(h, ptrs, cb, o, p);
      assert ObserversOf(h[o], p) + [] == ObserversOf(h[o], p);
    }
    forall o | 0 <= o < |h|
      ensures r[o].props == h[o].props
    {
      RegisterKeeps(h, ptrs, cb, o);
    }
  }

  /** Registering a callback whose objects exist keeps the heap valid. */
  lemma {:induction false} AddCallbackValid(h: Heap, ptrs: seq<ObjectPointer>, owner: ObjId, prop: string, listener: JsValue)
    requires Valid(h) && owner < |h| && PointersIn(ptrs, |h|)
    ensures Valid(AddCallback(h, ptrs, owner, prop, listener))
  {
    var cb := Callback(owner, prop, listener, ptrs);
    var r := AddCallback(h, ptrs, owner, prop, listener);
    forall i, p | 0 <= i < |r| && p in r[i].observers
      ensures CallbacksIn(r[i].observers[p], |r|)
    {
      ValidObservers(h, i, p);
      RegisterObservers(h, ptrs, cb, i, p);
      assert ObserversOf(r[i], p) == r[i].observers[p];
      var old_ := ObserversOf(h[i], p);
      var cbs := ObserversOf(r[i], p);
      forall j | 0 <= j < |cbs|
        ensures CallbackIn(cbs[j], |r|)
      {
        if j < |old_| {
          assert cbs[j] == old_[j];
        } else {
          assert cbs[j] == cb;
        }
      }
    }
  }
}

=== FILE: compiler.dfy ===
/** The frame compiler (`AMBFrameCompiler`): it turns a frame tree into react objects on a
    heap, resolves every listener's path arguments to object pointers, and registers the
    listener callbacks on the properties they read. The script engine is the `Engine`
    parameter; the getter/setter script text the compiler also emits is not modelled. */
module FrameCompiler {
  import opened Wrappers
  import opened Strings
  import opened Frames
  import opened ReactObjects
  import opened Binding
  import opened Components

  const TemporaryVariableName: string := "_amber_temp_var"

  predicate NoDuplicates(xs: seq<string>) {
    forall a, b :: 0 <= a < b < |xs| ==> xs[a] != xs[b]
  }

  // ---------------------------------------------------------------------------
  // Literal values

  /** `toJSValue` of a literal. Function values and frames are never array or dictionary
      elements; they map to null. */
  function ToJs(v: Value): (r: JsValue)
    ensures !r.JRef? && !r.JFunc?
    ensures v.ScalarV? && v.scalar.BoolS? ==> r == JBool(v.scalar.b)
    ensures v.ScalarV? && v.scalar.NumS? ==> r == JNum(v.scalar.n)
    ensures v.ScalarV? && v.scalar.StrS? ==> r == JStr(v.scalar.s)
    decreases v, 1
  {
    match v
    case ScalarV(BoolS(b)) => JBool(b)
    case ScalarV(NumS(n)) => JNum(n)
    case ScalarV(StrS(s)) => JStr(s)
    case ArrayV(es) => JArray(JsElements(es))
    case DictV(es) => JDict(JsFields(es))
    case _ => JNull
  }

  function JsElements(es: seq<Value>): (r: seq<JsValue>)
    ensures |r| == |es|
    ensures forall i :: 0 <= i < |es| ==> r[i] == ToJs(es[i])
    decreases es, 0
  {
    if |es| == 0 then [] else [ToJs(es[0])] + JsElements(es[1..])
  }

  /** The dictionary as a script object: exactly the keys the entries hold, each with the
      value `Lookup` finds for it. */
  function JsFields(es: seq<Entry>): (r: map<string, JsValue>)
    ensures forall k :: k in r <==> Lookup(es, k).Some?
    decreases es, 0
  {
    if |es| == 0 then map[] else JsFields(es[1..])[es[0].key := ToJs(es[0].val)]
  }

  /** Each key of the script object holds the converted value `Lookup` finds for it. */
  lemma {:induction false} JsFieldsLookup(es: seq<Entry>, k: string)
    requires Lookup(es, k).Some?
    ensures k in JsFields(es) && JsFields(es)[k] == ToJs(Lookup(es, k).value)
    decreases |es|
  {
    if es[0].key != k {
      JsFieldsLookup(es[1..], k);
    }
  }

  // ---------------------------------------------------------------------------
  // Functions

  /** The script `compileFunction` evaluates: the function text assigned to a temporary. */
  function FunctionDefinition(ident: string, v: Value): string
    requires IsFunction(v)
  {
    TemporaryVariableName + ident + " = " + ToScript(v)
  }

  /** The definition reads back as the temporary's assignment followed by a function whose
      parameter text and body are the member's. */
  lemma DefinitionRoundTrip(ident: string, v: Value)
    requires WellFormedFunction(v)
    ensures var d := FunctionDefinition(ident, v);
      var lhs := TemporaryVariableName + ident + " = ";
      |lhs| <= |d| && d[..|lhs|] == lhs
      && DecodeFunctionScript(d[|lhs|..]) == Some((ScriptArgument(v), v.script))
  {
    var lhs := TemporaryVariableName + ident + " = ";
    var d := FunctionDefinition(ident, v);
    assert d == lhs + ToScript(v);
    assert d[|lhs|..] == ToScript(v);
  }

  /** `compileFunction`: a script error, or a temporary left unbound, is a compile error. */
  function CompileFunction(eng: Engine, ident: string, v: Value): (r: Result<JsValue>)
    requires IsFunction(v)
    ensures eng.evaluate(FunctionDefinition(ident, v)).ScriptFailed?
            ==> r == Err("Failed to compile function: " + ident + "\n" + FunctionDefinition(ident, v))
    ensures eng.evaluate(FunctionDefinition(ident, v)) == Evaluated(None)
            ==> r == Err("No compile result for function: " + ident)
    ensures r.Ok? <==> eng.evaluate(FunctionDefinition(ident, v)).Evaluated? && eng.evaluate(FunctionDefinition(ident, v)).bound.Some?
    ensures r.Ok? ==> r.value == JFunc(eng.evaluate(FunctionDefinition(ident, v)).bound.value)
  {
    var script := FunctionDefinition(ident, v);
    match eng.evaluate(script)
    case ScriptFailed => Err("Failed to compile function: " + ident + "\n" + script)
    case Evaluated(None) => Err("No compile result for function: " + ident)
    case Evaluated(Some(f)) => Ok(JFunc(f))
  }

  // ---------------------------------------------------------------------------
  // Building react objects

  /** What every heap the compiler builds satisfies: children come later and sit under
      their own instance names, no observer or pointer is registered yet, and no object
      declares a name twice. */
  predicate WellBuilt(h: Heap) {
    Forward(h) && ChildrenNamed(h) && UniqueParents(h)
    && forall i :: 0 <= i < |h| ==>
         h[i].observers == map[] && h[i].pointerTable == map[] && NoDuplicates(h[i].scripted)
  }

  /** Every object is held by at most one property of one object, so the objects form a
      tree. */
  predicate UniqueParents(h: Heap) {
    forall i, p, i', p' ::
      (0 <= i < |h| && 0 <= i' < |h| && p in h[i].props && p' in h[i'].props
       && h[i].props[p].JRef? && h[i].props[p] == h[i'].props[p'])
      ==> i == i' && p == p'
  }

  /** Nothing refers to the first object appended after `h`. */
  predicate Unreferenced(h: Heap, c: ObjId) {
    forall i, p :: 0 <= i < |h| && p in h[i].props && h[i].props[p].JRef? ==> h[i].props[p].id != c
  }

  lemma AppendedUnreferenced(h: Heap, h1: Heap)
    requires Forward(h) && Forward(h1) && |h| < |h1| && h1[..|h|] == h
    ensures Unreferenced(h1, |h|)
  {
    forall i, p | 0 <= i < |h1| && p in h1[i].props && h1[i].props[p].JRef?
      ensures h1[i].props[p].id != |h|
    {
      if i < |h| {
        assert h1[i] == h1[..|h|][i] == h[i];
      }
    }
  }

  /** The object declares exactly its frame's member names, in order. */
  predicate Declared(o: ReactObject) {
    o.scripted == Idents(o.frame.members)
  }

  /** Replacing one object by one with the same frame, scripted names and empty tables,
      whose new properties hold no object references, keeps the heap well built. */
  lemma WellBuiltUpdate(h: Heap, id: ObjId, o: ReactObject)
    requires WellBuilt(h) && id < |h|
    requires o.frame == h[id].frame && o.scripted == h[id].scripted
    requires o.observers == map[] && o.pointerTable == map[]
    requires forall p :: p in o.props && o.props[p].JRef? ==> p in h[id].props && o.props[p] == h[id].props[p]
    ensures WellBuilt(h[id := o])
  {
  }

  lemma WellBuiltAppend(h: Heap, f: Frame)
    requires WellBuilt(h)
    ensures WellBuilt(h + [NewObject(f)])
  {
    var h' := h + [NewObject(f)];
    var o := NewObject(f);
    forall p | p in o.props
      ensures !o.props[p].JRef?
    {
      assert ImmediateValue(o, p) == Some(o.props[p]);
    }
    assert forall i :: 0 <= i < |h| ==> h'[i] == h[i];
  }

  /** `addPropertyName`: a name the object already declared is an error; otherwise it is
      appended. */
  function AddPropertyName(o: ReactObject, name: string): (r: Result<ReactObject>)
    ensures name in o.scripted <==> r.Err?
    ensures r.Err? ==> r.msg == "Multi defined property names: " + name
    ensures r.Ok? ==> r.value.scripted == o.scripted + [name]
    ensures r.Ok? ==> r.value.frame == o.frame && r.value.props == o.props
                      && r.value.observers == o.observers && r.value.pointerTable == o.pointerTable
    ensures r.Ok? && NoDuplicates(o.scripted) ==> NoDuplicates(r.value.scripted)
  {
    if name in o.scripted then Err("Multi defined property names: " + name)
    else Ok(AddScriptedName(o, name))
  }

  /** `compileFrame`: a new object for the frame at the end of the heap, then its members
      in order. Child frames are compiled into objects after it. */
  function CompileFrame(h: Heap, eng: Engine, f: Frame): (r: Result<(Heap, ObjId)>)
    requires WellBuilt(h)
    ensures r.Ok? ==> r.value.1 == |h| && |h| < |r.value.0| && r.value.0[..|h|] == h
    ensures r.Ok? ==> WellBuilt(r.value.0)
    ensures r.Ok? ==> r.value.0[|h|].frame == f && r.value.0[|h|].scripted == Idents(f.members)
    ensures r.Ok? ==> forall k :: |h| <= k < |r.value.0| ==> Declared(r.value.0[k])
    ensures !NoDuplicates(Idents(f.members)) ==> r.Err?
    decreases f, 1
  {
    WellBuiltAppend(h, f);
    var h0 := h + [NewObject(f)];
    match CompileMembers(h0, eng, |h|, f, 0)
    case Err(m) => Err(m)
    case Ok(h1) =>
      assert h1[..|h|] == h by {
        assert forall k :: 0 <= k < |h| ==> h1[k] == h0[k] == h[k];
      }
      Ok((h1, |h|))
  }

  function CompileMembers(h: Heap, eng: Engine, id: ObjId, f: Frame, i: nat): (r: Result<Heap>)
    requires WellBuilt(h) && id < |h| && h[id].frame == f
    requires i <= |f.members| && h[id].scripted == Idents(f.members[..i])
    ensures r.Ok? ==> |h| <= |r.value| && WellBuilt(r.value)
    ensures r.Ok? ==> forall k :: 0 <= k < |h| && k != id ==> r.value[k] == h[k]
    ensures r.Ok? ==> r.value[id].frame == f && r.value[id].scripted == Idents(f.members)
    ensures r.Ok? ==> forall k :: |h| <= k < |r.value| ==> Declared(r.value[k])
    decreases f, 0, |f.members| - i
  {
    if i == |f.members| then
      assert f.members[..i] == f.members;
      Ok(h)
    else
      var m := f.members[i];
      match CompileMember(h, eng, id, m)
      case Err(msg) => Err(msg)
      case Ok(h1) =>
        match AddPropertyName(h1[id], m.ident)
        case Err(msg) => Err(msg)
        case Ok(o) =>
          IdentsSnoc(f.members, i);
          WellBuiltRename(h1, id, o);
          CompileMembers(h1[id := o], eng, id, f, i + 1)
  }

  lemma IdentsSnoc(ms: seq<Member>, i: nat)
    requires i < |ms|
    ensures Idents(ms[..i + 1]) == Idents(ms[..i]) + [ms[i].ident]
  {
  }

  /** Declaring one more name, kept duplicate-free, keeps the heap well built. */
  lemma WellBuiltRename(h: Heap, id: ObjId, o: ReactObject)
    requires WellBuilt(h) && id < |h|
    requires o.frame == h[id].frame && o.props == h[id].props
    requires o.observers == h[id].observers && o.pointerTable == h[id].pointerTable
    requires NoDuplicates(o.scripted)
    ensures WellBuilt(h[id := o])
  {
  }

  /** One member's value stored on object `id`; a nested frame also appends its objects. */
  function CompileMember(h: Heap, eng: Engine, id: ObjId, m: Member): (r: Result<Heap>)
    requires WellBuilt(h) && id < |h|
    ensures r.Ok? ==> |h| <= |r.value| && WellBuilt(r.value)
    ensures r.Ok? ==> forall k :: 0 <= k < |h| && k != id ==> r.value[k] == h[k]
    ensures r.Ok? ==> r.value[id].frame == h[id].frame && r.value[id].scripted == h[id].scripted
    ensures r.Ok? ==> forall k :: |h| <= k < |r.value| ==> Declared(r.value[k])
    decreases m, 3
  {
    match m.value
    case FrameV(child) =>
      assert child < m;
      CompileChild(h, eng, id, child)
    case ScalarV(_) => Ok(StoreLiteral(h, id, m))
    case ArrayV(_) => Ok(StoreLiteral(h, id, m))
    case DictV(_) => Ok(StoreLiteral(h, id, m))
    case _ => CompileFunctionMember(h, eng, id, m)
  }

  /** A literal member: its converted value under the member's name. */
  function StoreLiteral(h: Heap, id: ObjId, m: Member): (r: Heap)
    requires WellBuilt(h) && id < |h| && IsLiteral(m.value)
    ensures |r| == |h| && WellBuilt(r)
    ensures forall k :: 0 <= k < |h| && k != id ==> r[k] == h[k]
    ensures r[id].frame == h[id].frame && r[id].scripted == h[id].scripted
    ensures ImmediateValue(r[id], m.ident) == Some(ToJs(m.value))
    ensures forall q :: q != m.ident ==> ImmediateValue(r[id], q) == ImmediateValue(h[id], q)
  {
    var o := SetImmediateValue(h[id], m.ident, ToJs(m.value));
    WellBuiltUpdate(h, id, o);
    h[id := o]
  }

  /** A nested frame: its objects are appended, and the parent refers to the child's
      object under the child's instance name. */
  function CompileChild(h: Heap, eng: Engine, id: ObjId, child: Frame): (r: Result<Heap>)
    requires WellBuilt(h) && id < |h|
    ensures r.Ok? ==> |h| < |r.value| && WellBuilt(r.value)
    ensures r.Ok? ==> forall k :: 0 <= k < |h| && k != id ==> r.value[k] == h[k]
    ensures r.Ok? ==> r.value[id].frame == h[id].frame && r.value[id].scripted == h[id].scripted
    ensures r.Ok? ==> ChildFrame(r.value[id], child.instanceName) == Some(|h|)
                      && r.value[|h|].frame == child && r.value[|h|].scripted == Idents(child.members)
    ensures r.Err? <==> CompileFrame(h, eng, child).Err?
    ensures r.Ok? ==> forall k :: |h| <= k < |r.value| ==> Declared(r.value[k])
    decreases child, 2
  {
    match CompileFrame(h, eng, child)
    case Err(msg) => Err(msg)
    case Ok(res) =>
      var h1 := res.0;
      LinkChildStep(h, h1, id, child);
      Ok(h1[id := SetChildFrame(h1[id], child.instanceName, |h|)])
  }

  /** Once the child's objects are appended, pointing the parent at the child's first
      object keeps the heap well built and touches no other object of `h`. */
  lemma LinkChildStep(h: Heap, h1: Heap, id: ObjId, child: Frame)
    requires WellBuilt(h) && WellBuilt(h1) && id < |h| < |h1| && h1[..|h|] == h
    requires h1[|h|].frame == child
    ensures var r := h1[id := SetChildFrame(h1[id], child.instanceName, |h|)];
      WellBuilt(r) && r[id].frame == h[id].frame && r[id].scripted == h[id].scripted
      && ChildFrame(r[id], child.instanceName) == Some(|h|)
      && (forall k :: 0 <= k < |h| && k != id ==> r[k] == h[k])
      && (forall k :: |h| <= k < |h1| ==> r[k] == h1[k])
  {
    assert h1[id] == h[id] by { assert h1[..|h|][id] == h[id]; }
    AppendedUnreferenced(h, h1);
    LinkChildKeepsWellBuilt(h1, id, |h|, child.instanceName);
    assert forall k :: 0 <= k < |h| ==> h1[k] == h1[..|h|][k];
  }

  lemma LinkChildKeepsWellBuilt(h: Heap, id: ObjId, cid: ObjId, name: string)
    requires WellBuilt(h) && id < cid < |h| && h[cid].frame.instanceName == name
    requires Unreferenced(h, cid)
    ensures WellBuilt(h[id := SetChildFrame(h[id], name, cid)])
  {
    var h2 := h[id := SetChildFrame(h[id], name, cid)];
    forall i, p | 0 <= i < |h2| && p in h2[i].props && h2[i].props[p].JRef?
      ensures i < h2[i].props[p].id < |h2|
      ensures h2[h2[i].props[p].id].frame.instanceName == p
    {
      if i != id || p != name {
        assert h2[i].props[p] == h[i].props[p];
      }
    }
    forall i, p, i', p' | 0 <= i < |h2| && 0 <= i' < |h2| && p in h2[i].props && p' in h2[i'].props
        && h2[i].props[p].JRef? && h2[i].props[p] == h2[i'].props[p']
      ensures i == i' && p == p'
    {
      var isNew := (i == id && p == name);
      var isNew' := (i' == id && p' == name);
      if !isNew {
        assert h2[i].props[p] == h[i].props[p];
      }
      if !isNew' {
        assert h2[i'].props[p'] == h[i'].props[p'];
      }
    }
  }

  /** A function member: the engine's function object is stored under the member's name,
      an Init function under its `@body` name, and a listener in its listener slot with
      its own property initialised. A compile error aborts. */
  function CompileFunctionMember(h: Heap, eng: Engine, id: ObjId, m: Member): (r: Result<Heap>)
    requires WellBuilt(h) && id < |h| && IsFunction(m.value)
    ensures r.Err? <==> CompileFunction(eng, m.ident, m.value).Err?
    ensures r.Err? ==> r.msg == CompileFunction(eng, m.ident, m.value).msg
    ensures r.Ok? ==> |r.value| == |h| && WellBuilt(r.value)
    ensures r.Ok? ==> forall k :: 0 <= k < |h| && k != id ==> r.value[k] == h[k]
    ensures r.Ok? ==> r.value[id].frame == h[id].frame && r.value[id].scripted == h[id].scripted
    ensures r.Ok? && m.value.InitFunc? ==>
      ImmediateValue(r.value[id], InitObjectName(m.ident)) == Some(CompileFunction(eng, m.ident, m.value).value)
    ensures r.Ok? && (m.value.EventFunc? || m.value.ProcFunc?) ==>
      ImmediateValue(r.value[id], m.ident) == Some(CompileFunction(eng, m.ident, m.value).value)
    ensures r.Ok? && m.value.ListenerFunc? ==>
      ListenerFunctionValue(r.value[id], m.ident) == Some(CompileFunction(eng, m.ident, m.value).value)
      && ImmediateValue(r.value[id], m.ident) == Some(InitialListenerValue)
  {
    match CompileFunction(eng, m.ident, m.value)
    case Err(msg) => Err(msg)
    case Ok(fv) =>
      var o :=
        if m.value.InitFunc? then SetImmediateValue(h[id], InitObjectName(m.ident), fv)
        else if m.value.ListenerFunc? then InitListenerReturnValue(SetListenerFunctionValue(h[id], fv, m.ident), m.ident)
        else SetImmediateValue(h[id], m.ident, fv);
      if m.value.ListenerFunc? then
        ListenerFunctionRoundTrip(SetListenerFunctionValue(h[id], fv, m.ident), fv, m.ident, m.ident + "_");
        assert ListenerFuncName(m.ident) != m.ident by {
          assert |ListenerFuncName(m.ident)| > |m.ident|;
        }
        WellBuiltUpdate(h, id, o);
        Ok(h[id := o])
      else
        WellBuiltUpdate(h, id, o);
        Ok(h[id := o])
  }

  predicate IsLiteral(v: Value) {
    v.ScalarV? || v.ArrayV? || v.DictV?
  }

  /** The value a listener's own property holds before the listener first runs. */
  const InitialListenerValue: JsValue := JNull

  /** `initListnerReturnValue`: the listener's property starts out as null. */
  function InitListenerReturnValue(o: ReactObject, p: string): (r: ReactObject)
    ensures ImmediateValue(r, p) == Some(InitialListenerValue)
    ensures forall q :: q != p ==> ImmediateValue(r, q) == ImmediateValue(o, q)
    ensures ListenerFunctionValue(r, p) == ListenerFunctionValue(o, p)
    ensures r.frame == o.frame && r.scripted == o.scripted && r.observers == o.observers
    ensures r.pointerTable == o.pointerTable
  {
    assert ListenerFuncName(p) != p by {
      assert |ListenerFuncName(p)| > |p|;
    }
    SetImmediateValue(o, p, InitialListenerValue)
  }

  // ---------------------------------------------------------------------------
  // The path-to-object map

  /** The path of an object whose parent's path is `path` (none for the root). */
  function NewPath(path: Option<string>, name: string): string {
    match path
    case Some(p) => p + "." + name
    case None => name
  }

  /** `makeObjectMap`: the object under its path, merged with the maps of the child frames
      its scripted names hold, in scripted-name order. */
  function ObjectMap(h: Heap, path: Option<string>, id: ObjId): (r: map<string, ObjId>)
    requires Forward(h) && id < |h|
    ensures NewPath(path, h[id].frame.instanceName) in r && r[NewPath(path, h[id].frame.instanceName)] == id
    ensures forall k :: k in r ==> id <= r[k] < |h| && IsPathPrefix(NewPath(path, h[id].frame.instanceName), k)
    ensures forall k :: k in r ==> InTree(h, id, r[k])
    decreases |h| - id, 1
  {
    var np := NewPath(path, h[id].frame.instanceName);
    MergeChildren(h, np, id, map[np := id], 0)
  }

  function MergeChildren(h: Heap, np: string, id: ObjId, acc: map<string, ObjId>, j: nat): (r: map<string, ObjId>)
    requires Forward(h) && id < |h| && j <= |h[id].scripted|
    requires forall k :: k in acc ==> id <= acc[k] < |h| && IsPathPrefix(np, k)
    ensures forall k :: k in r ==> id <= r[k] < |h| && IsPathPrefix(np, k)
    ensures (forall k :: k in acc ==> InTree(h, id, acc[k])) ==> forall k :: k in r ==> InTree(h, id, r[k])
    ensures forall k :: k in acc ==> k in r
    ensures forall k :: k in r && |k| <= |np| ==> k in acc && r[k] == acc[k]
    decreases |h| - id, 0, |h[id].scripted| - j
  {
    if j == |h[id].scripted| then acc
    else
      match ChildFrame(h[id], h[id].scripted[j])
      case None => MergeChildren(h, np, id, acc, j + 1)
      case Some(c) =>
        var sub := ObjectMap(h, Some(np), c);
        ChildMapBelow(np, h[c].frame.instanceName, sub);
        assert forall k :: k in sub ==> InTree(h, id, sub[k]) by {
          forall k | k in sub
            ensures InTree(h, id, sub[k])
          {
            ChildTreeInTree(h, id, 0, j, sub[k]);
          }
        }
        MergeChildren(h, np, id, acc + sub, j + 1)
  }

  lemma ChildMapBelow(np: string, name: string, sub: map<string, ObjId>)
    requires forall k :: k in sub ==> IsPathPrefix(np + "." + name, k)
    ensures forall k :: k in sub ==> IsPathPrefix(np, k) && |k| > |np|
  {
    forall k | k in sub
      ensures IsPathPrefix(np, k) && |k| > |np|
    {
      BelowChildIsBelowParent(np, name, k);
    }
  }

  /** The map of the child frame held by scripted name number `j`. */
  function ChildMap(h: Heap, np: string, id: ObjId, j: nat): map<string, ObjId>
    requires Forward(h) && id < |h| && j < |h[id].scripted|
  {
    match ChildFrame(h[id], h[id].scripted[j])
    case Some(c) => ObjectMap(h, Some(np), c)
    case None => map[]
  }

  /** Sibling frames declare different, dot-free names, so their maps share no key. */
  predicate SeparateSiblings(h: Heap, id: ObjId)
    requires id < |h|
  {
    NoDuplicates(h[id].scripted) && AllFree(h[id].scripted, '.')
  }

  lemma SiblingMapsDisjoint(h: Heap, np: string, id: ObjId, a: nat, b: nat, k: string)
    requires Forward(h) && ChildrenNamed(h) && id < |h| && SeparateSiblings(h, id)
    requires a < |h[id].scripted| && b < |h[id].scripted| && a != b
    requires k in ChildMap(h, np, id, a)
    ensures k !in ChildMap(h, np, id, b)
  {
    var sa := h[id].scripted[a];
    var sb := h[id].scripted[b];
    var ca := ChildFrame(h[id], sa).value;
    if ChildFrame(h[id], sb).Some? {
      var cb := ChildFrame(h[id], sb).value;
      if k in ChildMap(h, np, id, b) {
        assert h[ca].frame.instanceName == sa && h[cb].frame.instanceName == sb;
        assert DotFree(sa) && DotFree(sb);
        SiblingPathsDisjoint(np, sa, sb, k);
        assert false;
      }
    }
  }

  /** One step of the merge adds the map of child number `j`. */
  lemma MergeUnfold(h: Heap, np: string, id: ObjId, acc: map<string, ObjId>, j: nat)
    requires Forward(h) && id < |h| && j < |h[id].scripted|
    requires forall q :: q in acc ==> id <= acc[q] < |h| && IsPathPrefix(np, q)
    ensures forall q :: q in acc + ChildMap(h, np, id, j) ==>
      id <= (acc + ChildMap(h, np, id, j))[q] < |h| && IsPathPrefix(np, q)
    ensures MergeChildren(h, np, id, acc, j) == MergeChildren(h, np, id, acc + ChildMap(h, np, id, j), j + 1)
  {
    match ChildFrame(h[id], h[id].scripted[j])
    case None =>
      assert acc + ChildMap(h, np, id, j) == acc;
    case Some(c) =>
      ChildMapBelow(np, h[c].frame.instanceName, ObjectMap(h, Some(np), c));
  }

  /** The maps of the child frames, one per scripted name. */
  function ChildMaps(h: Heap, np: string, id: ObjId): (r: seq<map<string, ObjId>>)
    requires Forward(h) && id < |h|
    ensures |r| == |h[id].scripted| && forall j :: 0 <= j < |r| ==> r[j] == ChildMap(h, np, id, j)
  {
    seq(|h[id].scripted|, j requires 0 <= j < |h[id].scripted| => ChildMap(h, np, id, j))
  }

  /** Left-to-right union of the maps `subs[i..]` into `acc`. */
  function Fold(acc: map<string, ObjId>, subs: seq<map<string, ObjId>>, i: nat): map<string, ObjId>
    requires i <= |subs|
    decreases |subs| - i
  {
    if i == |subs| then acc else Fold(acc + subs[i], subs, i + 1)
  }

  /** A key that no later map holds keeps the value it has in the accumulator. */
  lemma {:induction false} FoldKeeps(acc: map<string, ObjId>, subs: seq<map<string, ObjId>>, i: nat, k: string)
    requires i <= |subs| && k in acc
    requires forall i' :: i <= i' < |subs| ==> k !in subs[i']
    ensures k in Fold(acc, subs, i) && Fold(acc, subs, i)[k] == acc[k]
    decreases |subs| - i
  {
    if i < |subs| {
      FoldKeeps(acc + subs[i], subs, i + 1, k);
    }
  }

  /** A key of map `i0` that no later map holds ends up with the value map `i0` gives it. */
  lemma {:induction false} FoldIncludes(acc: map<string, ObjId>, subs: seq<map<string, ObjId>>, i: nat, i0: nat, k: string)
    requires i <= i0 < |subs| && k in subs[i0]
    requires forall i' :: i0 < i' < |subs| ==> k !in subs[i']
    ensures k in Fold(acc, subs, i) && Fold(acc, subs, i)[k] == subs[i0][k]
    decreases i0 - i
  {
    if i < i0 {
      FoldIncludes(acc + subs[i], subs, i + 1, i0, k);
    } else {
      FoldKeeps(acc + subs[i], subs, i + 1, k);
    }
  }

  /** The merge of the child frames is the fold of their maps. */
  lemma {:induction false} MergeIsFold(h: Heap, np: string, id: ObjId, acc: map<string, ObjId>, j: nat)
    requires Forward(h) && id < |h| && j <= |h[id].scripted|
    requires forall q :: q in acc ==> id <= acc[q] < |h| && IsPathPrefix(np, q)
    ensures MergeChildren(h, np, id, acc, j) == Fold(acc, ChildMaps(h, np, id), j)
    decreases |h[id].scripted| - j
  {
    if j < |h[id].scripted| {
      var sub := ChildMap(h, np, id, j);
      MergeUnfold(h, np, id, acc, j);
      MergeIsFold(h, np, id, acc + sub, j + 1);
      assert ChildMaps(h, np, id)[j] == sub;
      assert Fold(acc, ChildMaps(h, np, id), j) == Fold(acc + sub, ChildMaps(h, np, id), j + 1);
    }
  }

  /** The map of child number `j0` survives the merge unchanged. */
  lemma MergeIncludes(h: Heap, np: string, id: ObjId, acc: map<string, ObjId>, j0: nat, k: string)
    requires Forward(h) && ChildrenNamed(h) && id < |h| && SeparateSiblings(h, id)
    requires j0 < |h[id].scripted|
    requires forall q :: q in acc ==> id <= acc[q] < |h| && IsPathPrefix(np, q)
    requires k in ChildMap(h, np, id, j0)
    ensures k in MergeChildren(h, np, id, acc, 0)
    ensures MergeChildren(h, np, id, acc, 0)[k] == ChildMap(h, np, id, j0)[k]
  {
    var subs := ChildMaps(h, np, id);
    forall j' | j0 < j' < |subs|
      ensures k !in subs[j']
    {
      SiblingMapsDisjoint(h, np, id, j0, j', k);
    }
    MergeIsFold(h, np, id, acc, 0);
    FoldIncludes(acc, subs, 0, j0, k);
  }

  /** The map of every child frame is part of its parent's map: in particular the child is
      found at the parent's path followed by a dot and the name that holds it. */
  lemma ChildMapIncluded(h: Heap, path: Option<string>, id: ObjId, j: nat)
    requires Forward(h) && ChildrenNamed(h) && id < |h| && SeparateSiblings(h, id)
    requires j < |h[id].scripted| && ChildFrame(h[id], h[id].scripted[j]).Some?
    ensures var np := NewPath(path, h[id].frame.instanceName);
      var c := ChildFrame(h[id], h[id].scripted[j]).value;
      var parent := ObjectMap(h, path, id);
      var sub := ObjectMap(h, Some(np), c);
      (forall k :: k in sub ==> k in parent && parent[k] == sub[k])
      && np + "." + h[id].scripted[j] in parent && parent[np + "." + h[id].scripted[j]] == c
  {
    var np := NewPath(path, h[id].frame.instanceName);
    var c := ChildFrame(h[id], h[id].scripted[j]).value;
    var sub := ObjectMap(h, Some(np), c);
    forall k | k in sub
      ensures k in ObjectMap(h, path, id) && ObjectMap(h, path, id)[k] == sub[k]
    {
      MergeIncludes(h, np, id, map[np := id], j, k);
    }
    assert NewPath(Some(np), h[c].frame.instanceName) == np + "." + h[id].scripted[j];
  }

  // ---------------------------------------------------------------------------
  // The object tree

  /** Object `t` is `id` itself or lies in the tree of one of its child frames. */
  ghost predicate InTree(h: Heap, id: ObjId, t: ObjId)
    requires Forward(h) && id < |h|
    decreases |h| - id, 1
  {
    t == id || InChildTrees(h, id, 0, t)
  }

  /** Object `t` lies in the tree of the child frame held by one of the scripted names from
      number `j` on. */
  ghost predicate InChildTrees(h: Heap, id: ObjId, j: nat, t: ObjId)
    requires Forward(h) && id < |h| && j <= |h[id].scripted|
    decreases |h| - id, 0, |h[id].scripted| - j
  {
    j < |h[id].scripted|
    && ((ChildFrame(h[id], h[id].scripted[j]).Some? && InTree(h, ChildFrame(h[id], h[id].scripted[j]).value, t))
        || InChildTrees(h, id, j + 1, t))
  }

  /** The heap's objects, frames and scripted names form a tree: what the compiler builds
      and every later pass keeps. */
  predicate TreeShaped(h: Heap) {
    Forward(h) && UniqueParents(h)
    && forall i :: 0 <= i < |h| ==> Declared(h[i]) && NoDuplicates(h[i].scripted)
  }

  lemma {:induction false} InTreeBelow(h: Heap, id: ObjId, t: ObjId)
    requires Forward(h) && id < |h| && InTree(h, id, t)
    ensures id <= t < |h|
    decreases |h| - id, 1
  {
    if t != id {
      InChildTreesBelow(h, id, 0, t);
    }
  }

  lemma {:induction false} InChildTreesBelow(h: Heap, id: ObjId, j: nat, t: ObjId)
    requires Forward(h) && id < |h| && j <= |h[id].scripted| && InChildTrees(h, id, j, t)
    ensures id < t < |h|
    decreases |h| - id, 0, |h[id].scripted| - j
  {
    var c := ChildFrame(h[id], h[id].scripted[j]);
    if c.Some? && InTree(h, c.value, t) {
      InTreeBelow(h, c.value, t);
    } else {
      InChildTreesBelow(h, id, j + 1, t);
    }
  }

  /** The tree below an object depends on frames, properties and scripted names only. */
  lemma {:induction false} InTreeSameTree(h: Heap, r: Heap, id: ObjId, t: ObjId)
    requires Forward(h) && SameTree(h, r) && id < |h|
    ensures Forward(r) && (InTree(h, id, t) <==> InTree(r, id, t))
    decreases |h| - id, 1
  {
    SameTreeKeeps(h, r);
    InChildTreesSameTree(h, r, id, 0, t);
  }

  lemma {:induction false} InChildTreesSameTree(h: Heap, r: Heap, id: ObjId, j: nat, t: ObjId)
    requires Forward(h) && SameTree(h, r) && id < |h| && j <= |h[id].scripted|
    ensures Forward(r) && (InChildTrees(h, id, j, t) <==> InChildTrees(r, id, j, t))
    decreases |h| - id, 0, |h[id].scripted| - j
  {
    SameTreeKeeps(h, r);
    if j < |h[id].scripted| {
      var c := ChildFrame(h[id], h[id].scripted[j]);
      assert c == ChildFrame(r[id], r[id].scripted[j]);
      if c.Some? {
        ChildAfterParent(h, id, h[id].scripted[j]);
        InTreeSameTree(h, r, c.value, t);
      }
      InChildTreesSameTree(h, r, id, j + 1, t);
    }
  }

  /** The tree of child number `j` is part of the tree of its parent. */
  lemma {:induction false} ChildTreeInTree(h: Heap, id: ObjId, j0: nat, j: nat, t: ObjId)
    requires Forward(h) && id < |h| && j0 <= j < |h[id].scripted|
    requires ChildFrame(h[id], h[id].scripted[j]).Some?
    requires InTree(h, ChildFrame(h[id], h[id].scripted[j]).value, t)
    ensures InChildTrees(h, id, j0, t) && (j0 == 0 ==> InTree(h, id, t))
    decreases j - j0
  {
    if j0 < j {
      ChildTreeInTree(h, id, j0 + 1, j, t);
    }
  }

  /** The child whose tree holds `t`. */
  lemma {:induction false} ChildTreesWitness(h: Heap, id: ObjId, j: nat, t: ObjId) returns (k: nat)
    requires Forward(h) && id < |h| && j <= |h[id].scripted| && InChildTrees(h, id, j, t)
    ensures j <= k < |h[id].scripted| && ChildFrame(h[id], h[id].scripted[k]).Some?
    ensures InTree(h, ChildFrame(h[id], h[id].scripted[k]).value, t)
    decreases |h[id].scripted| - j
  {
    var c := ChildFrame(h[id], h[id].scripted[j]);
    if c.Some? && InTree(h, c.value, t) {
      k := j;
    } else {
      k := ChildTreesWitness(h, id, j + 1, t);
    }
  }

  /** An object of the tree other than its root is held by an object of the same tree. */
  lemma {:induction false} ParentInTree(h: Heap, a: ObjId, t: ObjId) returns (p: ObjId, key: string)
    requires Forward(h) && a < |h| && InTree(h, a, t) && t != a
    ensures p < |h| && InTree(h, a, p) && key in h[p].props && h[p].props[key] == JRef(t)
    decreases |h| - a
  {
    var j := ChildTreesWitness(h, a, 0, t);
    var c := ChildFrame(h[a], h[a].scripted[j]).value;
    ChildAfterParent(h, a, h[a].scripted[j]);
    if t == c {
      p, key := a, h[a].scripted[j];
    } else {
      p, key := ParentInTree(h, c, t);
      ChildTreeInTree(h, a, 0, j, p);
    }
  }

  /** With one parent per object, two trees that share an object are nested. */
  lemma {:induction false} Nested(h: Heap, a: ObjId, b: ObjId, t: ObjId)
    requires Forward(h) && UniqueParents(h) && a < |h| && b < |h|
    requires InTree(h, a, t) && InTree(h, b, t)
    ensures InTree(h, a, b) || InTree(h, b, a)
    decreases t
  {
    if t != a && t != b {
      var pa, ka := ParentInTree(h, a, t);
      var pb, kb := ParentInTree(h, b, t);
      assert h[pa].props[ka] == h[pb].props[kb];
      assert pa < t;
      Nested(h, a, b, pa);
    }
  }

  /** The trees of two different child frames of one object share no object. */
  lemma SiblingTreesDisjoint(h: Heap, id: ObjId, j: nat, t: ObjId)
    requires TreeShaped(h) && id < |h| && j < |h[id].scripted|
    requires ChildFrame(h[id], h[id].scripted[j]).Some?
    requires InTree(h, ChildFrame(h[id], h[id].scripted[j]).value, t)
    ensures !InChildTrees(h, id, j + 1, t)
  {
    if InChildTrees(h, id, j + 1, t) {
      var c := ChildFrame(h[id], h[id].scripted[j]).value;
      var k := ChildTreesWitness(h, id, j + 1, t);
      var c2 := ChildFrame(h[id], h[id].scripted[k]).value;
      ChildAfterParent(h, id, h[id].scripted[j]);
      ChildAfterParent(h, id, h[id].scripted[k]);
      assert c != c2 by {
        assert h[id].scripted[j] != h[id].scripted[k];
      }
      Nested(h, c, c2, t);
      if InTree(h, c, c2) {
        var p, key := ParentInTree(h, c, c2);
        assert h[p].props[key] == h[id].props[h[id].scripted[k]];
        InTreeBelow(h, c, p);
      } else {
        var p, key := ParentInTree(h, c2, c);
        assert h[p].props[key] == h[id].props[h[id].scripted[j]];
        InTreeBelow(h, c2, p);
      }
    }
  }

  // ---------------------------------------------------------------------------
  // Listener pointers

  /** The object path and the property a path argument names. */
  datatype PointerStrings = PointerStrings(path: string, property: string)

  /** The middle segments as the source's loop appends them: a dot before each. */
  function DottedSuffix(xs: seq<string>): string {
    if |xs| == 0 then "" else "." + xs[0] + DottedSuffix(xs[1..])
  }

  lemma {:induction false} DottedSuffixJoin(root: string, xs: seq<string>)
    ensures root + DottedSuffix(xs) == Join([root] + xs, ".")
    decreases |xs|
  {
    if |xs| == 0 {
      assert [root] + xs == [root];
    } else {
      DottedSuffixJoin(xs[0], xs[1..]);
      assert ([root] + xs)[1..] == [xs[0]] + xs[1..];
      assert [xs[0]] + xs[1..] == xs;
    }
  }

  lemma {:induction false} DottedSuffixSnoc(xs: seq<string>, x: string)
    ensures DottedSuffix(xs + [x]) == DottedSuffix(xs) + "." + x
    decreases |xs|
  {
    if |xs| == 0 {
      assert xs + [x] == [x];
    } else {
      assert (xs + [x])[1..] == xs[1..] + [x];
      DottedSuffixSnoc(xs[1..], x);
    }
  }

  /** `makePointerString`: at least two segments; the last is the property; the others,
      with a leading `self` replaced by the current object's path, join into the object path. */
  function MakePointerString(arg: PathArgument, curpath: string): (r: Result<PointerStrings>)
    ensures |arg.expression.elements| < 2 <==> r.Err?
    ensures r.Err? ==> r.msg == "Too short path expression: " + Join(arg.expression.elements, ".")
    ensures r.Ok? ==> var elems := arg.expression.elements;
      r.value.property == elems[|elems| - 1]
      && r.value.path == Join([if elems[0] == "self" then curpath else elems[0]] + elems[1..|elems| - 1], ".")
  {
    var elems := arg.expression.elements;
    if |elems| < 2 then Err("Too short path expression: " + Join(elems, "."))
    else
      var root := if elems[0] == "self" then curpath else elems[0];
      DottedSuffixJoin(root, elems[1..|elems| - 1]);
      Ok(PointerStrings(root + DottedSuffix(elems[1..|elems| - 1]), elems[|elems| - 1]))
  }

  /** The source's loop over the middle segments. */
  method MakePointerStringLoop(arg: PathArgument, curpath: string) returns (r: Result<PointerStrings>)
    ensures r == MakePointerString(arg, curpath)
  {
    var elems := arg.expression.elements;
    var n := |elems|;
    if n < 2 {
      return Err("Too short path expression: " + Join(elems, "."));
    }
    var root := if elems[0] == "self" then curpath else elems[0];
    var abspath := root;
    var i := 1;
    while i < n - 1
      invariant 1 <= i <= n - 1
      invariant abspath == root + DottedSuffix(elems[1..i])
    {
      DottedSuffixSnoc(elems[1..i], elems[i]);
      assert elems[1..i + 1] == elems[1..i] + [elems[i]];
      abspath := abspath + "." + elems[i];
      i := i + 1;
    }
    return Ok(PointerStrings(abspath, elems[n - 1]));
  }

  /** `pathToPointer`: the object found at the argument's path, read at its property. */
  function PathToPointer(arg: PathArgument, omap: map<string, ObjId>, curpath: string): (r: Result<ObjectPointer>)
    ensures MakePointerString(arg, curpath).Err? ==> r == Err(MakePointerString(arg, curpath).msg)
    ensures MakePointerString(arg, curpath).Ok? ==> var ps := MakePointerString(arg, curpath).value;
      (ps.path in omap ==> r == Ok(ObjectPointer(arg.name, ps.property, omap[ps.path])))
      && (ps.path !in omap ==> r == Err("No object at path " + ps.path))
  {
    match MakePointerString(arg, curpath)
    case Err(m) => Err(m)
    case Ok(ps) =>
      if ps.path in omap then Ok(ObjectPointer(arg.name, ps.property, omap[ps.path]))
      else Err("No object at path " + ps.path)
  }

  /** `self.p` names property `p` of the object whose path is the current one. */
  lemma SelfPointer(n: string, p: string, omap: map<string, ObjId>, curpath: string)
    requires curpath in omap
    ensures PathToPointer(PathArgument(n, PathExpression(["self", p])), omap, curpath)
            == Ok(ObjectPointer(n, p, omap[curpath]))
  {
    var elems := ["self", p];
    assert elems[1..|elems| - 1] == [];
    assert [curpath] + elems[1..|elems| - 1] == [curpath];
  }

  /** The pointers of one listener: one per argument, in order; the first failing
      argument aborts. */
  function ListenerPointers(args: seq<PathArgument>, omap: map<string, ObjId>, curpath: string): (r: Result<seq<ObjectPointer>>)
    ensures r.Ok? <==> forall i :: 0 <= i < |args| ==> PathToPointer(args[i], omap, curpath).Ok?
    ensures r.Ok? ==> (|r.value| == |args|
      && forall i :: 0 <= i < |args| ==> PathToPointer(args[i], omap, curpath) == Ok(r.value[i]))
    ensures r.Err? ==>
      exists i :: 0 <= i < |args| && PathToPointer(args[i], omap, curpath) == Err(r.msg)
                  && forall k :: 0 <= k < i ==> PathToPointer(args[k], omap, curpath).Ok?
    decreases |args|
  {
    if |args| == 0 then Ok([])
    else
      match PathToPointer(args[0], omap, curpath)
      case Err(m) => Err(m)
      case Ok(ptr) =>
        match ListenerPointers(args[1..], omap, curpath)
        case Err(m) =>
          ghost var i :| 0 <= i < |args[1..]| && PathToPointer(args[1..][i], omap, curpath) == Err(m)
            && forall k :: 0 <= k < i ==> PathToPointer(args[1..][k], omap, curpath).Ok?;
          assert PathToPointer(args[i + 1], omap, curpath) == Err(m);
          Err(m)
        case Ok(rest) => Ok([ptr] + rest)
  }

  /** Objects found through the map exist in the heap. */
  predicate MapIn(omap: map<string, ObjId>, n: nat) {
    forall k :: k in omap ==> omap[k] < n
  }

  lemma ListenerPointersIn(args: seq<PathArgument>, omap: map<string, ObjId>, curpath: string, n: nat)
    requires MapIn(omap, n) && ListenerPointers(args, omap, curpath).Ok?
    ensures PointersIn(ListenerPointers(args, omap, curpath).value, n)
  {
    var ptrs := ListenerPointers(args, omap, curpath).value;
    forall i | 0 <= i < |ptrs|
      ensures ptrs[i].pointedObject < n
    {
      assert PathToPointer(args[i], omap, curpath) == Ok(ptrs[i]);
    }
  }

  /** Every pointer table entry refers to objects of the heap. */
  predicate PointerTablesIn(h: Heap) {
    forall i, k :: 0 <= i < |h| && k in h[i].pointerTable ==> PointersIn(h[i].pointerTable[k], |h|)
  }

  /** Heaps that differ in pointer tables only. */
  predicate PointersOnly(h: Heap, r: Heap) {
    |r| == |h|
    && forall i :: 0 <= i < |h| ==>
         r[i].frame == h[i].frame && r[i].props == h[i].props
         && r[i].scripted == h[i].scripted && r[i].observers == h[i].observers
  }

  /** Members from number `i` on have pairwise different names. */
  predicate DistinctFrom(ms: seq<Member>, i: nat) {
    forall a, b :: i <= a < b < |ms| ==> ms[a].ident != ms[b].ident
  }

  /** Storing the resolved pointers of one listener touches no other listener's entry, and
      the table stays inside the heap when the object map does. */
  lemma PointerStep(o: ReactObject, args: seq<PathArgument>, omap: map<string, ObjId>, path: string, ident: string)
    requires ListenerPointers(args, omap, path).Ok?
    ensures var o1 := SetListenerFuncPointers(o, ListenerPointers(args, omap, path).value, ident);
      ListenerFuncPointers(o1, ident) == Some(ListenerPointers(args, omap, path).value)
      && (forall q :: q != ident ==> ListenerFuncPointers(o1, q) == ListenerFuncPointers(o, q))
      && forall n :: MapIn(omap, n) && TableIn(o, n) ==> TableIn(o1, n)
  {
    var ptrs := ListenerPointers(args, omap, path).value;
    forall n | MapIn(omap, n) && TableIn(o, n)
      ensures TableIn(SetListenerFuncPointers(o, ptrs, ident), n)
    {
      ListenerPointersIn(args, omap, path, n);
    }
    PrefixedNamesInjective("_lparam_", ident, ident);
  }

  /** The pointer table of an object points inside a heap of `n` objects. */
  predicate TableIn(o: ReactObject, n: nat) {
    forall k :: k in o.pointerTable ==> PointersIn(o.pointerTable[k], n)
  }

  lemma TablesInUpdate(h: Heap, id: ObjId, o: ReactObject)
    requires id < |h|
    ensures PointerTablesIn(h) ==> TableIn(h[id], |h|)
    ensures PointerTablesIn(h) && TableIn(o, |h|) ==> PointerTablesIn(h[id := o])
  {
  }

  /** `makeObjectPointer`: the pointers of each listener member of an object, stored in its
      pointer table under the listener's name. */
  function MakeObjectPointer(o: ReactObject, omap: map<string, ObjId>, path: string, i: nat): (r: Result<ReactObject>)
    requires i <= |o.frame.members|
    ensures r.Ok? ==> r.value == o.(pointerTable := r.value.pointerTable)
    ensures r.Ok? ==> forall n :: MapIn(omap, n) && TableIn(o, n) ==> TableIn(r.value, n)
    ensures r.Ok? <==> forall k :: i <= k < |o.frame.members| && o.frame.members[k].value.ListenerFunc? ==>
      ListenerPointers(o.frame.members[k].value.pathArgs, omap, path).Ok?
    decreases |o.frame.members| - i
  {
    var members := o.frame.members;
    if i == |members| then Ok(o)
    else
      var m := members[i];
      if !m.value.ListenerFunc? then MakeObjectPointer(o, omap, path, i + 1)
      else
        match ListenerPointers(m.value.pathArgs, omap, path)
        case Err(msg) => Err(msg)
        case Ok(ptrs) =>
          PointerStep(o, m.value.pathArgs, omap, path, m.ident);
          MakeObjectPointer(SetListenerFuncPointers(o, ptrs, m.ident), omap, path, i + 1)
  }

  /** Member `k` is the first listener from number `i` on whose arguments do not resolve,
      and `msg` is its error. */
  predicate FirstFailingListener(ms: seq<Member>, omap: map<string, ObjId>, path: string, i: nat, k: nat, msg: string) {
    && i <= k < |ms| && ms[k].value.ListenerFunc?
    && ListenerPointers(ms[k].value.pathArgs, omap, path) == Err(msg)
    && forall j :: i <= j < k && ms[j].value.ListenerFunc? ==> ListenerPointers(ms[j].value.pathArgs, omap, path).Ok?
  }

  /** The error of `makeObjectPointer` is the error of the first listener whose arguments
      do not resolve. */
  lemma {:induction false} MakeObjectPointerFails(o: ReactObject, omap: map<string, ObjId>, path: string, i: nat)
    requires i <= |o.frame.members| && MakeObjectPointer(o, omap, path, i).Err?
    ensures exists k :: FirstFailingListener(o.frame.members, omap, path, i, k, MakeObjectPointer(o, omap, path, i).msg)
    decreases |o.frame.members| - i
  {
    var m := o.frame.members[i];
    if m.value.ListenerFunc? && ListenerPointers(m.value.pathArgs, omap, path).Err? {
      FirstFailingHere(o, omap, path, i);
    } else {
      var o1 := MakeObjectPointerNext(o, omap, path, i);
      MakeObjectPointerFails(o1, omap, path, i + 1);
      FirstFailingFrom(o.frame.members, omap, path, i, i + 1, MakeObjectPointer(o, omap, path, i).msg);
    }
  }

  /** A listener at `i` whose arguments do not resolve is the first failing one. */
  lemma FirstFailingHere(o: ReactObject, omap: map<string, ObjId>, path: string, i: nat)
    requires i < |o.frame.members| && o.frame.members[i].value.ListenerFunc?
    requires ListenerPointers(o.frame.members[i].value.pathArgs, omap, path).Err?
    ensures MakeObjectPointer(o, omap, path, i).Err?
    ensures FirstFailingListener(o.frame.members, omap, path, i, i, MakeObjectPointer(o, omap, path, i).msg)
  {
  }

  /** Past a member that is no failing listener, `makeObjectPointer` goes on with the next
      member, on an object with the same frame. */
  lemma MakeObjectPointerNext(o: ReactObject, omap: map<string, ObjId>, path: string, i: nat) returns (o1: ReactObject)
    requires i < |o.frame.members|
    requires o.frame.members[i].value.ListenerFunc? ==> ListenerPointers(o.frame.members[i].value.pathArgs, omap, path).Ok?
    ensures o1.frame == o.frame && MakeObjectPointer(o, omap, path, i) == MakeObjectPointer(o1, omap, path, i + 1)
  {
    var m := o.frame.members[i];
    o1 := o;
    if m.value.ListenerFunc? {
      o1 := SetListenerFuncPointers(o, ListenerPointers(m.value.pathArgs, omap, path).value, m.ident);
    }
  }

  /** A member that is no failing listener does not change which listener fails first. */
  lemma FirstFailingFrom(ms: seq<Member>, omap: map<string, ObjId>, path: string, i: nat, next: nat, msg: string)
    requires i < |ms| && next == i + 1
    requires ms[i].value.ListenerFunc? ==> ListenerPointers(ms[i].value.pathArgs, omap, path).Ok?
    requires exists k :: FirstFailingListener(ms, omap, path, next, k, msg)
    ensures exists k :: FirstFailingListener(ms, omap, path, i, k, msg)
  {
    var k :| FirstFailingListener(ms, omap, path, next, k, msg);
    assert FirstFailingListener(ms, omap, path, i, k, msg);
  }

  /** A name no member from number `i` on declares keeps its pointer entry. */
  lemma {:induction false} MakeObjectPointerKeeps(o: ReactObject, omap: map<string, ObjId>, path: string, i: nat, q: string)
    requires i <= |o.frame.members| && MakeObjectPointer(o, omap, path, i).Ok?
    requires forall k :: i <= k < |o.frame.members| ==> o.frame.members[k].ident != q
    ensures ListenerFuncPointers(MakeObjectPointer(o, omap, path, i).value, q) == ListenerFuncPointers(o, q)
    decreases |o.frame.members| - i
  {
    if i < |o.frame.members| {
      var m := o.frame.members[i];
      if !m.value.ListenerFunc? {
        MakeObjectPointerKeeps(o, omap, path, i + 1, q);
      } else {
        var args := m.value.pathArgs;
        PointerStep(o, args, omap, path, m.ident);
        MakeObjectPointerKeeps(SetListenerFuncPointers(o, ListenerPointers(args, omap, path).value, m.ident), omap, path, i + 1, q);
      }
    }
  }

  /** With distinct member names, every listener ends up with exactly the pointers its
      arguments resolve to. */
  lemma {:induction false} MakeObjectPointerStores(o: ReactObject, omap: map<string, ObjId>, path: string, i: nat, k: nat)
    requires i <= k < |o.frame.members| && MakeObjectPointer(o, omap, path, i).Ok?
    requires DistinctFrom(o.frame.members, i) && o.frame.members[k].value.ListenerFunc?
    ensures ListenerFuncPointers(MakeObjectPointer(o, omap, path, i).value, o.frame.members[k].ident)
         == Some(ListenerPointers(o.frame.members[k].value.pathArgs, omap, path).value)
    decreases k - i
  {
    var m := o.frame.members[i];
    if !m.value.ListenerFunc? {
      MakeObjectPointerStores(o, omap, path, i + 1, k);
    } else {
      var args := m.value.pathArgs;
      var o1 := SetListenerFuncPointers(o, ListenerPointers(args, omap, path).value, m.ident);
      PointerStep(o, args, omap, path, m.ident);
      if i < k {
        MakeObjectPointerStores(o1, omap, path, i + 1, k);
      } else {
        MakeObjectPointerKeeps(o1, omap, path, i + 1, m.ident);
      }
    }
  }

  /** Every listener member of the object holds, in its pointer table, exactly the
      pointers its arguments resolve to from path `np`. */
  ghost predicate OwnResolved(o: ReactObject, omap: map<string, ObjId>, np: string) {
    forall k :: 0 <= k < |o.frame.members| && o.frame.members[k].value.ListenerFunc? ==>
      ListenerPointers(o.frame.members[k].value.pathArgs, omap, np).Ok?
      && ListenerFuncPointers(o, o.frame.members[k].ident)
         == Some(ListenerPointers(o.frame.members[k].value.pathArgs, omap, np).value)
  }

  /** Every object of the tree below `id`, reached with the path the object map gives it,
      has its listeners resolved from that path. */
  ghost predicate Resolved(h: Heap, omap: map<string, ObjId>, path: Option<string>, id: ObjId)
    requires Forward(h) && id < |h|
    decreases |h| - id, 1
  {
    OwnResolved(h[id], omap, NewPath(path, h[id].frame.instanceName))
    && ChildrenResolved(h, omap, NewPath(path, h[id].frame.instanceName), id, 0)
  }

  ghost predicate ChildrenResolved(h: Heap, omap: map<string, ObjId>, np: string, id: ObjId, j: nat)
    requires Forward(h) && id < |h| && j <= |h[id].scripted|
    decreases |h| - id, 0, |h[id].scripted| - j
  {
    j < |h[id].scripted| ==>
      (ChildFrame(h[id], h[id].scripted[j]).Some? ==>
         Resolved(h, omap, Some(np), ChildFrame(h[id], h[id].scripted[j]).value))
      && ChildrenResolved(h, omap, np, id, j + 1)
  }

  /** Objects that declare the same members and hold the same pointers. */
  predicate SameListeners(x: ReactObject, y: ReactObject) {
    x.frame == y.frame && x.pointerTable == y.pointerTable
  }

  /** Resolution of a tree depends only on the members and pointers of the objects inside it. */
  lemma {:induction false} ResolvedFrame(a: Heap, b: Heap, omap: map<string, ObjId>, path: Option<string>, c: ObjId)
    requires Forward(a) && SameTree(a, b) && c < |a| && Resolved(a, omap, path, c)
    requires forall t :: 0 <= t < |a| && InTree(a, c, t) ==> SameListeners(a[t], b[t])
    ensures Forward(b) && Resolved(b, omap, path, c)
    decreases |a| - c, 1
  {
    SameTreeKeeps(a, b);
    assert InTree(a, c, c);
    forall t | 0 <= t < |a| && InChildTrees(a, c, 0, t)
      ensures SameListeners(a[t], b[t])
    {
      assert InTree(a, c, t);
    }
    ChildrenResolvedFrame(a, b, omap, NewPath(path, a[c].frame.instanceName), c, 0);
  }

  lemma {:induction false} ChildrenResolvedFrame(a: Heap, b: Heap, omap: map<string, ObjId>, np: string, c: ObjId, j: nat)
    requires Forward(a) && SameTree(a, b) && c < |a| && j <= |a[c].scripted|
    requires ChildrenResolved(a, omap, np, c, j)
    requires forall t :: 0 <= t < |a| && InChildTrees(a, c, j, t) ==> SameListeners(a[t], b[t])
    ensures Forward(b) && ChildrenResolved(b, omap, np, c, j)
    decreases |a| - c, 0, |a[c].scripted| - j
  {
    SameTreeKeeps(a, b);
    if j < |a[c].scripted| {
      var k := ChildFrame(a[c], a[c].scripted[j]);
      if k.Some? {
        ChildAfterParent(a, c, a[c].scripted[j]);
        forall t | 0 <= t < |a| && InTree(a, k.value, t)
          ensures SameListeners(a[t], b[t])
        {
          ChildTreeInTree(a, c, j, j, t);
        }
        ResolvedFrame(a, b, omap, Some(np), k.value);
      }
      forall t | 0 <= t < |a| && InChildTrees(a, c, j + 1, t)
        ensures SameListeners(a[t], b[t])
      {
        assert InChildTrees(a, c, j, t);
      }
      ChildrenResolvedFrame(a, b, omap, np, c, j + 1);
    }
  }

  /** Distinct scripted names make distinct member names. */
  lemma DeclaredDistinct(o: ReactObject)
    requires Declared(o) && NoDuplicates(o.scripted)
    ensures DistinctFrom(o.frame.members, 0)
  {
    forall a, b | 0 <= a < b < |o.frame.members|
      ensures o.frame.members[a].ident != o.frame.members[b].ident
    {
      assert o.scripted[a] == o.frame.members[a].ident;
      assert o.scripted[b] == o.frame.members[b].ident;
    }
  }

  lemma MakeObjectPointerResolved(o: ReactObject, omap: map<string, ObjId>, np: string)
    requires Declared(o) && NoDuplicates(o.scripted) && MakeObjectPointer(o, omap, np, 0).Ok?
    ensures OwnResolved(MakeObjectPointer(o, omap, np, 0).value, omap, np)
  {
    var o1 := MakeObjectPointer(o, omap, np, 0).value;
    assert o1.frame == o.frame;
    DeclaredDistinct(o);
    forall k | 0 <= k < |o.frame.members| && o.frame.members[k].value.ListenerFunc?
      ensures ListenerPointers(o.frame.members[k].value.pathArgs, omap, np).Ok?
      ensures ListenerFuncPointers(o1, o.frame.members[k].ident)
              == Some(ListenerPointers(o.frame.members[k].value.pathArgs, omap, np).value)
    {
      MakeObjectPointerStores(o, omap, np, 0, k);
    }
  }

  lemma PointersOnlyKeepsShape(h: Heap, r: Heap)
    requires PointersOnly(h, r) && TreeShaped(h)
    ensures TreeShaped(r)
  {
    SameTreeKeeps(h, r);
  }

  /** `makeObjectPointers`: the pointers of this object, with its path computed as the
      object map computes it, then of each child frame in scripted-name order. */
  function MakeObjectPointers(h: Heap, omap: map<string, ObjId>, path: Option<string>, id: ObjId): (r: Result<Heap>)
    requires Forward(h) && id < |h|
    ensures r.Ok? ==> PointersOnly(h, r.value)
    ensures r.Ok? && MapIn(omap, |h|) && PointerTablesIn(h) ==> PointerTablesIn(r.value)
    ensures r.Ok? ==> forall k :: 0 <= k < |h[id].frame.members| && h[id].frame.members[k].value.ListenerFunc? ==>
      ListenerPointers(h[id].frame.members[k].value.pathArgs, omap, NewPath(path, h[id].frame.instanceName)).Ok?
    ensures r.Ok? ==> Forward(r.value) && forall t :: 0 <= t < |h| && !InTree(h, id, t) ==> r.value[t] == h[t]
    ensures r.Ok? && TreeShaped(h) ==> Resolved(r.value, omap, path, id)
    decreases |h| - id, 1
  {
    var np := NewPath(path, h[id].frame.instanceName);
    match MakeObjectPointer(h[id], omap, np, 0)
    case Err(m) => Err(m)
    case Ok(o1) =>
      var h1 := h[id := o1];
      TablesInUpdate(h, id, o1);
      PointersOnlyKeepsTree(h, h1);
      match PointersOfChildren(h1, omap, np, id, 0)
      case Err(m) => Err(m)
      case Ok(h2) =>
        PointersOnlyTrans(h, h1, h2);
        PointersOfObject(h, h1, h2, omap, path, id);
        Ok(h2)
  }

  /** The object's own pointers and those of its children make up the whole tree's. */
  lemma PointersOfObject(h: Heap, h1: Heap, h2: Heap, omap: map<string, ObjId>, path: Option<string>, id: ObjId)
    requires Forward(h) && id < |h|
    requires MakeObjectPointer(h[id], omap, NewPath(path, h[id].frame.instanceName), 0).Ok?
    requires h1 == h[id := MakeObjectPointer(h[id], omap, NewPath(path, h[id].frame.instanceName), 0).value]
    requires PointersOnly(h, h1) && PointersOnly(h1, h2) && Forward(h1)
    requires forall t :: 0 <= t < |h1| && !InChildTrees(h1, id, 0, t) ==> h2[t] == h1[t]
    requires TreeShaped(h1) ==> ChildrenResolved(h2, omap, NewPath(path, h[id].frame.instanceName), id, 0)
    ensures Forward(h2) && forall t :: 0 <= t < |h| && !InTree(h, id, t) ==> h2[t] == h[t]
    ensures TreeShaped(h) ==> Resolved(h2, omap, path, id)
  {
    PointersOnlyKeepsTree(h1, h2);
    forall t | 0 <= t < |h| && !InTree(h, id, t)
      ensures h2[t] == h[t]
    {
      InChildTreesSameTree(h, h1, id, 0, t);
    }
    OwnTreeRoot(h1, id);
    if TreeShaped(h) {
      PointersOnlyKeepsShape(h, h1);
      MakeObjectPointerResolved(h[id], omap, NewPath(path, h[id].frame.instanceName));
    }
  }

  /** An object is not below itself. */
  lemma OwnTreeRoot(h: Heap, id: ObjId)
    requires Forward(h) && id < |h|
    ensures !InChildTrees(h, id, 0, id)
  {
    if InChildTrees(h, id, 0, id) {
      InChildTreesBelow(h, id, 0, id);
    }
  }

  function PointersOfChildren(h: Heap, omap: map<string, ObjId>, np: string, id: ObjId, j: nat): (r: Result<Heap>)
    requires Forward(h) && id < |h| && j <= |h[id].scripted|
    ensures r.Ok? ==> PointersOnly(h, r.value)
    ensures r.Ok? && MapIn(omap, |h|) && PointerTablesIn(h) ==> PointerTablesIn(r.value)
    ensures r.Ok? ==> Forward(r.value) && forall t :: 0 <= t < |h| && !InChildTrees(h, id, j, t) ==> r.value[t] == h[t]
    ensures r.Ok? && TreeShaped(h) ==> ChildrenResolved(r.value, omap, np, id, j)
    decreases |h| - id, 0, |h[id].scripted| - j
  {
    if j == |h[id].scripted| then Ok(h)
    else
      match ChildFrame(h[id], h[id].scripted[j])
      case None =>
        var r := PointersOfChildren(h, omap, np, id, j + 1);
        if r.Ok? then
          PointersOnlyKeepsTree(h, r.value);
          r
        else r
      case Some(c) =>
        match MakeObjectPointers(h, omap, Some(np), c)
        case Err(m) => Err(m)
        case Ok(h1) =>
          PointersOnlyKeepsTree(h, h1);
          match PointersOfChildren(h1, omap, np, id, j + 1)
          case Err(m) => Err(m)
          case Ok(h2) =>
            PointersOnlyTrans(h, h1, h2);
            PointersOfChild(h, h1, h2, omap, np, id, j);
            Ok(h2)
  }

  /** One child's tree and the trees of the later children make up the trees from number
      `j` on: they share no object. */
  lemma PointersOfChild(h: Heap, h1: Heap, h2: Heap, omap: map<string, ObjId>, np: string, id: ObjId, j: nat)
    requires Forward(h) && id < |h| && j < |h[id].scripted| && ChildFrame(h[id], h[id].scripted[j]).Some?
    requires PointersOnly(h, h1) && PointersOnly(h1, h2) && Forward(h1)
    requires forall t :: 0 <= t < |h| && !InTree(h, ChildFrame(h[id], h[id].scripted[j]).value, t) ==> h1[t] == h[t]
    requires forall t :: 0 <= t < |h1| && !InChildTrees(h1, id, j + 1, t) ==> h2[t] == h1[t]
    requires TreeShaped(h) ==> Resolved(h1, omap, Some(np), ChildFrame(h[id], h[id].scripted[j]).value)
    requires TreeShaped(h1) ==> ChildrenResolved(h2, omap, np, id, j + 1)
    ensures Forward(h2) && forall t :: 0 <= t < |h| && !InChildTrees(h, id, j, t) ==> h2[t] == h[t]
    ensures TreeShaped(h) ==> ChildrenResolved(h2, omap, np, id, j)
  {
    var c := ChildFrame(h[id], h[id].scripted[j]).value;
    ChildAfterParent(h, id, h[id].scripted[j]);
    PointersOnlyKeepsTree(h1, h2);
    forall t | 0 <= t < |h| && !InChildTrees(h, id, j, t)
      ensures h2[t] == h[t]
    {
      if InTree(h, c, t) {
        ChildTreeInTree(h, id, j, j, t);
      }
      InChildTreesSameTree(h, h1, id, j + 1, t);
    }
    if TreeShaped(h) {
      PointersOnlyKeepsShape(h, h1);
      forall t | 0 <= t < |h1| && InTree(h1, c, t)
        ensures SameListeners(h1[t], h2[t])
      {
        SiblingTreesDisjoint(h1, id, j, t);
      }
      ResolvedFrame(h1, h2, omap, Some(np), c);
    }
  }

  lemma PointersOnlyKeepsTree(h: Heap, r: Heap)
    requires PointersOnly(h, r)
    ensures SameTree(h, r) && (Forward(h) ==> Forward(r))
  {
    SameTreeKeeps(h, r);
  }

  lemma PointersOnlyTrans(a: Heap, b: Heap, c: Heap)
    requires PointersOnly(a, b) && PointersOnly(b, c)
    ensures PointersOnly(a, c)
  {
  }

  // ---------------------------------------------------------------------------
  // Linking listeners

  /** Heaps that differ only in observers, each observer list extended at its end. */
  ghost predicate ObserversGrow(h: Heap, r: Heap) {
    |r| == |h|
    && forall i :: 0 <= i < |h| ==>
         r[i].frame == h[i].frame && r[i].props == h[i].props
         && r[i].scripted == h[i].scripted && r[i].pointerTable == h[i].pointerTable
         && forall p :: ObserversOf(h[i], p) <= ObserversOf(r[i], p)
  }

  lemma ObserversGrowTrans(a: Heap, b: Heap, c: Heap)
    requires ObserversGrow(a, b) && ObserversGrow(b, c)
    ensures ObserversGrow(a, c)
  {
    forall i, p | 0 <= i < |a|
      ensures ObserversOf(a[i], p) <= ObserversOf(c[i], p)
    {
      assert ObserversOf(a[i], p) <= ObserversOf(b[i], p);
      assert ObserversOf(b[i], p) <= ObserversOf(c[i], p);
    }
  }

  lemma ObserversGrowKeeps(h: Heap, r: Heap)
    requires ObserversGrow(h, r)
    ensures SameTree(h, r) && (Forward(h) ==> Forward(r))
    ensures PointerTablesIn(h) ==> PointerTablesIn(r)
  {
    SameTreeKeeps(h, r);
  }

  /** The callback a listener property gets: the owner, the property, the function and
      the pointers the owner holds for it. */
  function ListenerCallback(o: ReactObject, id: ObjId, key: string): Callback
    requires ListenerFunctionValue(o, key).Some? && ListenerFuncPointers(o, key).Some?
  {
    Callback(id, key, ListenerFunctionValue(o, key).value, ListenerFuncPointers(o, key).value)
  }

  /** The callback is among the observers of every property it points at. */
  ghost predicate Registered(h: Heap, cb: Callback) {
    forall i :: 0 <= i < |cb.pointers| ==>
      cb.pointers[i].pointedObject < |h|
      && cb in ObserversOf(h[cb.pointers[i].pointedObject], cb.pointers[i].pointedName)
  }

  lemma RegisteredGrows(h: Heap, r: Heap, cb: Callback)
    requires Registered(h, cb) && ObserversGrow(h, r)
    ensures Registered(r, cb)
  {
    forall i | 0 <= i < |cb.pointers|
      ensures cb in ObserversOf(r[cb.pointers[i].pointedObject], cb.pointers[i].pointedName)
    {
      var o := cb.pointers[i].pointedObject;
      var p := cb.pointers[i].pointedName;
      assert ObserversOf(h[o], p) <= ObserversOf(r[o], p);
    }
  }

  lemma AddCallbackGrows(h: Heap, ptrs: seq<ObjectPointer>, owner: ObjId, prop: string, listener: JsValue)
    requires owner < |h| && PointersIn(ptrs, |h|)
    ensures ObserversGrow(h, AddCallback(h, ptrs, owner, prop, listener))
    ensures Registered(AddCallback(h, ptrs, owner, prop, listener), Callback(owner, prop, listener, ptrs))
  {
    var cb := Callback(owner, prop, listener, ptrs);
    var r := AddCallback(h, ptrs, owner, prop, listener);
    forall i | 0 <= i < |h|
      ensures r[i].frame == h[i].frame && r[i].props == h[i].props
      ensures r[i].scripted == h[i].scripted && r[i].pointerTable == h[i].pointerTable
      ensures forall p :: ObserversOf(h[i], p) <= ObserversOf(r[i], p)
    {
      RegisterKeeps(h, ptrs, cb, i);
      forall p
        ensures ObserversOf(h[i], p) <= ObserversOf(r[i], p)
      {
        RegisterObservers(h, ptrs, cb, i, p);
      }
    }
    AddCallbackRegistersEverywhere(h, ptrs, owner, prop, listener);
  }

  /** One scripted name that holds no child frame: a listener function there gets its
      callback registered; a listener without pointers is an error. */
  function LinkOne(h: Heap, id: ObjId, key: string): (r: Result<Heap>)
    requires Valid(h) && PointerTablesIn(h) && id < |h|
    ensures ListenerFunctionValue(h[id], key).None? ==> r == Ok(h)
    ensures r.Err? <==> ListenerFunctionValue(h[id], key).Some? && ListenerFuncPointers(h[id], key).None?
    ensures r.Err? ==> r.msg == "Failed to get pointers for listner: " + key
    ensures r.Ok? ==> ObserversGrow(h, r.value) && Valid(r.value) && PointerTablesIn(r.value)
    ensures r.Ok? && ListenerFunctionValue(h[id], key).Some? ==> Registered(r.value, ListenerCallback(h[id], id, key))
  {
    match ListenerFunctionValue(h[id], key)
    case None =>
      assert ObserversGrow(h, h);
      Ok(h)
    case Some(fv) =>
      match ListenerFuncPointers(h[id], key)
      case None => Err("Failed to get pointers for listner: " + key)
      case Some(ptrs) =>
        assert PointersIn(ptrs, |h|);
        AddCallbackValid(h, ptrs, id, key, fv);
        AddCallbackGrows(h, ptrs, id, key, fv);
        ObserversGrowKeeps(h, AddCallback(h, ptrs, id, key, fv));
        Ok(AddCallback(h, ptrs, id, key, fv))
  }

  /** A scripted name that holds a listener function rather than a child frame. */
  predicate ListenerSlot(o: ReactObject, key: string) {
    ChildFrame(o, key).None? && ListenerFunctionValue(o, key).Some?
  }

  const MissingPointers: string := "Failed to get pointers for listner: "

  /** `linkListnerFunctions`: child frames are linked where their names come in the
      scripted-name order, listeners of this object in between. */
  function LinkListeners(h: Heap, id: ObjId): (r: Result<Heap>)
    requires Forward(h) && Valid(h) && PointerTablesIn(h) && id < |h|
    ensures r.Ok? ==> ObserversGrow(h, r.value) && Valid(r.value) && PointerTablesIn(r.value)
    ensures r.Ok? ==> forall j :: 0 <= j < |h[id].scripted| && ListenerSlot(h[id], h[id].scripted[j]) ==>
      ListenerFuncPointers(h[id], h[id].scripted[j]).Some?
      && Registered(r.value, ListenerCallback(h[id], id, h[id].scripted[j]))
    ensures r.Err? ==> |MissingPointers| <= |r.msg| && r.msg[..|MissingPointers|] == MissingPointers
    ensures r.Ok? ==> Forward(r.value) && Linked(r.value, id)
    decreases |h| - id, 1
  {
    var r := LinkChildren(h, id, 0);
    if r.Ok? then
      LinkedObject(h, r.value, id);
      r
    else r
  }

  /** Every listener slot of every object in the tree below `id` has its pointers and its
      callback registered on each property they point at. */
  ghost predicate Linked(h: Heap, id: ObjId)
    requires Forward(h) && id < |h|
    decreases |h| - id, 1
  {
    (forall j :: 0 <= j < |h[id].scripted| && ListenerSlot(h[id], h[id].scripted[j]) ==>
       ListenerFuncPointers(h[id], h[id].scripted[j]).Some?
       && Registered(h, ListenerCallback(h[id], id, h[id].scripted[j])))
    && ChildrenLinked(h, id, 0)
  }

  ghost predicate ChildrenLinked(h: Heap, id: ObjId, j: nat)
    requires Forward(h) && id < |h| && j <= |h[id].scripted|
    decreases |h| - id, 0, |h[id].scripted| - j
  {
    j < |h[id].scripted| ==>
      (ChildFrame(h[id], h[id].scripted[j]).Some? ==> Linked(h, ChildFrame(h[id], h[id].scripted[j]).value))
      && ChildrenLinked(h, id, j + 1)
  }

  /** Adding observers keeps every callback registered. */
  lemma {:induction false} LinkedGrows(h: Heap, r: Heap, id: ObjId)
    requires Forward(h) && id < |h| && ObserversGrow(h, r) && Linked(h, id)
    ensures Forward(r) && Linked(r, id)
    decreases |h| - id, 1
  {
    ObserversGrowKeeps(h, r);
    forall j | 0 <= j < |r[id].scripted| && ListenerSlot(r[id], r[id].scripted[j])
      ensures ListenerFuncPointers(r[id], r[id].scripted[j]).Some?
      ensures Registered(r, ListenerCallback(r[id], id, r[id].scripted[j]))
    {
      RegisteredGrows(h, r, ListenerCallback(h[id], id, h[id].scripted[j]));
    }
    ChildrenLinkedGrows(h, r, id, 0);
  }

  lemma {:induction false} ChildrenLinkedGrows(h: Heap, r: Heap, id: ObjId, j: nat)
    requires Forward(h) && id < |h| && j <= |h[id].scripted| && ObserversGrow(h, r) && ChildrenLinked(h, id, j)
    ensures Forward(r) && ChildrenLinked(r, id, j)
    decreases |h| - id, 0, |h[id].scripted| - j
  {
    ObserversGrowKeeps(h, r);
    if j < |h[id].scripted| {
      var c := ChildFrame(h[id], h[id].scripted[j]);
      if c.Some? {
        ChildAfterParent(h, id, h[id].scripted[j]);
        LinkedGrows(h, r, c.value);
      }
      ChildrenLinkedGrows(h, r, id, j + 1);
    }
  }

  /** The object's own slots and its children's trees make up the whole tree. */
  lemma LinkedObject(h: Heap, r: Heap, id: ObjId)
    requires Forward(h) && id < |h| && ObserversGrow(h, r)
    requires forall j :: 0 <= j < |h[id].scripted| && ListenerSlot(h[id], h[id].scripted[j]) ==>
      ListenerFuncPointers(h[id], h[id].scripted[j]).Some?
      && Registered(r, ListenerCallback(h[id], id, h[id].scripted[j]))
    requires Forward(r) && ChildrenLinked(r, id, 0)
    ensures Linked(r, id)
  {
  }

  function LinkChildren(h: Heap, id: ObjId, j: nat): (r: Result<Heap>)
    requires Forward(h) && Valid(h) && PointerTablesIn(h) && id < |h| && j <= |h[id].scripted|
    ensures r.Ok? ==> ObserversGrow(h, r.value) && Valid(r.value) && PointerTablesIn(r.value)
    ensures r.Ok? ==> forall j' :: j <= j' < |h[id].scripted| && ListenerSlot(h[id], h[id].scripted[j']) ==>
      ListenerFuncPointers(h[id], h[id].scripted[j']).Some?
      && Registered(r.value, ListenerCallback(h[id], id, h[id].scripted[j']))
    ensures r.Err? ==> |MissingPointers| <= |r.msg| && r.msg[..|MissingPointers|] == MissingPointers
    ensures r.Ok? ==> Forward(r.value) && ChildrenLinked(r.value, id, j)
    decreases |h| - id, 0, |h[id].scripted| - j
  {
    if j == |h[id].scripted| then
      assert ObserversGrow(h, h);
      Ok(h)
    else
      var key := h[id].scripted[j];
      var step :=
        match ChildFrame(h[id], key)
        case Some(c) => LinkListeners(h, c)
        case None => LinkOne(h, id, key);
      match step
      case Err(m) =>
        assert (MissingPointers + key)[..|MissingPointers|] == MissingPointers;
        Err(m)
      case Ok(h1) =>
        ObserversGrowKeeps(h, h1);
        match LinkChildren(h1, id, j + 1)
        case Err(m) => Err(m)
        case Ok(h2) =>
          ObserversGrowTrans(h, h1, h2);
          LinkedRest(h, h1, h2, id, j);
          LinkedChild(h, h1, h2, id, j);
          if ListenerSlot(h[id], key) then
            RegisteredGrows(h1, h2, ListenerCallback(h[id], id, key));
            Ok(h2)
          else
            Ok(h2)
  }

  /** A child linked before the later names are keeps its callbacks registered. */
  lemma LinkedChild(h: Heap, h1: Heap, h2: Heap, id: ObjId, j: nat)
    requires Forward(h) && id < |h| && j < |h[id].scripted|
    requires ObserversGrow(h, h1) && ObserversGrow(h1, h2) && Forward(h1)
    requires ChildFrame(h[id], h[id].scripted[j]).Some? ==>
      Linked(h1, ChildFrame(h[id], h[id].scripted[j]).value)
    requires ChildrenLinked(h2, id, j + 1)
    ensures Forward(h2) && ChildrenLinked(h2, id, j)
  {
    ObserversGrowKeeps(h1, h2);
    var c := ChildFrame(h[id], h[id].scripted[j]);
    if c.Some? {
      ChildAfterParent(h, id, h[id].scripted[j]);
      LinkedGrows(h1, h2, c.value);
    }
  }

  /** Linking only adds observers, so what the later names register is stated alike before
      and after the earlier steps. */
  lemma LinkedRest(h: Heap, h1: Heap, h2: Heap, id: ObjId, j: nat)
    requires id < |h| && ObserversGrow(h, h1)
    requires forall j' :: j + 1 <= j' < |h1[id].scripted| && ListenerSlot(h1[id], h1[id].scripted[j']) ==>
      ListenerFuncPointers(h1[id], h1[id].scripted[j']).Some?
      && Registered(h2, ListenerCallback(h1[id], id, h1[id].scripted[j']))
    ensures forall j' :: j + 1 <= j' < |h[id].scripted| && ListenerSlot(h[id], h[id].scripted[j']) ==>
      ListenerFuncPointers(h[id], h[id].scripted[j']).Some?
      && Registered(h2, ListenerCallback(h[id], id, h[id].scripted[j']))
  {
  }

  // ---------------------------------------------------------------------------
  // `self` paths

  predicate SubMap(a: map<string, ObjId>, b: map<string, ObjId>) {
    forall k :: k in a ==> k in b && b[k] == a[k]
  }

  /** Wherever an object's own map sits inside the map being resolved against, `self.p`
      resolves to that object itself, read at `p`: the pointer walk and the map agree on
      the object's path. */
  lemma SelfResolvesToOwner(h: Heap, omap: map<string, ObjId>, path: Option<string>, id: ObjId, n: string, p: string)
    requires Forward(h) && id < |h| && SubMap(ObjectMap(h, path, id), omap)
    ensures PathToPointer(PathArgument(n, PathExpression(["self", p])), omap, NewPath(path, h[id].frame.instanceName))
            == Ok(ObjectPointer(n, p, id))
  {
    SelfPointer(n, p, omap, NewPath(path, h[id].frame.instanceName));
  }

  /** The walk hands each child frame the path under which the map holds it, so the
      property above passes from parent to child. */
  lemma ChildWalkAgrees(h: Heap, omap: map<string, ObjId>, path: Option<string>, id: ObjId, j: nat)
    requires Forward(h) && ChildrenNamed(h) && id < |h| && SeparateSiblings(h, id)
    requires j < |h[id].scripted| && ChildFrame(h[id], h[id].scripted[j]).Some?
    requires SubMap(ObjectMap(h, path, id), omap)
    ensures SubMap(ObjectMap(h, Some(NewPath(path, h[id].frame.instanceName)), ChildFrame(h[id], h[id].scripted[j]).value), omap)
  {
    ChildMapIncluded(h, path, id, j);
  }

  // ---------------------------------------------------------------------------
  // The pipeline

  lemma WellBuiltReady(h: Heap)
    requires WellBuilt(h)
    ensures Valid(h) && PointerTablesIn(h)
  {
  }

  /** `allocateListnerCallers`: the object map of the whole tree, the pointers of every
      listener, then the callbacks. */
  function AllocateListenerCallers(h: Heap, root: ObjId): (r: Result<Heap>)
    requires WellBuilt(h) && root < |h|
    ensures MakeObjectPointers(h, ObjectMap(h, None, root), None, root).Err? ==>
      r == Err(MakeObjectPointers(h, ObjectMap(h, None, root), None, root).msg)
    ensures r.Ok? ==> SameTree(h, r.value) && Valid(r.value) && PointerTablesIn(r.value)
    ensures r.Ok? ==> Forward(r.value) && Linked(r.value, root)
    ensures r.Ok? && TreeShaped(h) ==> Resolved(r.value, ObjectMap(h, None, root), None, root)
  {
    var omap := ObjectMap(h, None, root);
    WellBuiltReady(h);
    match MakeObjectPointers(h, omap, None, root)
    case Err(m) => Err(m)
    case Ok(h1) =>
      PointersOnlyKeepsTree(h, h1);
      assert Valid(h1) by {
        assert forall i :: 0 <= i < |h1| ==> h1[i].observers == h[i].observers;
      }
      match LinkListeners(h1, root)
      case Err(m) => Err(m)
      case Ok(h2) =>
        ObserversGrowKeeps(h1, h2);
        if TreeShaped(h) then
          ResolvedAfterLinking(h1, h2, omap, root);
          Ok(h2)
        else
          Ok(h2)
  }

  /** Linking adds observers only, so the pointers stay resolved. */
  lemma ResolvedAfterLinking(h1: Heap, h2: Heap, omap: map<string, ObjId>, root: ObjId)
    requires Forward(h1) && root < |h1| && ObserversGrow(h1, h2) && Resolved(h1, omap, None, root)
    ensures Forward(h2) && Resolved(h2, omap, None, root)
  {
    ObserversGrowKeeps(h1, h2);
    ResolvedFrame(h1, h2, omap, None, root);
  }

  /** The objects `CompileFrame` builds from nothing form a tree. */
  lemma BuiltTreeShaped(h: Heap)
    requires WellBuilt(h) && forall k :: 0 <= k < |h| ==> Declared(h[k])
    ensures TreeShaped(h)
  {
  }

  /** `compile`: build the objects, then the listener callers, then the components through
      the mapper. The first failing stage decides the error and the later ones do not run. */
  function Compile(eng: Engine, mapper: Mapper, f: Frame): (r: Result<(Heap, Component)>)
    ensures CompileFrame([], eng, f).Err? ==> r == Err(CompileFrame([], eng, f).msg)
    ensures CompileFrame([], eng, f).Ok? ==>
      var (h, root) := CompileFrame([], eng, f).value;
      root == 0
      && (AllocateListenerCallers(h, root).Err? ==> r == Err(AllocateListenerCallers(h, root).msg))
      && (AllocateListenerCallers(h, root).Ok? && mapper.DefaultMapper? ==>
            r.Ok? && r.value.0 == AllocateListenerCallers(h, root).value)
      && (AllocateListenerCallers(h, root).Ok? && mapper.CustomMapper? ==>
            var h1 := AllocateListenerCallers(h, root).value;
            (mapper.mapRoot(h1, 0).Err? ==> r == Err(mapper.mapRoot(h1, 0).msg))
            && (mapper.mapRoot(h1, 0).Ok? ==> r == Ok((h1, mapper.mapRoot(h1, 0).value))))
    ensures r.Ok? ==> 0 < |r.value.0| && Forward(r.value.0) && r.value.0[0].frame == f
    ensures r.Ok? ==> r.value.0[0].scripted == Idents(f.members) && Valid(r.value.0)
    ensures r.Ok? ==>
      Linked(r.value.0, 0) && Resolved(r.value.0, ObjectMap(CompileFrame([], eng, f).value.0, None, 0), None, 0)
    ensures r.Ok? && mapper.DefaultMapper? ==> Mirrors(r.value.0, 0, r.value.1)
    ensures r.Ok? && mapper.CustomMapper? ==> Ok(r.value.1) == mapper.mapRoot(r.value.0, 0)
    ensures !NoDuplicates(Idents(f.members)) ==> r.Err?
  {
    assert WellBuilt([]);
    match CompileFrame([], eng, f)
    case Err(m) => Err(m)
    case Ok(res) =>
      var (h, root) := res;
      BuiltTreeShaped(h);
      match AllocateListenerCallers(h, root)
      case Err(m) => Err(m)
      case Ok(h1) =>
        SameTreeKeeps(h, h1);
        match Map(mapper, h1, root)
        case Err(m) => Err(m)
        case Ok(comp) => Ok((h1, comp))
  }

  // ---------------------------------------------------------------------------
  // `self` in a compiled heap

  /** The object map depends on frames, properties and scripted names only. */
  lemma {:induction false} ObjectMapSameTree(h: Heap, r: Heap, path: Option<string>, id: ObjId)
    requires Forward(h) && SameTree(h, r) && id < |h|
    ensures Forward(r) && ObjectMap(r, path, id) == ObjectMap(h, path, id)
    decreases |h| - id, 1
  {
    SameTreeKeeps(h, r);
    var np := NewPath(path, h[id].frame.instanceName);
    MergeSameTree(h, r, np, id, map[np := id], 0);
  }

  lemma {:induction false} MergeSameTree(h: Heap, r: Heap, np: string, id: ObjId, acc: map<string, ObjId>, j: nat)
    requires Forward(h) && SameTree(h, r) && id < |h| && j <= |h[id].scripted|
    requires forall k :: k in acc ==> id <= acc[k] < |h| && IsPathPrefix(np, k)
    ensures Forward(r) && MergeChildren(r, np, id, acc, j) == MergeChildren(h, np, id, acc, j)
    decreases |h| - id, 0, |h[id].scripted| - j
  {
    SameTreeKeeps(h, r);
    if j < |h[id].scripted| {
      var c := ChildFrame(h[id], h[id].scripted[j]);
      assert c == ChildFrame(r[id], r[id].scripted[j]);
      if c.Some? {
        ChildAfterParent(h, id, h[id].scripted[j]);
        ObjectMapSameTree(h, r, Some(np), c.value);
        var sub := ObjectMap(h, Some(np), c.value);
        ChildMapBelow(np, h[c.value].frame.instanceName, sub);
        MergeSameTree(h, r, np, id, acc + sub, j + 1);
      } else {
        MergeSameTree(h, r, np, id, acc, j + 1);
      }
    }
  }

  /** The tree of child number `j` is resolved when the children from `j0` on are. */
  lemma {:induction false} ChildResolved(h: Heap, omap: map<string, ObjId>, np: string, id: ObjId, j0: nat, j: nat)
    requires Forward(h) && id < |h| && j0 <= j < |h[id].scripted|
    requires ChildrenResolved(h, omap, np, id, j0) && ChildFrame(h[id], h[id].scripted[j]).Some?
    ensures Resolved(h, omap, Some(np), ChildFrame(h[id], h[id].scripted[j]).value)
    decreases j - j0
  {
    if j0 < j {
      ChildResolved(h, omap, np, id, j0 + 1, j);
    }
  }

  /** In a resolved tree with dot-free member names, a listener argument `self.p` of any
      object of the tree points at that object's own property `p`. */
  lemma {:induction false} SelfArgumentPointsAtOwner(h: Heap, omap: map<string, ObjId>, path: Option<string>, id: ObjId,
                                                     t: ObjId, k: nat, a: nat, p: string)
    requires Forward(h) && ChildrenNamed(h) && id < |h| && t < |h|
    requires forall i :: 0 <= i < |h| ==> SeparateSiblings(h, i)
    requires Resolved(h, omap, path, id) && SubMap(ObjectMap(h, path, id), omap) && InTree(h, id, t)
    requires k < |h[t].frame.members| && h[t].frame.members[k].value.ListenerFunc?
    requires a < |h[t].frame.members[k].value.pathArgs|
    requires h[t].frame.members[k].value.pathArgs[a].expression.elements == ["self", p]
    ensures var m := h[t].frame.members[k];
      ListenerFuncPointers(h[t], m.ident).Some? && a < |ListenerFuncPointers(h[t], m.ident).value|
      && ListenerFuncPointers(h[t], m.ident).value[a] == ObjectPointer(m.value.pathArgs[a].name, p, t)
    decreases |h| - id
  {
    var np := NewPath(path, h[id].frame.instanceName);
    if t == id {
      var arg := h[t].frame.members[k].value.pathArgs[a];
      assert arg == PathArgument(arg.name, PathExpression(["self", p]));
      SelfResolvesToOwner(h, omap, path, id, arg.name, p);
    } else {
      var j := ChildTreesWitness(h, id, 0, t);
      var c := ChildFrame(h[id], h[id].scripted[j]).value;
      ChildResolved(h, omap, np, id, 0, j);
      ChildWalkAgrees(h, omap, path, id, j);
      ChildAfterParent(h, id, h[id].scripted[j]);
      SelfArgumentPointsAtOwner(h, omap, Some(np), c, t, k, a, p);
    }
  }

  /** After `allocateListnerCallers` on a built tree with dot-free member names (the heap
      `compile` returns), every listener argument `self.p` of an object of the tree points
      at that object's own property `p`. */
  lemma LinkedSelfArgument(h0: Heap, t: ObjId, k: nat, a: nat, p: string)
    requires WellBuilt(h0) && TreeShaped(h0) && 0 < |h0| && AllocateListenerCallers(h0, 0).Ok?
    requires forall i :: 0 <= i < |h0| ==> AllFree(h0[i].scripted, '.')
    requires t < |h0| && InTree(h0, 0, t)
    requires k < |h0[t].frame.members| && h0[t].frame.members[k].value.ListenerFunc?
    requires a < |h0[t].frame.members[k].value.pathArgs|
    requires h0[t].frame.members[k].value.pathArgs[a].expression.elements == ["self", p]
    ensures var h := AllocateListenerCallers(h0, 0).value; var m := h0[t].frame.members[k];
      ListenerFuncPointers(h[t], m.ident).Some? && a < |ListenerFuncPointers(h[t], m.ident).value|
      && ListenerFuncPointers(h[t], m.ident).value[a] == ObjectPointer(m.value.pathArgs[a].name, p, t)
  {
    var h := AllocateListenerCallers(h0, 0).value;
    assert SameTree(h0, h) && Forward(h) && Resolved(h, ObjectMap(h0, None, 0), None, 0);
    SelfArgumentAfterLinking(h0, h, t, k, a, p);
  }

  /** The same for any heap that keeps the tree of a built one and is resolved against
      its object map. */
  lemma SelfArgumentAfterLinking(h0: Heap, h: Heap, t: ObjId, k: nat, a: nat, p: string)
    requires WellBuilt(h0) && 0 < |h0| && SameTree(h0, h) && Forward(h)
    requires Resolved(h, ObjectMap(h0, None, 0), None, 0)
    requires forall i :: 0 <= i < |h0| ==> AllFree(h0[i].scripted, '.')
    requires t < |h0| && InTree(h0, 0, t)
    requires k < |h0[t].frame.members| && h0[t].frame.members[k].value.ListenerFunc?
    requires a < |h0[t].frame.members[k].value.pathArgs|
    requires h0[t].frame.members[k].value.pathArgs[a].expression.elements == ["self", p]
    ensures var m := h0[t].frame.members[k];
      ListenerFuncPointers(h[t], m.ident).Some? && a < |ListenerFuncPointers(h[t], m.ident).value|
      && ListenerFuncPointers(h[t], m.ident).value[a] == ObjectPointer(m.value.pathArgs[a].name, p, t)
  {
    ObjectMapSameTree(h0, h, None, 0);
    SameTreeKeeps(h0, h);
    InTreeSameTree(h0, h, 0, t);
    assert forall i :: 0 <= i < |h| ==> SeparateSiblings(h, i) by {
      assert forall i :: 0 <= i < |h| ==> h[i].scripted == h0[i].scripted;
    }
    SelfArgumentPointsAtOwner(h, ObjectMap(h, None, 0), None, 0, t, k, a, p);
  }
}

=== FILE: components.dfy ===
/** The component layer: the component tree that mirrors the tree of react objects
    (`AMBComponent`, `AMBComponentMapper`), the registry of allocators by class name
    (`AMBComponentManager`) and the executor that runs every Init function children first
    (`AMBComponentExecutor`). */
module Components {
  import opened Wrappers
  import opened Frames
  import opened ReactObjects
  import opened Binding

  // ---------------------------------------------------------------------------
  // Components

  /** `AMBComponentObject`: the react object once `setup` stored it, and the children. */
  datatype Component = Component(reactObject: Option<ObjId>, children: seq<Component>)

  /** A new component: no object yet and no children. */
  function NewComponent(): (c: Component)
    ensures c.reactObject.None? && c.children == []
  {
    Component(None, [])
  }

  /** `addChild`: the child goes after the earlier children, which stay as they were. */
  function AddChild(c: Component, child: Component): (r: Component)
    ensures |r.children| == |c.children| + 1 && r.children[|c.children|] == child
    ensures r.children[..|c.children|] == c.children
    ensures r.reactObject == c.reactObject
  {
    c.(children := c.children + [child])
  }

  /** `setup`: stores the object, which `reactObject` then reads back, and reports no error. */
  function Setup(c: Component, o: ObjId): (r: (Component, Option<string>))
    ensures r.1.None? && r.0.reactObject.Some? && ReactObjectOf(r.0) == o
    ensures r.0.children == c.children
  {
    (c.(reactObject := Some(o)), None)
  }

  /** `reactObject`: reading it before `setup` is a fatal error, hence the precondition. */
  function ReactObjectOf(c: Component): ObjId
    requires c.reactObject.Some?
  {
    c.reactObject.value
  }

  // ---------------------------------------------------------------------------
  // Mapping react objects to components

  /** The child-frame objects an object's scripted names hold, from name number `j` on. */
  function ChildObjects(h: Heap, o: ObjId, j: nat): (r: seq<ObjId>)
    requires Forward(h) && o < |h| && j <= |h[o].scripted|
    ensures forall i :: 0 <= i < |r| ==> o < r[i] < |h|
    decreases |h[o].scripted| - j
  {
    if j == |h[o].scripted| then []
    else
      match ChildFrame(h[o], h[o].scripted[j])
      case Some(c) => [c] + ChildObjects(h, o, j + 1)
      case None => ChildObjects(h, o, j + 1)
  }

  /** The component tree mirrors the react-object tree: each component holds its object,
      and has one child per child frame, in scripted-name order. */
  ghost predicate Mirrors(h: Heap, o: ObjId, c: Component)
    requires Forward(h) && o < |h|
    decreases |h| - o
  {
    var kids := ChildObjects(h, o, 0);
    c.reactObject == Some(o)
    && |c.children| == |kids|
    && forall i :: 0 <= i < |kids| ==> Mirrors(h, kids[i], c.children[i])
  }

  /** The mapper `compile` is handed: the class as written, whose `map` is `mapObject`, or a
      subclass that overrides the open `map` with a function of the object tree. */
  datatype Mapper = DefaultMapper | CustomMapper(mapRoot: (Heap, ObjId) -> Result<Component>)

  /** `map`: the default mapper never fails and mirrors the tree; an overriding one answers
      whatever it answers. */
  function Map(m: Mapper, h: Heap, o: ObjId): (r: Result<Component>)
    requires Forward(h) && o < |h|
    ensures m.DefaultMapper? ==> r.Ok? && Mirrors(h, o, r.value)
    ensures m.CustomMapper? ==> r == m.mapRoot(h, o)
  {
    match m
    case DefaultMapper => MapObject(h, o)
    case CustomMapper(f) => f(h, o)
  }

  /** `mapObject`: children first, then `setup`. A class name other than `Object` is only
      logged, so mapping never fails. */
  function MapObject(h: Heap, o: ObjId): (r: Result<Component>)
    requires Forward(h) && o < |h|
    ensures r.Ok? && Mirrors(h, o, r.value)
    decreases |h| - o, 1
  {
    match MapChildObjects(h, o, NewComponent(), 0)
    case Err(m) => Err(m)
    case Ok(c) =>
      var (c2, err) := Setup(c, o);
      match err
      case Some(e) => Err(e)
      case None => Ok(c2)
  }

  /** `mapChildObjects`: one child component per child frame, appended in order. */
  function MapChildObjects(h: Heap, o: ObjId, comp: Component, j: nat): (r: Result<Component>)
    requires Forward(h) && o < |h| && j <= |h[o].scripted|
    ensures r.Ok?
    ensures r.value.reactObject == comp.reactObject
    ensures |r.value.children| == |comp.children| + |ChildObjects(h, o, j)|
    ensures r.value.children[..|comp.children|] == comp.children
    ensures forall i :: 0 <= i < |ChildObjects(h, o, j)| ==>
      Mirrors(h, ChildObjects(h, o, j)[i], r.value.children[|comp.children| + i])
    decreases |h| - o, 0, |h[o].scripted| - j
  {
    if j == |h[o].scripted| then Ok(comp)
    else
      match ChildFrame(h[o], h[o].scripted[j])
      case None => MapChildObjects(h, o, comp, j + 1)
      case Some(c) =>
        match MapObject(h, c)
        case Err(m) => Err(m)
        case Ok(cc) =>
          var r := MapChildObjects(h, o, AddChild(comp, cc), j + 1);
          assert r.value.children[|comp.children|] == cc by {
            assert r.value.children[..|comp.children| + 1][|comp.children|] == cc;
          }
          r
  }

  // ---------------------------------------------------------------------------
  // The allocator registry

  /** The built-in allocator for class `Object`, or a registered one (its behaviour is the
      caller's code and is a parameter of `Allocate`). */
  datatype Allocator = ObjectAllocator | CustomAllocator(tag: nat)

  datatype Manager = Manager(allocators: map<string, Allocator>)

  /** `init`: only the `Object` allocator. */
  function NewManager(): (m: Manager)
    ensures forall name :: HasAllocator(m, name) <==> name == "Object"
    ensures "Object" in m.allocators && m.allocators["Object"] == ObjectAllocator
  {
    Manager(map["Object" := ObjectAllocator])
  }

  /** `allocate`: dispatch on the object's class name. */
  function Allocate(m: Manager, h: Heap, o: ObjId, custom: (nat, ObjId) -> Result<Component>): (r: Result<Component>)
    requires o < |h|
    ensures h[o].frame.className !in m.allocators
            ==> r == Err("Failed to allocate unknown class object: " + h[o].frame.className)
    ensures h[o].frame.className in m.allocators && m.allocators[h[o].frame.className] == ObjectAllocator
            ==> r == Ok(Component(Some(o), []))
    ensures h[o].frame.className in m.allocators && m.allocators[h[o].frame.className].CustomAllocator?
            ==> r == custom(m.allocators[h[o].frame.className].tag, o)
  {
    var cls := h[o].frame.className;
    if cls in m.allocators then
      match m.allocators[cls]
      case ObjectAllocator =>
        var (c, err) := Setup(NewComponent(), o);
        (match err
         case Some(e) => Err(e)
         case None => Ok(c))
      case CustomAllocator(t) => custom(t, o)
    else Err("Failed to allocate unknown class object: " + cls)
  }

  function HasAllocator(m: Manager, name: string): bool {
    name in m.allocators
  }

  /** `addAllocator`: registers or replaces the allocator for one class name. */
  function AddAllocator(m: Manager, name: string, a: Allocator): (r: Manager)
    ensures HasAllocator(r, name) && r.allocators[name] == a
    ensures forall n :: n != name ==> (HasAllocator(r, n) <==> HasAllocator(m, n))
    ensures forall n :: n != name && n in m.allocators ==> n in r.allocators && r.allocators[n] == m.allocators[n]
  {
    Manager(m.allocators[name := a])
  }

  /** A fresh manager allocates a set-up component, with no children, for class `Object`. */
  lemma FreshManager(h: Heap, o: ObjId, custom: (nat, ObjId) -> Result<Component>)
    requires o < |h| && h[o].frame.className == "Object"
    ensures Allocate(NewManager(), h, o, custom) == Ok(Component(Some(o), []))
  {
  }

  /** The process-wide manager slot behind `shared`. */
  datatype Registry = Registry(shared: Option<Manager>)

  /** `shared`: the stored manager, or a new one that is stored first. */
  function Shared(reg: Registry): (r: (Manager, Registry))
    ensures r.1.shared == Some(r.0)
    ensures reg.shared.Some? ==> r == (reg.shared.value, reg)
    ensures reg.shared.None? ==> r.0 == NewManager()
  {
    match reg.shared
    case Some(m) => (m, reg)
    case None => (NewManager(), Registry(Some(NewManager())))
  }

  /** Every access after the first returns the same manager and changes nothing. */
  lemma SharedIsStable(reg: Registry)
    ensures var (m, reg1) := Shared(reg); Shared(reg1) == (m, reg1)
  {
  }

  // ---------------------------------------------------------------------------
  // Running Init functions

  /** One call the executor makes: a function and its arguments. */
  datatype Invocation = Invocation(callee: JsValue, arguments: seq<JsValue>)

  /** Every component of the tree has been set up with an object of the heap. */
  predicate SetUp(h: Heap, c: Component)
    decreases c
  {
    c.reactObject.Some? && c.reactObject.value < |h|
    && forall i :: 0 <= i < |c.children| ==> SetUp(h, c.children[i])
  }

  /** The Init calls of one object: for each Init member in order whose function the
      object holds, a call with no arguments. */
  function InitCalls(o: ReactObject, ms: seq<Member>): (r: seq<Invocation>)
    ensures |r| <= |ms|
    ensures forall i :: 0 <= i < |r| ==> r[i].arguments == []
  {
    if |ms| == 0 then []
    else
      var here :=
        if ms[0].value.InitFunc? && InitObjectName(ms[0].ident) in o.props
        then [Invocation(o.props[InitObjectName(ms[0].ident)], [])]
        else [];
      here + InitCalls(o, ms[1..])
  }

  /** A call is made exactly for a function an Init member holds, and with no arguments. */
  lemma {:induction false} InitCallsExactly(o: ReactObject, ms: seq<Member>, call: Invocation)
    ensures call in InitCalls(o, ms) <==>
      call.arguments == []
      && exists k :: 0 <= k < |ms| && ms[k].value.InitFunc?
                     && ImmediateValue(o, InitObjectName(ms[k].ident)) == Some(call.callee)
    decreases |ms|
  {
    if |ms| > 0 {
      InitCallsExactly(o, ms[1..], call);
      if call.arguments == [] && ms[0].value.InitFunc? && ImmediateValue(o, InitObjectName(ms[0].ident)) == Some(call.callee) {
        assert call in InitCalls(o, ms);
      }
      if call in InitCalls(o, ms[1..]) {
        var k :| 0 <= k < |ms[1..]| && ms[1..][k].value.InitFunc?
                 && ImmediateValue(o, InitObjectName(ms[1..][k].ident)) == Some(call.callee);
        assert ms[k + 1] == ms[1..][k];
      }
      if exists k :: 0 <= k < |ms| && ms[k].value.InitFunc?
                     && ImmediateValue(o, InitObjectName(ms[k].ident)) == Some(call.callee) {
        var k :| 0 <= k < |ms| && ms[k].value.InitFunc?
                 && ImmediateValue(o, InitObjectName(ms[k].ident)) == Some(call.callee);
        if k > 0 {
          assert ms[1..][k - 1] == ms[k];
        }
      }
    }
  }

  /** The calls follow the members: the calls of `ms + ns` are those of `ms`, then those
      of `ns`. */
  lemma {:induction false} InitCallsAppend(o: ReactObject, ms: seq<Member>, ns: seq<Member>)
    ensures InitCalls(o, ms + ns) == InitCalls(o, ms) + InitCalls(o, ns)
    decreases |ms|
  {
    if |ms| == 0 {
      assert ms + ns == ns;
    } else {
      assert (ms + ns)[1..] == ms[1..] + ns;
      InitCallsAppend(o, ms[1..], ns);
    }
  }

  /** A single member gives one call when it is an Init member whose function the object
      holds, and none otherwise. */
  lemma InitCallOfMember(o: ReactObject, m: Member)
    ensures InitCalls(o, [m]) ==
      if m.value.InitFunc? && InitObjectName(m.ident) in o.props
      then [Invocation(o.props[InitObjectName(m.ident)], [])]
      else []
  {
    assert [m][1..] == [];
  }

  function OwnInits(h: Heap, c: Component): seq<Invocation>
    requires c.reactObject.Some? && c.reactObject.value < |h|
  {
    var o := h[c.reactObject.value];
    InitCalls(o, o.frame.members)
  }

  /** `exec`: the children's trees in order, then the component's own Init calls; that is,
      the Init calls of the objects in post-order, every subtree before its root. */
  function Exec(h: Heap, c: Component): (r: seq<Invocation>)
    requires SetUp(h, c)
    ensures r == InitsOf(h, PostOrder(h, c))
    decreases c, 1
  {
    var root := [c.reactObject.value];
    InitsOfAppend(h, PostOrderAll(h, c.children), root);
    assert InitsOf(h, root) == OwnInits(h, c) + [] by {
      assert root[1..] == [];
    }
    ExecAll(h, c.children) + OwnInits(h, c)
  }

  /** The trees of `cs` one after the other, each in post-order. */
  function ExecAll(h: Heap, cs: seq<Component>): (r: seq<Invocation>)
    requires forall i :: 0 <= i < |cs| ==> SetUp(h, cs[i])
    ensures r == InitsOf(h, PostOrderAll(h, cs))
    decreases cs, 0
  {
    if |cs| == 0 then []
    else
      InitsOfAppend(h, PostOrder(h, cs[0]), PostOrderAll(h, cs[1..]));
      Exec(h, cs[0]) + ExecAll(h, cs[1..])
  }

  /** The objects of a tree in post-order: every subtree before its root. */
  function PostOrder(h: Heap, c: Component): (r: seq<ObjId>)
    requires SetUp(h, c)
    ensures |r| >= 1 && r[|r| - 1] == c.reactObject.value
    ensures forall i :: 0 <= i < |r| ==> r[i] < |h|
    decreases c, 1
  {
    PostOrderAll(h, c.children) + [c.reactObject.value]
  }

  function PostOrderAll(h: Heap, cs: seq<Component>): (r: seq<ObjId>)
    requires forall i :: 0 <= i < |cs| ==> SetUp(h, cs[i])
    ensures forall i :: 0 <= i < |r| ==> r[i] < |h|
    decreases cs, 0
  {
    if |cs| == 0 then [] else PostOrder(h, cs[0]) + PostOrderAll(h, cs[1..])
  }

  /** The Init calls of a list of objects, one object after the other. */
  function InitsOf(h: Heap, ids: seq<ObjId>): seq<Invocation>
    requires forall i :: 0 <= i < |ids| ==> ids[i] < |h|
  {
    if |ids| == 0 then []
    else
      var o := h[ids[0]];
      InitCalls(o, o.frame.members) + InitsOf(h, ids[1..])
  }

  lemma {:induction false} InitsOfAppend(h: Heap, a: seq<ObjId>, b: seq<ObjId>)
    requires forall i :: 0 <= i < |a| ==> a[i] < |h|
    requires forall i :: 0 <= i < |b| ==> b[i] < |h|
    ensures InitsOf(h, a + b) == InitsOf(h, a) + InitsOf(h, b)
    decreases |a|
  {
    if |a| == 0 {
      assert a + b == b;
    } else {
      assert (a + b)[1..] == a[1..] + b;
      InitsOfAppend(h, a[1..], b);
    }
  }
}

=== FILE: frame.dfy ===
/** The frame tree that the parser builds and the compiler consumes (`AMBFrame.swift`):
    declared types, the tagged value algebra, members and frames, and the pure text
    builders that turn a function value into the script handed to the script engine. */
module Frames {
  import opened Wrappers
  import opened Strings

  /** Declared property types (`AMBType`). Enum types carry the registered type name. */
  datatype AmbType =
    | BooleanType
    | IntType
    | FloatType
    | StringType
    | UrlType
    | ArrayType
    | DictionaryType
    | EnumType(enumName: string)

  /** The four function keywords (`AMBFunction.FunctionType`). */
  datatype FunctionKind = Procedure | Listener | Event | Initialize

  /** Registered enum types: type name to (member name to integer value). */
  type EnumTable = map<string, map<string, int>>

  datatype Scalar = BoolS(b: bool) | NumS(n: int) | StrS(s: string)

  /** A dotted path such as `self.a` or `root.sub.b`. */
  datatype PathExpression = PathExpression(elements: seq<string>)

  /** One listener argument: the parameter name inside the body and the path it listens to. */
  datatype PathArgument = PathArgument(name: string, expression: PathExpression)

  /** The tagged value algebra (`AMBValue` and its subclasses). */
  datatype Value =
    | ScalarV(scalar: Scalar)
    | ArrayV(elements: seq<Value>)
    | DictV(entries: seq<Entry>)
    | InitFunc(script: string)
    | EventFunc(args: seq<string>, script: string)
    | ListenerFunc(pathArgs: seq<PathArgument>, script: string)
    | ProcFunc(args: seq<string>, script: string)
    | FrameV(frame: Frame)

  datatype Entry = Entry(key: string, val: Value)

  /** A member of a frame. `declType` is the declared type of a property or the declared
      return type of a `Func`/`Listner`; it is absent for `Event`, `Init` and nested frames.
      The compiler reads only `ident` and `value`. */
  datatype Member = Member(ident: string, declType: Option<AmbType>, value: Value)

  datatype Frame = Frame(className: string, instanceName: string, members: seq<Member>)

  /** The runtime type tag of a literal (`CNValueType` for the kinds the parser produces). */
  datatype LiteralKind = BoolKind | NumberKind | StringKind | ArrayKind | DictionaryKind

  /** `AMBValue.ValueType`. */
  datatype ValueType =
    | ScalarT(kind: LiteralKind)
    | FrameT(className: string)
    | ArrayT
    | DictionaryT
    | InitT
    | EventT
    | ListenerT
    | ProcedureT

  // ---------------------------------------------------------------------------
  // Keyword tables

  const InitTypeName := "Init"
  const EventTypeName := "Event"
  const ListenerTypeName := "Listner"
  const ProcedureTypeName := "Func"

  function KeywordOf(k: FunctionKind): string {
    match k
    case Initialize => InitTypeName
    case Event => EventTypeName
    case Listener => ListenerTypeName
    case Procedure => ProcedureTypeName
  }

  /** `AMBFunction.decodeType`: the function keyword named by an identifier, if any. */
  function DecodeFunctionKind(s: string): (r: Option<FunctionKind>)
    ensures r.Some? <==> s in {"Init", "Event", "Listner", "Func"}
  {
    if s == InitTypeName then Some(Initialize)
    else if s == EventTypeName then Some(Event)
    else if s == ListenerTypeName then Some(Listener)
    else if s == ProcedureTypeName then Some(Procedure)
    else None
  }

  /** Decoding a keyword gives back the kind it was printed from, and only keywords decode. */
  lemma FunctionKeywordRoundTrip(k: FunctionKind, s: string)
    ensures DecodeFunctionKind(KeywordOf(k)) == Some(k)
    ensures DecodeFunctionKind(s) == Some(k) ==> s == KeywordOf(k)
  {
  }

  /** The spelling of a built-in type name. */
  function TypeKeyword(t: AmbType): string {
    match t
    case BooleanType => "Bool"
    case IntType => "Int"
    case FloatType => "Float"
    case StringType => "String"
    case UrlType => "URL"
    case ArrayType => "Array"
    case DictionaryType => "Dictionary"
    case EnumType(n) => n
  }

  predicate IsBuiltinTypeName(s: string) {
    s in {"Bool", "Int", "Float", "String", "URL", "Array", "Dictionary"}
  }

  /** `AMBType.decode`: a built-in type keyword first, then a registered enum type name. */
  function DecodeType(s: string, enums: EnumTable): (r: Option<AmbType>)
    ensures r.Some? <==> IsBuiltinTypeName(s) || s in enums
    ensures r.Some? && r.value.EnumType? ==> !IsBuiltinTypeName(s) && s in enums
  {
    if s == "Bool" then Some(BooleanType)
    else if s == "Int" then Some(IntType)
    else if s == "Float" then Some(FloatType)
    else if s == "String" then Some(StringType)
    else if s == "URL" then Some(UrlType)
    else if s == "Array" then Some(ArrayType)
    else if s == "Dictionary" then Some(DictionaryType)
    else if s in enums then Some(EnumType(s))
    else None
  }

  /** Every type decodes back from its own spelling (built-ins, and registered enums
      whose names do not shadow a built-in). */
  lemma TypeKeywordRoundTrip(t: AmbType, enums: EnumTable)
    requires t.EnumType? ==> t.enumName in enums && !IsBuiltinTypeName(t.enumName)
    ensures DecodeType(TypeKeyword(t), enums) == Some(t)
  {
  }

  // ---------------------------------------------------------------------------
  // Value types

  function LiteralKindOf(v: Value): Option<LiteralKind> {
    match v
    case ScalarV(BoolS(_)) => Some(BoolKind)
    case ScalarV(NumS(_)) => Some(NumberKind)
    case ScalarV(StrS(_)) => Some(StringKind)
    case ArrayV(_) => Some(ArrayKind)
    case DictV(_) => Some(DictionaryKind)
    case _ => None
  }

  /** The type tag each value carries; a frame's is `.frame(className)`. */
  function TypeOf(v: Value): (t: ValueType)
    ensures v.FrameV? <==> t.FrameT?
    ensures v.FrameV? ==> t.className == v.frame.className
    ensures v.ScalarV? <==> t.ScalarT?
    ensures IsFunction(v) <==> t in {InitT, EventT, ListenerT, ProcedureT}
  {
    match v
    case ScalarV(s) => ScalarT(LiteralKindOf(v).value)
    case ArrayV(_) => ArrayT
    case DictV(_) => DictionaryT
    case InitFunc(_) => InitT
    case EventFunc(_, _) => EventT
    case ListenerFunc(_, _) => ListenerT
    case ProcFunc(_, _) => ProcedureT
    case FrameV(f) => FrameT(f.className)
  }

  predicate IsFunction(v: Value) {
    v.InitFunc? || v.EventFunc? || v.ListenerFunc? || v.ProcFunc?
  }

  /** `checkResultType`: the message logged when a literal does not match the declared
      type. URL and enum declarations always log. */
  function CheckResultType(expected: AmbType, actual: LiteralKind): (msg: Option<string>)
    ensures msg.None? <==>
      || (expected == BooleanType && actual == BoolKind)
      || (expected in {IntType, FloatType} && actual == NumberKind)
      || (expected == StringType && actual == StringKind)
      || (expected == ArrayType && actual == ArrayKind)
      || (expected == DictionaryType && actual == DictionaryKind)
    ensures expected == UrlType || expected.EnumType? ==> msg == Some("Can not happen")
  {
    match expected
    case BooleanType => if actual == BoolKind then None else Some("Boolean type is expected")
    case IntType => if actual == NumberKind then None else Some("Number type is expected")
    case FloatType => if actual == NumberKind then None else Some("Number type is expected")
    case StringType => if actual == StringKind then None else Some("String type is expected")
    case UrlType => Some("Can not happen")
    case EnumType(_) => Some("Can not happen")
    case ArrayType => if actual == ArrayKind then None else Some("Array type is expected")
    case DictionaryType => if actual == DictionaryKind then None else Some("Dictionary type is required")
  }

  // ---------------------------------------------------------------------------
  // Dictionaries and frames

  function Lookup(entries: seq<Entry>, key: string): Option<Value> {
    if |entries| == 0 then None
    else if entries[0].key == key then Some(entries[0].val)
    else Lookup(entries[1..], key)
  }

  predicate UniqueKeys(entries: seq<Entry>) {
    forall i, j :: 0 <= i < j < |entries| ==> entries[i].key != entries[j].key
  }

  /** `AMBDictionaryValue.set` (and `elements[key] = val` in the parser): a repeated key
      overwrites the earlier value in place; a new key goes at the end. */
  function DictSet(entries: seq<Entry>, key: string, val: Value): (r: seq<Entry>)
    ensures Lookup(r, key) == Some(val)
    ensures forall k :: k != key ==> Lookup(r, k) == Lookup(entries, k)
    ensures Lookup(entries, key).Some? ==> |r| == |entries|
    ensures Lookup(entries, key).Some? ==> forall j :: 0 <= j < |r| ==> r[j].key == entries[j].key
    ensures Lookup(entries, key).None? ==> r == entries + [Entry(key, val)]
    decreases |entries|
  {
    if |entries| == 0 then [Entry(key, val)]
    else if entries[0].key == key then [Entry(key, val)] + entries[1..]
    else
      var rest := DictSet(entries[1..], key, val);
      assert forall k :: k != entries[0].key ==> Lookup([entries[0]] + rest, k) == Lookup(rest, k);
      [entries[0]] + rest
  }

  /** Every key of `DictSet(entries, key, val)` is `key` or a key of `entries`. */
  lemma {:induction false} DictSetKeys(entries: seq<Entry>, key: string, val: Value, j: int)
    requires 0 <= j < |DictSet(entries, key, val)|
    ensures DictSet(entries, key, val)[j].key == key
         || exists i :: 0 <= i < |entries| && entries[i].key == DictSet(entries, key, val)[j].key
    decreases |entries|
  {
    var r := DictSet(entries, key, val);
    if |entries| > 0 && entries[0].key != key && j > 0 {
      DictSetKeys(entries[1..], key, val, j - 1);
      var k := r[j].key;
      if k != key {
        var i :| 0 <= i < |entries[1..]| && entries[1..][i].key == k;
        assert entries[i + 1].key == k;
      }
    } else if |entries| > 0 && entries[0].key == key && j > 0 {
      assert r[j] == entries[j];
    }
  }

  /** Setting a key keeps the keys distinct. */
  lemma {:induction false} DictSetKeepsUniqueKeys(entries: seq<Entry>, key: string, val: Value)
    requires UniqueKeys(entries)
    ensures UniqueKeys(DictSet(entries, key, val))
    decreases |entries|
  {
    var r := DictSet(entries, key, val);
    if |entries| > 0 && entries[0].key != key {
      var rest := DictSet(entries[1..], key, val);
      DictSetKeepsUniqueKeys(entries[1..], key, val);
      assert r == [entries[0]] + rest;
      forall j | 0 <= j < |rest|
        ensures rest[j].key != entries[0].key
      {
        DictSetKeys(entries[1..], key, val, j);
      }
      forall i, j | 0 <= i < j < |r|
        ensures r[i].key != r[j].key
      {
        if i > 0 {
          assert r[i] == rest[i - 1] && r[j] == rest[j - 1];
        } else {
          assert r[j] == rest[j - 1];
        }
      }
    } else if |entries| > 0 {
      forall i, j | 0 <= i < j < |r|
        ensures r[i].key != r[j].key
      {
        assert r[j] == entries[j];
        if i > 0 {
          assert r[i] == entries[i];
        }
      }
    }
  }

  lemma {:induction false} LookupFound(entries: seq<Entry>, j: int)
    requires 0 <= j < |entries|
    ensures Lookup(entries, entries[j].key).Some?
    decreases j
  {
    if j > 0 && entries[0].key != entries[j].key {
      LookupFound(entries[1..], j - 1);
    }
  }

  lemma {:induction false} LookupAbsent(entries: seq<Entry>, key: string)
    requires forall j :: 0 <= j < |entries| ==> entries[j].key != key
    ensures Lookup(entries, key).None?
    decreases |entries|
  {
    if |entries| > 0 {
      LookupAbsent(entries[1..], key);
    }
  }

  /** A freshly declared frame (`AMBFrame.init`). */
  function EmptyFrame(className: string, instanceName: string): (f: Frame)
    ensures TypeOf(FrameV(f)) == FrameT(className)
    ensures f.instanceName == instanceName && |f.members| == 0
  {
    Frame(className, instanceName, [])
  }

  /** `AMBFrame.append`. */
  function AppendMember(f: Frame, m: Member): (r: Frame)
    ensures |r.members| == |f.members| + 1 && r.members[|f.members|] == m
    ensures r.members[..|f.members|] == f.members
    ensures r.className == f.className && r.instanceName == f.instanceName
  {
    f.(members := f.members + [m])
  }

  function Idents(members: seq<Member>): (ids: seq<string>)
    ensures |ids| == |members|
    ensures forall i :: 0 <= i < |members| ==> ids[i] == members[i].ident
  {
    if |members| == 0 then [] else [members[0].ident] + Idents(members[1..])
  }

  // ---------------------------------------------------------------------------
  // Script synthesis

  function ArgumentNames(args: seq<PathArgument>): (names: seq<string>)
    ensures |names| == |args|
    ensures forall i :: 0 <= i < |args| ==> names[i] == args[i].name
  {
    if |args| == 0 then [] else [args[0].name] + ArgumentNames(args[1..])
  }

  /** The names a function's author declared, in order (none for `Init`). */
  function DeclaredNames(v: Value): seq<string>
    requires IsFunction(v)
  {
    match v
    case InitFunc(_) => []
    case EventFunc(args, _) => args
    case ListenerFunc(pargs, _) => ArgumentNames(pargs)
    case ProcFunc(args, _) => args
  }

  /** `makeScriptArgument`, per function class: the implicit `self` comes first for Init,
      Event and Listener functions, followed by the declared names; a procedure gets the
      declared names only. The text reads back as exactly those names. */
  function ScriptArgument(v: Value): (r: string)
    requires IsFunction(v)
    ensures WellFormedFunction(v) && !v.ProcFunc? ==> DecodeParameters(r) == ["self"] + DeclaredNames(v)
    ensures WellFormedFunction(v) && v.ProcFunc? ==> DecodeParameters(r) == v.args
  {
    var names := if v.ProcFunc? then v.args else ["self"] + DeclaredNames(v);
    if WellFormedFunction(v) then
      assert WellFormedNames(names);
      ParametersRoundTrip(names);
      Join(names, ", ")
    else Join(names, ", ")
  }

  /** `makeFunctionHeader`, per function class: the keyword of the function's kind, and
      the opening of the script body at the end. */
  function FunctionHeader(v: Value): (r: string)
    requires IsFunction(v)
    ensures |KeywordOf(KindOf(v))| <= |r| && DecodeFunctionKind(r[..|KeywordOf(KindOf(v))|]) == Some(KindOf(v))
    ensures |r| >= 3 && r[|r| - 3..] == " %{"
  {
    FunctionKeywordRoundTrip(KindOf(v), "");
    FunctionHeaderText(v)
  }

  /** The kind of a function value. */
  function KindOf(v: Value): FunctionKind
    requires IsFunction(v)
  {
    match v
    case InitFunc(_) => Initialize
    case EventFunc(_, _) => Event
    case ListenerFunc(_, _) => Listener
    case ProcFunc(_, _) => Procedure
  }

  function FunctionHeaderText(v: Value): string
    requires IsFunction(v)
  {
    match v
    case InitFunc(_) => InitTypeName + " %{"
    case EventFunc(args, _) => EventTypeName + "(" + Join(args, ", ") + ") %{"
    case ListenerFunc(pargs, _) => ListenerTypeName + "(" + Join(ArgumentNames(pargs), ", ") + ") %{"
    case ProcFunc(args, _) => ProcedureTypeName + "(" + Join(args, ", ") + ") %{"
  }

  /** `toScript`: an anonymous JavaScript function around the body text, which reads back
      as exactly its parameter text and its body. */
  function ToScript(v: Value): (r: string)
    requires IsFunction(v)
    ensures WellFormedFunction(v) ==> DecodeFunctionScript(r) == Some((ScriptArgument(v), v.script))
  {
    WrappedScriptDecodes(v);
    "function(" + ScriptArgument(v) + ") {\n" + v.script + "\n}\n"
  }

  lemma WrappedScriptDecodes(v: Value)
    requires IsFunction(v)
    ensures WellFormedFunction(v) ==>
      DecodeFunctionScript("function(" + ScriptArgument(v) + ") {\n" + v.script + "\n}\n") == Some((ScriptArgument(v), v.script))
  {
    if WellFormedFunction(v) {
      NoParenInParameters(v);
      DecodeWrapped(ScriptArgument(v), v.script);
    }
  }

  /** `AMBInitFunctionValue.objectName`: the property an Init function is stored under; it
      begins with the member name and ends with the `@body` mark. */
  function InitObjectName(ident: string): (r: string)
    ensures |r| == |ident| + 5 && r[..|ident|] == ident && r[|ident|..] == "@body"
  {
    ident + "@body"
  }

  /** `AMBPathExpression.toString`: the elements joined by dots, which splits back into the
      elements when none of them holds a dot; the empty path prints as "". */
  function PathToString(p: PathExpression): (r: string)
    ensures AllFree(p.elements, '.') && |p.elements| > 0 ==> Split(r, '.') == p.elements
    ensures |p.elements| == 0 ==> r == ""
  {
    DottedPathSplits(p.elements);
    Join(p.elements, ".")
  }

  lemma DottedPathSplits(elements: seq<string>)
    ensures AllFree(elements, '.') && |elements| > 0 ==> Split(Join(elements, "."), '.') == elements
  {
    if AllFree(elements, '.') && |elements| > 0 {
      SplitJoin(elements, '.');
    }
  }

  // ---------------------------------------------------------------------------
  // Independent decoders for the synthesized text

  function FirstIndex(s: string, c: char): (r: Option<nat>)
    ensures r.Some? ==> r.value < |s| && s[r.value] == c && c !in s[..r.value]
    ensures r.None? ==> c !in s
  {
    if |s| == 0 then None
    else if s[0] == c then Some(0)
    else
      match FirstIndex(s[1..], c)
      case None => None
      case Some(i) =>
        assert s[..i + 1] == [s[0]] + s[1..][..i];
        Some(i + 1)
  }

  /** Reads a parameter list written with `", "` between names back into the names. */
  function DecodeParameters(text: string): seq<string> {
    if text == "" then []
    else
      var pieces := Split(text, ',');
      [pieces[0]] + DropLeadingSpaces(pieces[1..])
  }

  function DropLeadingSpaces(pieces: seq<string>): (r: seq<string>)
    ensures |r| == |pieces|
  {
    if |pieces| == 0 then []
    else
      var p := pieces[0];
      [if |p| > 0 && p[0] == ' ' then p[1..] else p] + DropLeadingSpaces(pieces[1..])
  }

  /** Reads a script produced by `ToScript` back into its parameter text and body. */
  function DecodeFunctionScript(t: string): Option<(string, string)> {
    if |t| < 9 || t[..9] != "function(" then None
    else
      match FirstIndex(t[9..], ')')
      case None => None
      case Some(j) =>
        var bodyStart := 9 + j + 4;
        if bodyStart + 3 <= |t| && t[9 + j..bodyStart] == ") {\n" && t[|t| - 3..] == "\n}\n"
        then Some((t[9..9 + j], t[bodyStart..|t| - 3]))
        else None
  }

  predicate WellFormedNames(names: seq<string>) {
    forall i :: 0 <= i < |names| ==> |names[i]| > 0 && ',' !in names[i] && ')' !in names[i]
  }

  predicate WellFormedFunction(v: Value) {
    IsFunction(v) && WellFormedNames(DeclaredNames(v))
  }

  // ---------------------------------------------------------------------------
  // Properties of the synthesized text

  lemma {:induction false} JoinCommaSpace(xs: seq<string>)
    requires |xs| >= 1
    ensures Join(xs, ", ") == Join(Prefixed(xs), [','])
    decreases |xs|
  {
    if |xs| > 1 {
      var ys := xs[1..];
      JoinCommaSpace(ys);
      JoinSpacedHead(ys);
      var pre := Prefixed(xs);
      assert pre[0] == xs[0];
      assert pre[1..] == SpaceAll(ys);
      assert Join(pre, [',']) == xs[0] + [','] + Join(SpaceAll(ys), [',']);
      assert Join(xs, ", ") == xs[0] + ", " + Join(Prefixed(ys), [',']);
    }
  }

  /** The pieces of `Join(xs, ", ")` as seen by a split on the comma: every name after the
      first keeps the one space that followed its comma. */
  function Prefixed(xs: seq<string>): seq<string>
    requires |xs| >= 1
  {
    [xs[0]] + SpaceAll(xs[1..])
  }

  function SpaceAll(xs: seq<string>): (r: seq<string>)
    ensures |r| == |xs|
    ensures forall i :: 0 <= i < |xs| ==> r[i] == " " + xs[i]
  {
    if |xs| == 0 then [] else [" " + xs[0]] + SpaceAll(xs[1..])
  }

  lemma {:induction false} JoinSpacedHead(ys: seq<string>)
    requires |ys| >= 1
    ensures Join(SpaceAll(ys), [',']) == " " + Join(Prefixed(ys), [','])
  {
    var sp := SpaceAll(ys);
    var pre := Prefixed(ys);
    if |ys| == 1 {
      assert sp == [" " + ys[0]];
      assert pre == [ys[0]];
    } else {
      assert sp[0] == " " + ys[0];
      assert sp[1..] == SpaceAll(ys[1..]);
      assert pre[0] == ys[0];
      assert pre[1..] == SpaceAll(ys[1..]);
      var tail := Join(SpaceAll(ys[1..]), [',']);
      assert Join(sp, [',']) == (" " + ys[0]) + [','] + tail;
      assert Join(pre, [',']) == ys[0] + [','] + tail;
    }
  }

  lemma {:induction false} DropLeadingSpacesOfSpaced(xs: seq<string>)
    ensures DropLeadingSpaces(SpaceAll(xs)) == xs
    decreases |xs|
  {
    if |xs| > 0 {
      assert SpaceAll(xs)[1..] == SpaceAll(xs[1..]);
      DropLeadingSpacesOfSpaced(xs[1..]);
      assert (" " + xs[0])[1..] == xs[0];
    }
  }

  /** The parameter text written for the engine reads back as the parameter names. */
  lemma ParametersRoundTrip(names: seq<string>)
    requires WellFormedNames(names)
    ensures DecodeParameters(Join(names, ", ")) == names
  {
    if |names| > 0 {
      JoinCommaSpace(names);
      var pre := Prefixed(names);
      assert AllFree(pre, ',') by {
        forall i | 0 <= i < |pre| ensures ',' !in pre[i] {
          if i > 0 {
            assert pre[i] == " " + names[i];
          }
        }
      }
      SplitJoin(pre, ',');
      assert |Join(names, ", ")| > 0 by {
        JoinLength(names, ", ");
      }
      DropLeadingSpacesOfSpaced(names[1..]);
    }
  }

  lemma {:induction false} JoinLength(xs: seq<string>, sep: string)
    requires |xs| >= 1 && |xs[0]| > 0
    ensures |Join(xs, sep)| >= |xs[0]|
  {
  }

  lemma DecodeWrapped(a: string, body: string)
    requires ')' !in a
    ensures DecodeFunctionScript("function(" + a + ") {\n" + body + "\n}\n") == Some((a, body))
  {
    var rest := ") {\n" + body + "\n}\n";
    var t := "function(" + a + ") {\n" + body + "\n}\n";
    assert t == "function(" + (a + rest);
    assert t[..9] == "function(";
    assert t[9..] == a + rest;
    FirstIndexAfter(a, ") {\n", rest);
    var j := |a|;
    var bodyStart := 9 + j + 4;
    assert t[9 + j..bodyStart] == ") {\n" by {
      assert t[9 + j..] == rest;
    }
    assert t[|t| - 3..] == "\n}\n";
    assert t[9..9 + j] == a;
    assert t[bodyStart..|t| - 3] == body by {
      assert t == ("function(" + a + ") {\n") + body + "\n}\n";
    }
  }

  lemma FirstIndexAfter(a: string, p: string, rest: string)
    requires ')' !in a && |p| > 0 && p[0] == ')'
    requires |p| <= |rest| && rest[..|p|] == p
    ensures FirstIndex(a + rest, ')') == Some(|a|)
  {
    var s := a + rest;
    assert s[|a|] == ')';
    FirstIndexIsFirst(s, |a|);
  }

  lemma {:induction false} FirstIndexIsFirst(s: string, i: nat)
    requires i < |s| && s[i] == ')' && ')' !in s[..i]
    ensures FirstIndex(s, ')') == Some(i)
    decreases i
  {
    if i > 0 {
      assert s[0] == s[..i][0];
      assert s[1..][..i - 1] == s[..i][1..];
      FirstIndexIsFirst(s[1..], i - 1);
    }
  }

  lemma NoParenInParameters(v: Value)
    requires WellFormedFunction(v)
    ensures ')' !in ScriptArgument(v)
  {
    var names := if v.ProcFunc? then v.args else ["self"] + DeclaredNames(v);
    assert ScriptArgument(v) == Join(names, ", ");
    JoinAvoids(names, ", ", ')');
  }

  lemma {:induction false} JoinAvoids(xs: seq<string>, sep: string, c: char)
    requires c !in sep
    requires forall i :: 0 <= i < |xs| ==> c !in xs[i]
    ensures c !in Join(xs, sep)
    decreases |xs|
  {
    if |xs| > 1 {
      JoinAvoids(xs[1..], sep, c);
    }
  }

  /** The header names the declared parameters only. An Init header is exactly `Init %{`;
      a procedure's parameter text is the list in its header; for Event and Listener
      functions it is that same list behind the implicit `self`. */
  lemma HeaderAndScriptArgument(v: Value)
    requires IsFunction(v)
    ensures v.InitFunc? ==> FunctionHeader(v) == "Init %{" && ScriptArgument(v) == "self"
    ensures !v.InitFunc? ==>
      FunctionHeader(v) == KeywordOf(KindOf(v)) + "(" + Join(DeclaredNames(v), ", ") + ") %{"
    ensures v.ProcFunc? ==> FunctionHeader(v) == "Func(" + ScriptArgument(v) + ") %{"
    ensures (v.EventFunc? || v.ListenerFunc?) && |DeclaredNames(v)| == 0 ==> ScriptArgument(v) == "self"
    ensures (v.EventFunc? || v.ListenerFunc?) && |DeclaredNames(v)| > 0 ==>
      ScriptArgument(v) == "self, " + Join(DeclaredNames(v), ", ")
  {
    HeaderSpelled(v);
    ScriptArgumentSpelled(v);
  }

  lemma HeaderSpelled(v: Value)
    requires IsFunction(v)
    ensures v.InitFunc? ==> FunctionHeader(v) == "Init %{"
    ensures !v.InitFunc? ==>
      FunctionHeader(v) == KeywordOf(KindOf(v)) + "(" + Join(DeclaredNames(v), ", ") + ") %{"
  {
  }

  lemma ScriptArgumentSpelled(v: Value)
    requires IsFunction(v)
    ensures v.InitFunc? ==> ScriptArgument(v) == "self"
    ensures v.ProcFunc? ==> ScriptArgument(v) == Join(v.args, ", ")
    ensures (v.EventFunc? || v.ListenerFunc?) && |DeclaredNames(v)| == 0 ==> ScriptArgument(v) == "self"
    ensures (v.EventFunc? || v.ListenerFunc?) && |DeclaredNames(v)| > 0 ==>
      ScriptArgument(v) == "self, " + Join(DeclaredNames(v), ", ")
  {
    if v.EventFunc? || v.ListenerFunc? {
      var names := DeclaredNames(v);
      if |names| > 0 {
        assert (["self"] + names)[1..] == names;
      }
    }
  }

  /** An Init function's storage name reads back to the member name, so two Init members
      never share a slot. */
  lemma InitObjectNameInjective(a: string, b: string)
    ensures InitObjectName(a) == InitObjectName(b) ==> a == b
    ensures InitObjectName(a)[..|a|] == a
  {
    if InitObjectName(a) == InitObjectName(b) {
      assert |a| == |b|;
      assert InitObjectName(a)[..|a|] == a;
      assert InitObjectName(b)[..|b|] == b;
    }
  }
}

=== FILE: parser.dfy ===
/** The recursive-descent parser (`AMBParser`): a token sequence with a cursor becomes a
    frame tree or the first error met. The stream primitives consume a token only when it
    has the expected kind. */
module Parser {
  import opened Wrappers
  import opened Strings
  import opened Tokens
  import opened Frames

  /** What the parser is handed besides the tokens: the enum types in scope, and the text a
      token describes itself by (`CNToken.description`, which is not part of this model). */
  datatype Context = Context(enums: EnumTable, describe: Token -> string)

  /** A parse step: the value and the cursor after it, or the error and where it arose. */
  datatype PResult<T> = POk(value: T, next: nat) | PErr(message: string, at: nat)

  /** `AMBParser.ParseResult`. */
  datatype ParseResult = Parsed(frame: Frame) | ParseFailed(message: string)

  // ---------------------------------------------------------------------------
  // Stream primitives (`CNTokenStream`)

  function GetIdentifier(toks: seq<Token>, pos: nat): Option<string> {
    if pos < |toks| && toks[pos].kind.Ident? then Some(toks[pos].kind.name) else None
  }

  predicate IsSymbol(toks: seq<Token>, pos: nat, c: char) {
    pos < |toks| && toks[pos].kind == Sym(c)
  }

  function GetText(toks: seq<Token>, pos: nat): Option<string> {
    if pos < |toks| && toks[pos].kind.TextTok? then Some(toks[pos].kind.text) else None
  }

  function SymbolRequired(c: char): string {
    "Symbol \"" + [c] + "\" is required but it is not given"
  }

  function DeclarationRequired(decl: string): string {
    decl + " is required but it is not given"
  }

  // ---------------------------------------------------------------------------
  // Entry point

  /** `parse`: fold string tokens, then parse one frame `ident ":" ClassName "{" ... "}"`.
      The first error aborts the whole parse; tokens after the frame are not examined. The
      error text names the token at the cursor and its line. */
  function Parse(tokens: seq<Token>, ctx: Context): (r: ParseResult)
    ensures r.Parsed? <==> ParseFrame(Preprocess(tokens), ctx).POk?
    ensures r.Parsed? ==> r.frame == ParseFrame(Preprocess(tokens), ctx).value
    ensures r.ParseFailed? ==> var e := ParseFrame(Preprocess(tokens), ctx);
      r.message == ErrorText(ctx, Preprocess(tokens), e.message, e.at)
  {
    var toks := Preprocess(tokens);
    match ParseFrame(toks, ctx)
    case POk(f, _) => Parsed(f)
    case PErr(m, at) => ParseFailed(ErrorText(ctx, toks, m, at))
  }

  /** `makeNearInfo`: the token the cursor is on, if any. */
  function NearInfo(ctx: Context, toks: seq<Token>, at: nat): string {
    if at < |toks| then "near token " + ctx.describe(toks[at]) + " " else ""
  }

  /** `makeLineInfo`: the line of the token the cursor is on, if any. */
  function LineInfo(toks: seq<Token>, at: nat): string {
    if at < |toks| then " at line " + NatToString(toks[at].line) + " " else ""
  }

  /** `makeParseError`: the message, then where the cursor stands. */
  function ErrorText(ctx: Context, toks: seq<Token>, m: string, at: nat): string {
    m + NearInfo(ctx, toks, at) + LineInfo(toks, at)
  }

  /** The error text starts with the message; on a token it goes on with that token's
      description and ends with the decimal digits of its line, which read back as the
      line; past the last token it is the message alone. */
  lemma ErrorTextReadsBack(ctx: Context, toks: seq<Token>, m: string, at: nat)
    ensures m <= ErrorText(ctx, toks, m, at)
    ensures at >= |toks| ==> ErrorText(ctx, toks, m, at) == m
    ensures at < |toks| ==>
      OnToken(ErrorText(ctx, toks, m, at), m, ctx.describe(toks[at]), NatToString(toks[at].line))
      && IsDecimal(NatToString(toks[at].line)) && DecimalValue(NatToString(toks[at].line)) == toks[at].line
  {
    if at < |toks| {
      var d := ctx.describe(toks[at]);
      var s := NatToString(toks[at].line);
      assert ErrorText(ctx, toks, m, at) == m + ("near token " + d + " ") + (" at line " + s + " ");
      Pieces(m, d, s);
      NatToStringRoundTrip(toks[at].line);
    }
  }

  /** `r` is `m`, then `near token` and `d`, and ends with the digits `s` and a space. */
  predicate OnToken(r: string, m: string, d: string, s: string) {
    |r| == |m| + 11 + |d| + 10 + |s| + 1
    && m <= r && r[|m|..|m| + 11] == "near token " && r[|m| + 11..|m| + 11 + |d|] == d
    && r[|r| - 1 - |s|..|r| - 1] == s
  }

  lemma Pieces(m: string, d: string, s: string)
    ensures OnToken(m + ("near token " + d + " ") + (" at line " + s + " "), m, d, s)
  {
    var r := m + ("near token " + d + " ") + (" at line " + s + " ");
    assert r[|m|..] == ("near token " + d + " ") + (" at line " + s + " ");
    assert r[|r| - 1 - |s|..] == s + " ";
  }

  function ParseFrame(toks: seq<Token>, ctx: Context): (r: PResult<Frame>)
    ensures r.POk? ==> 3 < r.next <= |toks|
    ensures r.POk? ==> (GetIdentifier(toks, 0) == Some(r.value.instanceName)
                    && GetIdentifier(toks, 2) == Some(r.value.className))
  {
    if GetIdentifier(toks, 0).None? then PErr(DeclarationRequired("Identifier"), 0)
    else if !IsSymbol(toks, 1, ':') then PErr(SymbolRequired(':'), 1)
    else if GetIdentifier(toks, 2).None? then PErr(DeclarationRequired("Class name"), 2)
    else ParseFrameBody(toks, ctx, GetIdentifier(toks, 0).value, GetIdentifier(toks, 2).value, 3)
  }

  // ---------------------------------------------------------------------------
  // Frames and members

  /** `parseFrame(identifier:className:stream:)`: `"{" member* "}"`, members in source order. */
  function ParseFrameBody(toks: seq<Token>, ctx: Context, ident: string, cls: string, pos: nat)
    : (r: PResult<Frame>)
    requires pos <= |toks|
    ensures r.POk? ==> pos < r.next <= |toks|
    ensures r.POk? ==> r.value.className == cls && r.value.instanceName == ident
    ensures r.POk? ==> IsSymbol(toks, pos, '{') && IsSymbol(toks, r.next - 1, '}')
    decreases |toks| - pos, 3
  {
    if !IsSymbol(toks, pos, '{') then PErr(SymbolRequired('{'), pos)
    else
      match ParseMembers(toks, ctx, pos + 1, [])
      case PErr(m, at) => PErr(m, at)
      case POk(members, n) => POk(Frame(cls, ident, members), n)
  }

  /** The member loop: stop at `"}"`, otherwise parse one member and append it. */
  function ParseMembers(toks: seq<Token>, ctx: Context, pos: nat, acc: seq<Member>)
    : (r: PResult<seq<Member>>)
    requires pos <= |toks|
    ensures r.POk? ==> pos < r.next <= |toks| && IsSymbol(toks, r.next - 1, '}')
    ensures r.POk? ==> |r.value| >= |acc| && r.value[..|acc|] == acc
    decreases |toks| - pos, 2
  {
    if IsSymbol(toks, pos, '}') then POk(acc, pos + 1)
    else
      match ParseMember(toks, ctx, pos)
      case PErr(m, at) => PErr(m, at)
      case POk(memb, n) =>
        var r := ParseMembers(toks, ctx, n, acc + [memb]);
        assert r.POk? ==> r.value[..|acc|] == (acc + [memb])[..|acc|];
        r
  }

  /** `parseMember`: `ident ":" typestr ...`, dispatched on `typestr` in a fixed order:
      a value type first, then a function keyword, and otherwise a nested frame of that class. */
  function ParseMember(toks: seq<Token>, ctx: Context, pos: nat): (r: PResult<Member>)
    requires pos <= |toks|
    ensures r.POk? ==> pos + 3 < r.next <= |toks|
    ensures r.POk? ==> GetIdentifier(toks, pos) == Some(r.value.ident)
    decreases |toks| - pos, 1
  {
    if GetIdentifier(toks, pos).None? then PErr(DeclarationRequired("Identifier"), pos)
    else if !IsSymbol(toks, pos + 1, ':') then PErr(SymbolRequired(':'), pos + 1)
    else if GetIdentifier(toks, pos + 2).None? then PErr(DeclarationRequired("Type"), pos + 2)
    else
      var ident := GetIdentifier(toks, pos).value;
      var typestr := GetIdentifier(toks, pos + 2).value;
      var p := pos + 3;
      match DecodeType(typestr, ctx.enums)
      case Some(t) => ParseProperty(toks, ctx, ident, t, p)
      case None =>
        match DecodeFunctionKind(typestr)
        case Some(Procedure) => PErr(DeclarationRequired("No return type for Function"), p)
        case Some(Listener) => PErr(DeclarationRequired("No return type for Listner"), p)
        case Some(Event) => AsMember(ParseEventFunc(toks, p), ident, None)
        case Some(Initialize) => AsMember(ParseInitFunc(toks, p), ident, None)
        case None =>
          match ParseFrameBody(toks, ctx, ident, typestr, p)
          case PErr(m, at) => PErr(m, at)
          case POk(f, n) => POk(Member(ident, None, FrameV(f)), n)
  }

  /** `parseProperty`: after a value type, either `Func`/`Listner` with that return type or a
      literal. A literal that does not match the declared type is not an error here. */
  function ParseProperty(toks: seq<Token>, ctx: Context, ident: string, t: AmbType, pos: nat)
    : (r: PResult<Member>)
    requires pos <= |toks|
    ensures r.POk? ==> pos < r.next <= |toks|
    ensures r.POk? ==> r.value.ident == ident && r.value.declType == Some(t)
    decreases |toks| - pos, 1
  {
    var code := if GetIdentifier(toks, pos).Some? then DecodeFunctionKind(GetIdentifier(toks, pos).value) else None;
    match code
    case Some(Procedure) => AsMember(ParseProceduralFunc(toks, pos + 1), ident, Some(t))
    case Some(Listener) => AsMember(ParseListenerFunc(toks, pos + 1), ident, Some(t))
    case Some(_) => PErr("Event/Init function does not have return type", pos + 1)
    case None => AsMember(ParseExpression(toks, ctx, t, pos), ident, Some(t))
  }

  /** Wraps a parsed value as the member `ident` (the `.property`/`.eventFunction`/... cases). */
  function AsMember(r: PResult<Value>, ident: string, declType: Option<AmbType>): PResult<Member> {
    match r
    case PErr(m, at) => PErr(m, at)
    case POk(v, n) => POk(Member(ident, declType, v), n)
  }

  // ---------------------------------------------------------------------------
  // Literals

  /** A value the literal grammar can produce. */
  predicate IsLiteral(v: Value) {
    LiteralKindOf(v).Some?
  }

  /** `parseExpressionProperty`: one literal, with the declared type passed down so that
      an identifier can name a member of an enum type. */
  function ParseExpression(toks: seq<Token>, ctx: Context, t: AmbType, pos: nat): (r: PResult<Value>)
    requires pos <= |toks|
    ensures r.POk? ==> pos < r.next <= |toks| && IsLiteral(r.value)
    decreases |toks| - pos, 0
  {
    if pos >= |toks| then PErr("Unexpected end of input stream", pos)
    else
      var p := pos + 1;
      match toks[pos].kind
      case Sym(c) =>
        if c == '[' then ParseArrayElems(toks, ctx, t, p, [])
        else if c == '{' then ParseDictElems(toks, ctx, t, p, [])
        else PErr("Unexpected symbol: " + [c], p)
      case Ident(n) =>
        if t.EnumType? then
          if t.enumName in ctx.enums && n in ctx.enums[t.enumName] then POk(ScalarV(NumS(ctx.enums[t.enumName][n])), p)
          else PErr(DeclarationRequired("Unknown member of Enum \"" + t.enumName + "\" value"), p)
        else PErr("Unexpected identifier: \"" + n + "\"", p)
      case BoolTok(b) => POk(ScalarV(BoolS(b)), p)
      case IntTok(i) => POk(ScalarV(NumS(i)), p)
      case StrTok(s) => POk(ScalarV(StrS(s)), p)
      case TextTok(s) => POk(ScalarV(StrS(s)), p)
      case Reserved(_) => PErr(UnexpectedToken(ctx, toks[pos]), p)
      case Comment(_) => PErr(UnexpectedToken(ctx, toks[pos]), p)
  }

  /** The message for a token no literal starts with, naming the token. */
  function UnexpectedToken(ctx: Context, tok: Token): string {
    "Unexpected token: " + ctx.describe(tok)
  }

  /** `parseArrayExpressionProperty` after `"["`: elements separated by `","` up to `"]"`. */
  function ParseArrayElems(toks: seq<Token>, ctx: Context, t: AmbType, pos: nat, elems: seq<Value>)
    : (r: PResult<Value>)
    requires pos <= |toks|
    ensures r.POk? ==> pos < r.next <= |toks| && r.value.ArrayV?
    ensures r.POk? ==> |r.value.elements| >= |elems| && r.value.elements[..|elems|] == elems
    ensures r.POk? ==> forall i :: |elems| <= i < |r.value.elements| ==> IsLiteral(r.value.elements[i])
    decreases |toks| - pos, 1
  {
    if IsSymbol(toks, pos, ']') then POk(ArrayV(elems), pos + 1)
    else if |elems| > 0 && !IsSymbol(toks, pos, ',') then
      PErr("\",\" is required between array elements", pos)
    else
      var q := if |elems| > 0 then pos + 1 else pos;
      match ParseExpression(toks, ctx, t, q)
      case PErr(m, at) => PErr(m, at)
      case POk(v, n) =>
        var r := ParseArrayElems(toks, ctx, t, n, elems + [v]);
        assert r.POk? ==> r.value.elements[..|elems| + 1] == elems + [v];
        assert r.POk? ==> r.value.elements[..|elems|] == (elems + [v])[..|elems|];
        r
  }

  /** `parseDictionaryExpressionProperty` after `"{"`: `key ":" value` pairs separated by
      `","` up to `"}"`; a repeated key overwrites the earlier value. */
  function ParseDictElems(toks: seq<Token>, ctx: Context, t: AmbType, pos: nat, entries: seq<Entry>)
    : (r: PResult<Value>)
    requires pos <= |toks|
    ensures r.POk? ==> pos < r.next <= |toks| && r.value.DictV?
    ensures r.POk? ==> forall k :: Lookup(entries, k).Some? ==> Lookup(r.value.entries, k).Some?
    ensures r.POk? && UniqueKeys(entries) ==> UniqueKeys(r.value.entries)
    decreases |toks| - pos, 1
  {
    if IsSymbol(toks, pos, '}') then POk(DictV(entries), pos + 1)
    else if |entries| > 0 && !IsSymbol(toks, pos, ',') then
      PErr("\",\" is required between dictionary elements", pos)
    else
      var q := if |entries| > 0 then pos + 1 else pos;
      if GetIdentifier(toks, q).None? then PErr("The key identifier of dictionary is required", q)
      else if !IsSymbol(toks, q + 1, ':') then PErr("\":\" is required between dictionary key and value", q + 1)
      else
        match ParseExpression(toks, ctx, t, q + 2)
        case PErr(m, at) => PErr(m, at)
        case POk(v, n) =>
          if UniqueKeys(entries) then
            DictSetKeepsUniqueKeys(entries, GetIdentifier(toks, q).value, v);
            ParseDictElems(toks, ctx, t, n, DictSet(entries, GetIdentifier(toks, q).value, v))
          else ParseDictElems(toks, ctx, t, n, DictSet(entries, GetIdentifier(toks, q).value, v))
  }

  // ---------------------------------------------------------------------------
  // Functions

  /** An argument list after `"("`: names separated by `","`, an optional trailing `","`,
      closed by `")"`; `()` is the empty list. */
  function ParseArgNames(toks: seq<Token>, pos: nat, acc: seq<string>): (r: PResult<seq<string>>)
    requires pos <= |toks|
    ensures r.POk? ==> pos < r.next <= |toks| && IsSymbol(toks, r.next - 1, ')')
    ensures r.POk? ==> |r.value| >= |acc| && r.value[..|acc|] == acc
    decreases |toks| - pos
  {
    if IsSymbol(toks, pos, ')') then POk(acc, pos + 1)
    else if GetIdentifier(toks, pos).None? then PErr(DeclarationRequired("Argument name"), pos)
    else
      var a := GetIdentifier(toks, pos).value;
      if IsSymbol(toks, pos + 1, ')') then POk(acc + [a], pos + 2)
      else if !IsSymbol(toks, pos + 1, ',') then PErr(SymbolRequired(','), pos + 1)
      else
        var r := ParseArgNames(toks, pos + 2, acc + [a]);
        assert r.POk? ==> r.value[..|acc|] == (acc + [a])[..|acc|];
        r
  }

  /** A listener's argument list after `"("`: `name ":" path` items, same separators as
      `ParseArgNames`. */
  function ParsePathArgs(toks: seq<Token>, pos: nat, acc: seq<PathArgument>): (r: PResult<seq<PathArgument>>)
    requires pos <= |toks|
    ensures r.POk? ==> pos < r.next <= |toks| && IsSymbol(toks, r.next - 1, ')')
    ensures r.POk? ==> |r.value| >= |acc| && r.value[..|acc|] == acc
    ensures r.POk? ==> forall i :: |acc| <= i < |r.value| ==> |r.value[i].expression.elements| >= 1
    decreases |toks| - pos
  {
    if IsSymbol(toks, pos, ')') then POk(acc, pos + 1)
    else
      match ParsePathArgument(toks, pos)
      case PErr(m, at) => PErr(m, at)
      case POk(a, p) =>
        if IsSymbol(toks, p, ')') then POk(acc + [a], p + 1)
        else if !IsSymbol(toks, p, ',') then PErr(SymbolRequired(','), p)
        else
          var r := ParsePathArgs(toks, p + 1, acc + [a]);
          assert r.POk? ==> r.value[..|acc| + 1] == acc + [a];
          assert r.POk? ==> r.value[..|acc|] == (acc + [a])[..|acc|];
          r
  }

  /** `parsePathArgument`: `name ":" path`. */
  function ParsePathArgument(toks: seq<Token>, pos: nat): (r: PResult<PathArgument>)
    requires pos <= |toks|
    ensures r.POk? ==> pos + 2 < r.next <= |toks| && |r.value.expression.elements| >= 1
    ensures r.POk? ==> GetIdentifier(toks, pos) == Some(r.value.name)
  {
    if GetIdentifier(toks, pos).None? then PErr(DeclarationRequired("Listening argument name"), pos)
    else if !IsSymbol(toks, pos + 1, ':') then PErr(SymbolRequired(':'), pos + 1)
    else
      match ParsePathExpression(toks, pos + 2)
      case PErr(m, at) => PErr(m, at)
      case POk(e, n) => POk(PathArgument(GetIdentifier(toks, pos).value, e), n)
  }

  /** `parsePathExpression`: one or more identifiers separated by `"."`. No minimum length
      beyond the first identifier is enforced here. */
  function ParsePathExpression(toks: seq<Token>, pos: nat): (r: PResult<PathExpression>)
    requires pos <= |toks|
    ensures r.POk? ==> pos < r.next <= |toks| && |r.value.elements| >= 1
    ensures r.POk? ==> GetIdentifier(toks, pos) == Some(r.value.elements[0])
    ensures r.POk? ==> !IsSymbol(toks, r.next, '.')
  {
    if GetIdentifier(toks, pos).None? then PErr(DeclarationRequired("Path expression"), pos)
    else ParsePathRest(toks, pos + 1, [GetIdentifier(toks, pos).value])
  }

  function ParsePathRest(toks: seq<Token>, pos: nat, elems: seq<string>): (r: PResult<PathExpression>)
    requires pos <= |toks|
    ensures r.POk? ==> pos <= r.next <= |toks| && |r.value.elements| >= |elems|
    ensures r.POk? ==> r.value.elements[..|elems|] == elems
    ensures r.POk? ==> !IsSymbol(toks, r.next, '.')
    decreases |toks| - pos
  {
    if !IsSymbol(toks, pos, '.') then POk(PathExpression(elems), pos)
    else if GetIdentifier(toks, pos + 1).None? then PErr(DeclarationRequired("Path expression element"), pos + 1)
    else
      var r := ParsePathRest(toks, pos + 2, elems + [GetIdentifier(toks, pos + 1).value]);
      assert r.POk? ==> r.value.elements[..|elems|] == (elems + [GetIdentifier(toks, pos + 1).value])[..|elems|];
      r
  }

  /** `parseProceduralFunc`: `"(" args ")" body`. */
  function ParseProceduralFunc(toks: seq<Token>, pos: nat): (r: PResult<Value>)
    requires pos <= |toks|
    ensures r.POk? ==> pos + 2 < r.next <= |toks| && r.value.ProcFunc?
    ensures r.POk? ==> IsSymbol(toks, pos, '(') && GetText(toks, r.next - 1) == Some(r.value.script)
  {
    if !IsSymbol(toks, pos, '(') then PErr(SymbolRequired('('), pos)
    else
      match ParseArgNames(toks, pos + 1, [])
      case PErr(m, at) => PErr(m, at)
      case POk(args, n) =>
        if GetText(toks, n).None? then PErr(DeclarationRequired("Procedure function body"), n)
        else POk(ProcFunc(args, GetText(toks, n).value), n + 1)
  }

  /** `parseListnerFunc`: `"(" pathArgs ")" body`. */
  function ParseListenerFunc(toks: seq<Token>, pos: nat): (r: PResult<Value>)
    requires pos <= |toks|
    ensures r.POk? ==> pos + 2 < r.next <= |toks| && r.value.ListenerFunc?
    ensures r.POk? ==> IsSymbol(toks, pos, '(') && GetText(toks, r.next - 1) == Some(r.value.script)
  {
    if !IsSymbol(toks, pos, '(') then PErr(SymbolRequired('('), pos)
    else
      match ParsePathArgs(toks, pos + 1, [])
      case PErr(m, at) => PErr(m, at)
      case POk(args, n) =>
        if GetText(toks, n).None? then PErr(DeclarationRequired("Listner function body"), n)
        else POk(ListenerFunc(args, GetText(toks, n).value), n + 1)
  }

  /** `parseEventFunc`: `"(" args ")" body`. */
  function ParseEventFunc(toks: seq<Token>, pos: nat): (r: PResult<Value>)
    requires pos <= |toks|
    ensures r.POk? ==> pos + 2 < r.next <= |toks| && r.value.EventFunc?
    ensures r.POk? ==> IsSymbol(toks, pos, '(') && GetText(toks, r.next - 1) == Some(r.value.script)
  {
    if !IsSymbol(toks, pos, '(') then PErr(SymbolRequired('('), pos)
    else
      match ParseArgNames(toks, pos + 1, [])
      case PErr(m, at) => PErr(m, at)
      case POk(args, n) =>
        if GetText(toks, n).None? then PErr(DeclarationRequired("Event function body"), n)
        else POk(EventFunc(args, GetText(toks, n).value), n + 1)
  }

  /** `parseInitFunc`: a body only, no parenthesised list. */
  function ParseInitFunc(toks: seq<Token>, pos: nat): (r: PResult<Value>)
    requires pos <= |toks|
    ensures r.POk? <==> GetText(toks, pos).Some?
    ensures r.POk? ==> r.next == pos + 1 && r.value == InitFunc(GetText(toks, pos).value)
  {
    if GetText(toks, pos).None? then PErr(DeclarationRequired("Init function body"), pos)
    else POk(InitFunc(GetText(toks, pos).value), pos + 1)
  }
}

=== FILE: parser_facts.dfy ===
/** What the parser promises, one grammar decision at a time: member dispatch order,
    typed versus untyped functions, literal rules, argument lists, and how an error
    aborts the enclosing loops. */
module ParserFacts {
  import opened Wrappers
  import opened Tokens
  import opened Frames
  import opened Parser

  function Tk(k: TokenKind): Token {
    Token(k, 0)
  }

  // ---------------------------------------------------------------------------
  // Member dispatch

  /** The head `ident : typestr` of a member. */
  predicate MemberHead(toks: seq<Token>, pos: nat, ident: string, typestr: string) {
    GetIdentifier(toks, pos) == Some(ident) && IsSymbol(toks, pos + 1, ':')
    && GetIdentifier(toks, pos + 2) == Some(typestr)
  }

  /** A value type is tried first: `ident : Int ...` is a property (or a typed function). */
  lemma DispatchValueType(toks: seq<Token>, ctx: Context, pos: nat, ident: string, typestr: string)
    requires pos <= |toks| && MemberHead(toks, pos, ident, typestr)
    requires DecodeType(typestr, ctx.enums).Some?
    ensures ParseMember(toks, ctx, pos)
         == ParseProperty(toks, ctx, ident, DecodeType(typestr, ctx.enums).value, pos + 3)
  {
  }

  /** `Func` and `Listner` without a preceding type are errors. */
  lemma DispatchUntypedFunction(toks: seq<Token>, ctx: Context, pos: nat, ident: string, typestr: string)
    requires pos <= |toks| && MemberHead(toks, pos, ident, typestr)
    requires DecodeType(typestr, ctx.enums).None?
    ensures typestr == ProcedureTypeName ==>
      ParseMember(toks, ctx, pos) == PErr(DeclarationRequired("No return type for Function"), pos + 3)
    ensures typestr == ListenerTypeName ==>
      ParseMember(toks, ctx, pos) == PErr(DeclarationRequired("No return type for Listner"), pos + 3)
  {
  }

  /** `Event` is read with no type. */
  lemma DispatchEvent(toks: seq<Token>, ctx: Context, pos: nat, ident: string)
    requires pos <= |toks| && MemberHead(toks, pos, ident, EventTypeName)
    requires DecodeType(EventTypeName, ctx.enums).None?
    ensures ParseMember(toks, ctx, pos) == AsMember(ParseEventFunc(toks, pos + 3), ident, None)
  {
  }

  /** `Init` is read with no type. */
  lemma DispatchInit(toks: seq<Token>, ctx: Context, pos: nat, ident: string)
    requires pos <= |toks| && MemberHead(toks, pos, ident, InitTypeName)
    requires DecodeType(InitTypeName, ctx.enums).None?
    ensures ParseMember(toks, ctx, pos) == AsMember(ParseInitFunc(toks, pos + 3), ident, None)
  {
  }

  /** Neither a type nor a function keyword: a nested frame whose instance name is the
      member name and whose class name is `typestr`. */
  lemma DispatchFrame(toks: seq<Token>, ctx: Context, pos: nat, ident: string, typestr: string)
    requires pos <= |toks| && MemberHead(toks, pos, ident, typestr)
    requires DecodeType(typestr, ctx.enums).None? && DecodeFunctionKind(typestr).None?
    ensures ParseMember(toks, ctx, pos).POk? <==> ParseFrameBody(toks, ctx, ident, typestr, pos + 3).POk?
    ensures ParseFrameBody(toks, ctx, ident, typestr, pos + 3).POk? ==>
      var body := ParseFrameBody(toks, ctx, ident, typestr, pos + 3);
      ParseMember(toks, ctx, pos) == POk(Member(ident, None, FrameV(body.value)), body.next)
      && body.value.instanceName == ident && body.value.className == typestr
  {
  }

  /** After a value type, `Func` reads a procedural function with that return type. */
  lemma PropertyProcedure(toks: seq<Token>, ctx: Context, ident: string, t: AmbType, pos: nat)
    requires pos <= |toks| && GetIdentifier(toks, pos) == Some(ProcedureTypeName)
    ensures ParseProperty(toks, ctx, ident, t, pos) == AsMember(ParseProceduralFunc(toks, pos + 1), ident, Some(t))
  {
  }

  /** After a value type, `Listner` reads a listener function with that return type. */
  lemma PropertyListener(toks: seq<Token>, ctx: Context, ident: string, t: AmbType, pos: nat)
    requires pos <= |toks| && GetIdentifier(toks, pos) == Some(ListenerTypeName)
    ensures ParseProperty(toks, ctx, ident, t, pos) == AsMember(ParseListenerFunc(toks, pos + 1), ident, Some(t))
  {
  }

  /** `Event` and `Init` take no return type. */
  lemma PropertyEventInit(toks: seq<Token>, ctx: Context, ident: string, t: AmbType, pos: nat)
    requires pos <= |toks| && GetIdentifier(toks, pos) in {Some(EventTypeName), Some(InitTypeName)}
    ensures ParseProperty(toks, ctx, ident, t, pos) == PErr("Event/Init function does not have return type", pos + 1)
  {
  }

  /** Anything but a function keyword after a value type is a literal starting right there. */
  lemma PropertyLiteral(toks: seq<Token>, ctx: Context, ident: string, t: AmbType, pos: nat)
    requires pos <= |toks|
    requires GetIdentifier(toks, pos).None? || DecodeFunctionKind(GetIdentifier(toks, pos).value).None?
    ensures ParseProperty(toks, ctx, ident, t, pos) == AsMember(ParseExpression(toks, ctx, t, pos), ident, Some(t))
  {
  }

  /** A literal that does not fit the declared type is kept: `a : Bool 3` parses, and only
      the type check reports it. */
  lemma MismatchIsNotFatal(ctx: Context, a: string)
    ensures var toks := [Tk(Ident(a)), Tk(Sym(':')), Tk(Ident("Bool")), Tk(IntTok(3))];
      ParseMember(toks, ctx, 0) == POk(Member(a, Some(BooleanType), ScalarV(NumS(3))), 4)
    ensures CheckResultType(BooleanType, NumberKind) == Some("Boolean type is expected")
  {
    var toks := [Tk(Ident(a)), Tk(Sym(':')), Tk(Ident("Bool")), Tk(IntTok(3))];
    DispatchValueType(toks, ctx, 0, a, "Bool");
    PropertyLiteral(toks, ctx, a, BooleanType, 3);
  }

  // ---------------------------------------------------------------------------
  // Frames and loops

  /** `x : C { }` is a frame with no members. */
  lemma EmptyFrame(ctx: Context, x: string, c: string, rest: seq<Token>)
    ensures ParseFrame([Tk(Ident(x)), Tk(Sym(':')), Tk(Ident(c)), Tk(Sym('{')), Tk(Sym('}'))] + rest, ctx)
         == POk(Frame(c, x, []), 5)
  {
    var toks := [Tk(Ident(x)), Tk(Sym(':')), Tk(Ident(c)), Tk(Sym('{')), Tk(Sym('}'))] + rest;
    assert ParseMembers(toks, ctx, 4, []) == POk([], 5);
    assert ParseFrameBody(toks, ctx, x, c, 3) == POk(Frame(c, x, []), 5);
  }

  /** One turn of the member loop: a member that parses is appended and the loop goes on
      after it; a member that fails aborts the frame with that member's error. */
  lemma MembersStep(toks: seq<Token>, ctx: Context, pos: nat, acc: seq<Member>)
    requires pos <= |toks| && !IsSymbol(toks, pos, '}')
    ensures ParseMember(toks, ctx, pos).POk? ==>
      ParseMembers(toks, ctx, pos, acc)
      == ParseMembers(toks, ctx, ParseMember(toks, ctx, pos).next, acc + [ParseMember(toks, ctx, pos).value])
    ensures ParseMember(toks, ctx, pos).PErr? ==>
      ParseMembers(toks, ctx, pos, acc)
      == PErr(ParseMember(toks, ctx, pos).message, ParseMember(toks, ctx, pos).at)
  {
  }

  /** One turn of the array loop: no `]`, the comma required after the first element, then
      an element. */
  lemma ArrayStep(toks: seq<Token>, ctx: Context, t: AmbType, pos: nat, elems: seq<Value>, v: Value, n: nat)
    requires pos <= |toks|
    requires !IsSymbol(toks, pos, ']') && (|elems| > 0 ==> IsSymbol(toks, pos, ','))
    requires ParseExpression(toks, ctx, t, if |elems| > 0 then pos + 1 else pos) == POk(v, n)
    ensures ParseArrayElems(toks, ctx, t, pos, elems) == ParseArrayElems(toks, ctx, t, n, elems + [v])
  {
  }

  /** Two array elements with no comma between them are an error. */
  lemma ArrayNeedsComma(toks: seq<Token>, ctx: Context, t: AmbType, pos: nat, elems: seq<Value>)
    requires pos <= |toks| && |elems| > 0
    requires !IsSymbol(toks, pos, ']') && !IsSymbol(toks, pos, ',')
    ensures ParseArrayElems(toks, ctx, t, pos, elems) == PErr("\",\" is required between array elements", pos)
  {
  }

  /** One turn of the dictionary loop: `key : value` is stored with `DictSet`, so a repeated
      key overwrites the earlier value. */
  lemma DictStep(toks: seq<Token>, ctx: Context, t: AmbType, pos: nat, entries: seq<Entry>, key: string, v: Value, n: nat)
    requires pos <= |toks|
    requires !IsSymbol(toks, pos, '}') && (|entries| > 0 ==> IsSymbol(toks, pos, ','))
    requires var q := if |entries| > 0 then pos + 1 else pos;
      GetIdentifier(toks, q) == Some(key) && IsSymbol(toks, q + 1, ':')
      && ParseExpression(toks, ctx, t, q + 2) == POk(v, n)
    ensures ParseDictElems(toks, ctx, t, pos, entries)
         == ParseDictElems(toks, ctx, t, n, DictSet(entries, key, v))
  {
  }

  /** `{ k : 1 , k : 2 }` */
  function RepeatedKeyTokens(k: string): seq<Token> {
    [Tk(Sym('{')), Tk(Ident(k)), Tk(Sym(':')), Tk(IntTok(1)), Tk(Sym(',')),
     Tk(Ident(k)), Tk(Sym(':')), Tk(IntTok(2)), Tk(Sym('}'))]
  }

  /** `{ k : 1 , k : 2 }` holds the single entry `k : 2`. */
  lemma RepeatedKeyOverwrites(ctx: Context, k: string)
    ensures ParseExpression(RepeatedKeyTokens(k), ctx, DictionaryType, 0)
         == POk(DictV([Entry(k, ScalarV(NumS(2)))]), 9)
  {
    RepeatedKeyFirst(ctx, k);
    RepeatedKeySecond(ctx, k);
  }

  lemma RepeatedKeyFirst(ctx: Context, k: string)
    ensures ParseDictElems(RepeatedKeyTokens(k), ctx, DictionaryType, 1, [])
         == ParseDictElems(RepeatedKeyTokens(k), ctx, DictionaryType, 4, [Entry(k, ScalarV(NumS(1)))])
  {
    var toks := RepeatedKeyTokens(k);
    DictStep(toks, ctx, DictionaryType, 1, [], k, ScalarV(NumS(1)), 4);
    assert DictSet([], k, ScalarV(NumS(1))) == [Entry(k, ScalarV(NumS(1)))];
  }

  lemma RepeatedKeySecond(ctx: Context, k: string)
    ensures ParseDictElems(RepeatedKeyTokens(k), ctx, DictionaryType, 4, [Entry(k, ScalarV(NumS(1)))])
         == ParseDictElems(RepeatedKeyTokens(k), ctx, DictionaryType, 8, [Entry(k, ScalarV(NumS(2)))])
  {
    var toks := RepeatedKeyTokens(k);
    var one := [Entry(k, ScalarV(NumS(1)))];
    DictStep(toks, ctx, DictionaryType, 4, one, k, ScalarV(NumS(2)), 8);
    assert DictSet(one, k, ScalarV(NumS(2))) == [Entry(k, ScalarV(NumS(2)))];
  }

  // ---------------------------------------------------------------------------
  // Literals

  /** An identifier literal is legal only under an enum type and only for one of its
      members, and then it is that member's integer; otherwise the literal is an error. */
  lemma IdentifierLiteral(toks: seq<Token>, ctx: Context, t: AmbType, pos: nat, n: string)
    requires pos < |toks| && toks[pos].kind == Ident(n)
    ensures ParseExpression(toks, ctx, t, pos).POk?
        <==> t.EnumType? && t.enumName in ctx.enums && n in ctx.enums[t.enumName]
    ensures ParseExpression(toks, ctx, t, pos).POk? ==>
      ParseExpression(toks, ctx, t, pos) == POk(ScalarV(NumS(ctx.enums[t.enumName][n])), pos + 1)
    ensures !t.EnumType? ==>
      ParseExpression(toks, ctx, t, pos) == PErr("Unexpected identifier: \"" + n + "\"", pos + 1)
  {
  }

  // ---------------------------------------------------------------------------
  // Argument lists and paths

  /** `()` is the empty list, and a trailing comma before `)` is accepted. */
  lemma ArgumentListForms(a: string, b: string)
    ensures ParseArgNames([Tk(Sym(')'))], 0, []) == POk([], 1)
    ensures ParseArgNames([Tk(Ident(a)), Tk(Sym(',')), Tk(Sym(')'))], 0, []) == POk([a], 3)
    ensures ParseArgNames([Tk(Ident(a)), Tk(Sym(',')), Tk(Ident(b)), Tk(Sym(')'))], 0, []) == POk([a, b], 4)
  {
    assert [] + [a] == [a];
    assert [a] + [b] == [a, b];
  }

  /** One turn of the listener-argument loop: after an argument, `)` ends the list and
      `,` continues it. */
  lemma PathArgsStep(toks: seq<Token>, pos: nat, acc: seq<PathArgument>, a: PathArgument, p: nat)
    requires pos <= |toks| && !IsSymbol(toks, pos, ')')
    requires ParsePathArgument(toks, pos) == POk(a, p)
    ensures IsSymbol(toks, p, ')') ==> ParsePathArgs(toks, pos, acc) == POk(acc + [a], p + 1)
    ensures IsSymbol(toks, p, ',') ==> ParsePathArgs(toks, pos, acc) == ParsePathArgs(toks, p + 1, acc + [a])
    ensures !IsSymbol(toks, p, ')') && !IsSymbol(toks, p, ',') ==>
      ParsePathArgs(toks, pos, acc) == PErr(SymbolRequired(','), p)
  {
  }

  /** `( args ) body` after `Func`, `Listner` or `Event`, once the list has been read. */
  lemma ProcFuncStep(toks: seq<Token>, pos: nat, args: seq<string>, n: nat, script: string)
    requires pos <= |toks| && IsSymbol(toks, pos, '(')
    requires ParseArgNames(toks, pos + 1, []) == POk(args, n) && GetText(toks, n) == Some(script)
    ensures ParseProceduralFunc(toks, pos) == POk(ProcFunc(args, script), n + 1)
  {
  }

  lemma EventFuncStep(toks: seq<Token>, pos: nat, args: seq<string>, n: nat, script: string)
    requires pos <= |toks| && IsSymbol(toks, pos, '(')
    requires ParseArgNames(toks, pos + 1, []) == POk(args, n) && GetText(toks, n) == Some(script)
    ensures ParseEventFunc(toks, pos) == POk(EventFunc(args, script), n + 1)
  {
  }

  lemma ListenerFuncStep(toks: seq<Token>, pos: nat, args: seq<PathArgument>, n: nat, script: string)
    requires pos <= |toks| && IsSymbol(toks, pos, '(')
    requires ParsePathArgs(toks, pos + 1, []) == POk(args, n) && GetText(toks, n) == Some(script)
    ensures ParseListenerFunc(toks, pos) == POk(ListenerFunc(args, script), n + 1)
  {
  }

  /** `Init` takes a body and nothing else: a parenthesised list after it is an error. */
  lemma InitTakesNoList(ctx: Context, x: string, rest: seq<Token>)
    requires DecodeType(InitTypeName, ctx.enums).None?
    ensures ParseMember([Tk(Ident(x)), Tk(Sym(':')), Tk(Ident(InitTypeName)), Tk(Sym('('))] + rest, ctx, 0)
         == PErr(DeclarationRequired("Init function body"), 3)
  {
    var toks := [Tk(Ident(x)), Tk(Sym(':')), Tk(Ident(InitTypeName)), Tk(Sym('('))] + rest;
    DispatchInit(toks, ctx, 0, x);
  }

  /** A single identifier is a complete path: no minimum length is enforced by the parser. */
  lemma OneSegmentPath(a: string, rest: seq<Token>)
    requires |rest| > 0 ==> rest[0].kind != Sym('.')
    ensures ParsePathExpression([Tk(Ident(a))] + rest, 0) == POk(PathExpression([a]), 1)
  {
  }
}

=== FILE: parser_print.dfy ===
/** A token printer for frames, and the theorem that the parser inverts it: printing a
    frame and parsing the tokens gives the frame back, with the cursor just past it.
    The printer is the reference grammar the parser is checked against. */
module ParserRoundTrip {
  import opened Wrappers
  import opened Tokens
  import opened Frames
  import opened Parser
  import opened ParserFacts

  /** The tokens `s` occur in `toks` starting at `pos`. */
  predicate At(toks: seq<Token>, pos: nat, s: seq<Token>) {
    pos + |s| <= |toks| && toks[pos..pos + |s|] == s
  }

  lemma AtSplit(toks: seq<Token>, pos: nat, a: seq<Token>, b: seq<Token>)
    requires At(toks, pos, a + b)
    ensures At(toks, pos, a) && At(toks, pos + |a|, b)
  {
    assert toks[pos..pos + |a|] == (a + b)[..|a|];
    assert toks[pos + |a|..pos + |a| + |b|] == (a + b)[|a|..];
  }

  /** Three consecutive pieces. */
  lemma AtSplit3(toks: seq<Token>, pos: nat, a: seq<Token>, b: seq<Token>, c: seq<Token>)
    requires At(toks, pos, a + (b + c))
    ensures At(toks, pos, a) && At(toks, pos + |a|, b) && At(toks, pos + |a| + |b|, c)
  {
    AtSplit(toks, pos, a, b + c);
    AtSplit(toks, pos + |a|, b, c);
  }

  /** One token, then the rest. */
  lemma AtCons(toks: seq<Token>, pos: nat, x: Token, rest: seq<Token>)
    requires At(toks, pos, [x] + rest)
    ensures pos < |toks| && toks[pos] == x && At(toks, pos + 1, rest)
  {
    AtSplit(toks, pos, [x], rest);
    AtHead(toks, pos, [x]);
  }

  lemma AtHead(toks: seq<Token>, pos: nat, s: seq<Token>)
    requires At(toks, pos, s) && |s| > 0
    ensures toks[pos] == s[0]
  {
    assert toks[pos..pos + |s|][0] == toks[pos];
  }

  lemma AtIndex(toks: seq<Token>, pos: nat, s: seq<Token>, i: nat)
    requires At(toks, pos, s) && i < |s|
    ensures toks[pos + i] == s[i]
  {
    assert toks[pos..pos + |s|][i] == toks[pos + i];
  }

  lemma TakeNext<T>(s: seq<T>, i: nat)
    requires i < |s|
    ensures s[..i] + [s[i]] == s[..i + 1]
  {
  }

  // ---------------------------------------------------------------------------
  // Printable frames

  /** A literal the printer can spell: scalars, and arrays and dictionaries of them with
      distinct dictionary keys. */
  predicate PrintableLiteral(v: Value)
    decreases v, 1
  {
    match v
    case ScalarV(_) => true
    case ArrayV(es) => PrintableElems(es)
    case DictV(es) => PrintableEntries(es)
    case _ => false
  }

  predicate PrintableElems(es: seq<Value>)
    decreases es, 0
  {
    forall i :: 0 <= i < |es| ==> PrintableLiteral(es[i])
  }

  predicate PrintableEntries(es: seq<Entry>)
    decreases es, 0
  {
    UniqueKeys(es) && forall i :: 0 <= i < |es| ==> PrintableLiteral(es[i].val)
  }

  predicate TypeSpelled(t: AmbType, ctx: Context) {
    DecodeType(TypeKeyword(t), ctx.enums) == Some(t)
  }

  /** A member whose printed form dispatches back to the same member: declared types
      decode, untyped functions carry no type, and a nested frame's class name is neither
      a type nor a function keyword. */
  predicate PrintableMember(m: Member, ctx: Context)
    decreases m, 1
  {
    match m.value
    case ProcFunc(_, _) => m.declType.Some? && TypeSpelled(m.declType.value, ctx)
    case ListenerFunc(args, _) =>
      m.declType.Some? && TypeSpelled(m.declType.value, ctx)
      && forall i :: 0 <= i < |args| ==> |args[i].expression.elements| >= 1
    case EventFunc(_, _) => m.declType.None? && DecodeType(EventTypeName, ctx.enums).None?
    case InitFunc(_) => m.declType.None? && DecodeType(InitTypeName, ctx.enums).None?
    case FrameV(f) =>
      m.declType.None? && f.instanceName == m.ident
      && DecodeType(f.className, ctx.enums).None? && DecodeFunctionKind(f.className).None?
      && PrintableBody(f, ctx)
    case _ => m.declType.Some? && TypeSpelled(m.declType.value, ctx) && PrintableLiteral(m.value)
  }

  predicate PrintableBody(f: Frame, ctx: Context)
    decreases f, 0
  {
    forall i :: 0 <= i < |f.members| ==> PrintableMember(f.members[i], ctx)
  }

  // ---------------------------------------------------------------------------
  // The printer

  function LiteralTokens(v: Value): (r: seq<Token>)
    ensures |r| >= 1 && !r[0].kind.Ident? && r[0].kind != Sym(']') && r[0].kind != Sym('}')
    decreases v, 1
  {
    match v
    case ScalarV(BoolS(b)) => [Tk(BoolTok(b))]
    case ScalarV(NumS(n)) => [Tk(IntTok(n))]
    case ScalarV(StrS(s)) => [Tk(StrTok(s))]
    case ArrayV(es) => [Tk(Sym('['))] + ElemsTokens(v, 0)
    case DictV(es) => [Tk(Sym('{'))] + EntriesTokens(v, 0)
    case _ => [Tk(Sym('?'))]  // not a literal: no spelling
  }

  /** Array elements from index `i` on, then `]`; a comma precedes every element but the first. */
  function ElemsTokens(v: Value, i: nat): seq<Token>
    decreases v, 0, if v.ArrayV? && i < |v.elements| then |v.elements| - i else 0
  {
    if !v.ArrayV? || i >= |v.elements| then [Tk(Sym(']'))]
    else Sep(i) + (LiteralTokens(v.elements[i]) + ElemsTokens(v, i + 1))
  }

  /** The comma before every element but the first. */
  function Sep(i: nat): (r: seq<Token>)
    ensures |r| == if i == 0 then 0 else 1
  {
    if i == 0 then [] else [Tk(Sym(','))]
  }

  /** Dictionary entries `key : value` from index `i` on, then `}`. */
  function EntriesTokens(v: Value, i: nat): seq<Token>
    decreases v, 0, if v.DictV? && i < |v.entries| then |v.entries| - i else 0
  {
    if !v.DictV? || i >= |v.entries| then [Tk(Sym('}'))]
    else
      Sep(i) + ([Tk(Ident(v.entries[i].key)), Tk(Sym(':'))]
                + (LiteralTokens(v.entries[i].val) + EntriesTokens(v, i + 1)))
  }

  function DotTail(xs: seq<string>): seq<Token> {
    if |xs| == 0 then [] else [Tk(Sym('.')), Tk(Ident(xs[0]))] + DotTail(xs[1..])
  }

  function PathTokens(p: PathExpression): seq<Token>
    requires |p.elements| >= 1
  {
    [Tk(Ident(p.elements[0]))] + DotTail(p.elements[1..])
  }

  /** An argument list after `(`: names separated by commas, then `)`. */
  function ArgTokens(names: seq<string>): seq<Token> {
    if |names| == 0 then [Tk(Sym(')'))]
    else if |names| == 1 then [Tk(Ident(names[0])), Tk(Sym(')'))]
    else [Tk(Ident(names[0])), Tk(Sym(','))] + ArgTokens(names[1..])
  }

  function PathArgTokens(args: seq<PathArgument>): seq<Token>
    requires forall i :: 0 <= i < |args| ==> |args[i].expression.elements| >= 1
  {
    if |args| == 0 then [Tk(Sym(')'))]
    else
      [Tk(Ident(args[0].name)), Tk(Sym(':'))] + PathTokens(args[0].expression)
      + if |args| == 1 then [Tk(Sym(')'))] else [Tk(Sym(','))] + PathArgTokens(args[1..])
  }

  /** The identifier after the colon of a printed member. */
  function TypeString(m: Member, ctx: Context): string
    requires PrintableMember(m, ctx)
  {
    match m.value
    case EventFunc(_, _) => EventTypeName
    case InitFunc(_) => InitTypeName
    case FrameV(f) => f.className
    case _ => TypeKeyword(m.declType.value)
  }

  /** `( inner body`: a parenthesised list followed by a function body. */
  function CallTokens(inner: seq<Token>, script: string): seq<Token> {
    [Tk(Sym('('))] + (inner + [Tk(TextTok(script))])
  }

  /** What follows `ident : typestr`. */
  function MemberTail(m: Member, ctx: Context): seq<Token>
    requires PrintableMember(m, ctx)
    decreases m, 2
  {
    match m.value
    case ProcFunc(args, s) => [Tk(Ident(ProcedureTypeName))] + CallTokens(ArgTokens(args), s)
    case ListenerFunc(args, s) => [Tk(Ident(ListenerTypeName))] + CallTokens(PathArgTokens(args), s)
    case EventFunc(args, s) => CallTokens(ArgTokens(args), s)
    case InitFunc(s) => [Tk(TextTok(s))]
    case FrameV(f) => BodyTokens(f, ctx)
    case _ => LiteralTokens(m.value)
  }

  function MemberTokens(m: Member, ctx: Context): seq<Token>
    requires PrintableMember(m, ctx)
    decreases m, 3
  {
    [Tk(Ident(m.ident)), Tk(Sym(':')), Tk(Ident(TypeString(m, ctx)))] + MemberTail(m, ctx)
  }

  /** `{ members }`. */
  function BodyTokens(f: Frame, ctx: Context): seq<Token>
    requires PrintableBody(f, ctx)
    decreases f, 1
  {
    [Tk(Sym('{'))] + MembersTokens(f, ctx, 0)
  }

  function MembersTokens(f: Frame, ctx: Context, i: nat): seq<Token>
    requires PrintableBody(f, ctx) && i <= |f.members|
    decreases f, 0, |f.members| - i
  {
    if i == |f.members| then [Tk(Sym('}'))]
    else MemberTokens(f.members[i], ctx) + MembersTokens(f, ctx, i + 1)
  }

  /** A whole top-level frame `instance : Class { members }`. */
  function FrameTokens(f: Frame, ctx: Context): seq<Token>
    requires PrintableBody(f, ctx)
  {
    [Tk(Ident(f.instanceName)), Tk(Sym(':')), Tk(Ident(f.className))] + BodyTokens(f, ctx)
  }

  // ---------------------------------------------------------------------------
  // Round trips

  lemma {:induction false} PathRestRoundTrip(toks: seq<Token>, pos: nat, acc: seq<string>, xs: seq<string>)
    requires At(toks, pos, DotTail(xs))
    requires !IsSymbol(toks, pos + |DotTail(xs)|, '.')
    ensures ParsePathRest(toks, pos, acc) == POk(PathExpression(acc + xs), pos + |DotTail(xs)|)
    decreases |xs|
  {
    if |xs| == 0 {
      assert acc + xs == acc;
    } else {
      var head := [Tk(Sym('.')), Tk(Ident(xs[0]))];
      AtSplit(toks, pos, head, DotTail(xs[1..]));
      AtIndex(toks, pos, head, 0);
      AtIndex(toks, pos, head, 1);
      PathRestRoundTrip(toks, pos + 2, acc + [xs[0]], xs[1..]);
      assert acc + [xs[0]] + xs[1..] == acc + xs;
    }
  }

  /** A printed path reads back as itself, provided no `.` follows it. */
  lemma PathRoundTrip(toks: seq<Token>, pos: nat, p: PathExpression)
    requires |p.elements| >= 1
    requires At(toks, pos, PathTokens(p))
    requires !IsSymbol(toks, pos + |PathTokens(p)|, '.')
    ensures ParsePathExpression(toks, pos) == POk(p, pos + |PathTokens(p)|)
  {
    AtSplit(toks, pos, [Tk(Ident(p.elements[0]))], DotTail(p.elements[1..]));
    AtHead(toks, pos, PathTokens(p));
    PathRestRoundTrip(toks, pos + 1, [p.elements[0]], p.elements[1..]);
    assert [p.elements[0]] + p.elements[1..] == p.elements;
  }

  /** A printed argument list (after `(`) reads back as the names, appended to those already read. */
  lemma {:induction false} ArgNamesRoundTrip(toks: seq<Token>, pos: nat, acc: seq<string>, names: seq<string>)
    requires At(toks, pos, ArgTokens(names))
    ensures ParseArgNames(toks, pos, acc) == POk(acc + names, pos + |ArgTokens(names)|)
    decreases |names|
  {
    var at := ArgTokens(names);
    AtIndex(toks, pos, at, 0);
    if |names| == 0 {
      assert acc + names == acc;
    } else if |names| == 1 {
      AtIndex(toks, pos, at, 1);
      assert acc + names == acc + [names[0]];
    } else {
      AtIndex(toks, pos, at, 1);
      var head := [Tk(Ident(names[0])), Tk(Sym(','))];
      AtSplit(toks, pos, head, ArgTokens(names[1..]));
      ArgNamesRoundTrip(toks, pos + 2, acc + [names[0]], names[1..]);
      assert acc + [names[0]] + names[1..] == acc + names;
    }
  }

  lemma {:induction false} PathArgsRoundTrip(toks: seq<Token>, pos: nat, acc: seq<PathArgument>, args: seq<PathArgument>)
    requires forall i :: 0 <= i < |args| ==> |args[i].expression.elements| >= 1
    requires At(toks, pos, PathArgTokens(args))
    ensures ParsePathArgs(toks, pos, acc) == POk(acc + args, pos + |PathArgTokens(args)|)
    decreases |args|, 1
  {
    if |args| == 0 {
      AtHead(toks, pos, PathArgTokens(args));
      assert acc + args == acc;
    } else if |args| == 1 {
      var a := args[0];
      var n := pos + 2 + |PathTokens(a.expression)|;
      PathArgItem(toks, pos, a, [Tk(Sym(')'))]);
      assert PathArgTokens(args) == [Tk(Ident(a.name)), Tk(Sym(':'))] + PathTokens(a.expression) + [Tk(Sym(')'))];
      PathArgsStep(toks, pos, acc, a, n);
      assert acc + args == acc + [a];
    } else {
      PathArgsMore(toks, pos, acc, args);
    }
  }

  lemma {:induction false} PathArgsMore(toks: seq<Token>, pos: nat, acc: seq<PathArgument>, args: seq<PathArgument>)
    requires |args| > 1
    requires forall i :: 0 <= i < |args| ==> |args[i].expression.elements| >= 1
    requires At(toks, pos, PathArgTokens(args))
    ensures ParsePathArgs(toks, pos, acc) == POk(acc + args, pos + |PathArgTokens(args)|)
    decreases |args|, 0
  {
    var a := args[0];
    var n := pos + 2 + |PathTokens(a.expression)|;
    var end := n + 1 + |PathArgTokens(args[1..])|;
    PathArgsHead(toks, pos, args, n);
    PathArgsRoundTrip(toks, n + 1, acc + [a], args[1..]);
    TakeRest(acc, args);
    PathArgThenRest(toks, pos, acc, a, n, POk(acc + args, end));
  }

  /** Where the first of several printed listener arguments and the rest sit. */
  lemma {:induction false} PathArgsHead(toks: seq<Token>, pos: nat, args: seq<PathArgument>, n: nat)
    requires |args| > 1
    requires forall i :: 0 <= i < |args| ==> |args[i].expression.elements| >= 1
    requires At(toks, pos, PathArgTokens(args))
    requires n == pos + 2 + |PathTokens(args[0].expression)|
    ensures ParsePathArgument(toks, pos) == POk(args[0], n) && !IsSymbol(toks, pos, ')')
    ensures n < |toks| && IsSymbol(toks, n, ',')
    ensures At(toks, n + 1, PathArgTokens(args[1..]))
    ensures pos + |PathArgTokens(args)| == n + 1 + |PathArgTokens(args[1..])|
  {
    var a := args[0];
    var head, path := [Tk(Ident(a.name)), Tk(Sym(':'))], PathTokens(a.expression);
    var rest := PathArgTokens(args[1..]);
    var tail := [Tk(Sym(','))] + rest;
    assert PathArgTokens(args) == head + path + tail;
    assert |head + path + tail| == n - pos + 1 + |rest|;
    PathArgItem(toks, pos, a, tail);
    PathArgTail(toks, pos, a, tail);
    AtCons(toks, n, Tk(Sym(',')), rest);
  }

  lemma TakeRest<T>(acc: seq<T>, s: seq<T>)
    requires |s| > 0
    ensures acc + [s[0]] + s[1..] == acc + s
  {
  }

  /** A listener argument followed by a comma is appended, and the loop goes on after the comma. */
  lemma PathArgThenRest(toks: seq<Token>, pos: nat, acc: seq<PathArgument>, a: PathArgument, n: nat, r: PResult<seq<PathArgument>>)
    requires pos <= |toks| && n < |toks| && !IsSymbol(toks, pos, ')')
    requires ParsePathArgument(toks, pos) == POk(a, n) && IsSymbol(toks, n, ',')
    requires ParsePathArgs(toks, n + 1, acc + [a]) == r
    ensures ParsePathArgs(toks, pos, acc) == r
  {
    PathArgsStep(toks, pos, acc, a, n);
  }

  /** One printed listener argument followed by `)` or `,` reads back as itself. */
  lemma PathArgItem(toks: seq<Token>, pos: nat, a: PathArgument, tail: seq<Token>)
    requires |a.expression.elements| >= 1
    requires |tail| > 0 && (tail[0] == Tk(Sym(')')) || tail[0] == Tk(Sym(',')))
    requires At(toks, pos, [Tk(Ident(a.name)), Tk(Sym(':'))] + PathTokens(a.expression) + tail)
    ensures ParsePathArgument(toks, pos) == POk(a, pos + 2 + |PathTokens(a.expression)|)
    ensures !IsSymbol(toks, pos, ')')
    ensures toks[pos + 2 + |PathTokens(a.expression)|] == tail[0]
  {
    var head := [Tk(Ident(a.name)), Tk(Sym(':'))];
    var path := PathTokens(a.expression);
    PathArgTail(toks, pos, a, tail);
    AtSplit(toks, pos, head, path + tail);
    AtIndex(toks, pos, head, 0);
    AtIndex(toks, pos, head, 1);
    AtHead(toks, pos + 2 + |path|, tail);
    AtSplit(toks, pos + 2, path, tail);
    PathRoundTrip(toks, pos + 2, a.expression);
  }

  lemma PathArgTail(toks: seq<Token>, pos: nat, a: PathArgument, tail: seq<Token>)
    requires |a.expression.elements| >= 1
    requires At(toks, pos, [Tk(Ident(a.name)), Tk(Sym(':'))] + PathTokens(a.expression) + tail)
    ensures At(toks, pos, [Tk(Ident(a.name)), Tk(Sym(':'))] + (PathTokens(a.expression) + tail))
    ensures At(toks, pos + 2 + |PathTokens(a.expression)|, tail)
  {
    var head := [Tk(Ident(a.name)), Tk(Sym(':'))];
    var path := PathTokens(a.expression);
    assert head + path + tail == head + (path + tail);
    AtSplit(toks, pos, head, path + tail);
    AtSplit(toks, pos + 2, path, tail);
  }

  lemma {:induction false} LiteralRoundTrip(toks: seq<Token>, ctx: Context, t: AmbType, pos: nat, v: Value)
    requires PrintableLiteral(v)
    requires At(toks, pos, LiteralTokens(v))
    ensures ParseExpression(toks, ctx, t, pos) == POk(v, pos + |LiteralTokens(v)|)
    decreases v, 1
  {
    if v.ScalarV? {
      ScalarRoundTrip(toks, ctx, t, pos, v);
    } else if v.ArrayV? {
      ArrayRoundTrip(toks, ctx, t, pos, v);
    } else {
      DictRoundTrip(toks, ctx, t, pos, v);
    }
  }

  lemma {:induction false} ArrayRoundTrip(toks: seq<Token>, ctx: Context, t: AmbType, pos: nat, v: Value)
    requires v.ArrayV? && PrintableLiteral(v) && At(toks, pos, LiteralTokens(v))
    ensures ParseExpression(toks, ctx, t, pos) == POk(v, pos + |LiteralTokens(v)|)
    decreases v, 0, |v.elements| + 1
  {
    AtSplit(toks, pos, [Tk(Sym('['))], ElemsTokens(v, 0));
    ElemsRoundTrip(toks, ctx, t, pos + 1, v, 0);
    ArrayOpens(toks, ctx, t, pos, v);
  }

  lemma {:induction false} DictRoundTrip(toks: seq<Token>, ctx: Context, t: AmbType, pos: nat, v: Value)
    requires v.DictV? && PrintableLiteral(v) && At(toks, pos, LiteralTokens(v))
    ensures ParseExpression(toks, ctx, t, pos) == POk(v, pos + |LiteralTokens(v)|)
    decreases v, 0, |v.entries| + 1
  {
    AtSplit(toks, pos, [Tk(Sym('{'))], EntriesTokens(v, 0));
    EntriesRoundTrip(toks, ctx, t, pos + 1, v, 0);
    DictOpens(toks, ctx, t, pos, v);
  }

  /** `[` starts the element loop with no elements yet. */
  lemma ArrayOpens(toks: seq<Token>, ctx: Context, t: AmbType, pos: nat, v: Value)
    requires v.ArrayV? && At(toks, pos, LiteralTokens(v))
    ensures ParseExpression(toks, ctx, t, pos) == ParseArrayElems(toks, ctx, t, pos + 1, v.elements[..0])
  {
    AtHead(toks, pos, LiteralTokens(v));
    assert v.elements[..0] == [];
  }

  /** `{` starts the entry loop with no entries yet. */
  lemma DictOpens(toks: seq<Token>, ctx: Context, t: AmbType, pos: nat, v: Value)
    requires v.DictV? && At(toks, pos, LiteralTokens(v))
    ensures ParseExpression(toks, ctx, t, pos) == ParseDictElems(toks, ctx, t, pos + 1, v.entries[..0])
  {
    AtHead(toks, pos, LiteralTokens(v));
    assert v.entries[..0] == [];
  }

  /** A scalar is one token, read back as itself. */
  lemma ScalarRoundTrip(toks: seq<Token>, ctx: Context, t: AmbType, pos: nat, v: Value)
    requires v.ScalarV? && At(toks, pos, LiteralTokens(v))
    ensures ParseExpression(toks, ctx, t, pos) == POk(v, pos + 1)
  {
    AtHead(toks, pos, LiteralTokens(v));
  }

  lemma {:induction false} ElemsRoundTrip(toks: seq<Token>, ctx: Context, t: AmbType, pos: nat, v: Value, i: nat)
    requires v.ArrayV? && PrintableElems(v.elements) && i <= |v.elements|
    requires At(toks, pos, ElemsTokens(v, i))
    ensures ParseArrayElems(toks, ctx, t, pos, v.elements[..i]) == POk(v, pos + |ElemsTokens(v, i)|)
    decreases v, 0, |v.elements| - i
  {
    if i == |v.elements| {
      ElemsEnd(toks, ctx, t, pos, v, i);
    } else {
      var n := ElemHead(toks, ctx, t, pos, v, i);
      ElemsRoundTrip(toks, ctx, t, n, v, i + 1);
    }
  }

  /** After the last element the loop reads `]` and returns the array. */
  lemma ElemsEnd(toks: seq<Token>, ctx: Context, t: AmbType, pos: nat, v: Value, i: nat)
    requires v.ArrayV? && i == |v.elements| && At(toks, pos, ElemsTokens(v, i))
    ensures ParseArrayElems(toks, ctx, t, pos, v.elements[..i]) == POk(v, pos + |ElemsTokens(v, i)|)
  {
    AtHead(toks, pos, ElemsTokens(v, i));
    assert v.elements[..i] == v.elements;
  }

  /** The element at index `i` reads back, so the loop from `pos` goes on after it, at `n`. */
  lemma {:induction false} ElemHead(toks: seq<Token>, ctx: Context, t: AmbType, pos: nat, v: Value, i: nat) returns (n: nat)
    requires v.ArrayV? && PrintableElems(v.elements) && i < |v.elements|
    requires At(toks, pos, ElemsTokens(v, i))
    ensures At(toks, n, ElemsTokens(v, i + 1))
    ensures n + |ElemsTokens(v, i + 1)| == pos + |ElemsTokens(v, i)|
    ensures ParseArrayElems(toks, ctx, t, pos, v.elements[..i])
         == ParseArrayElems(toks, ctx, t, n, v.elements[..i + 1])
    decreases v, 0, 0
  {
    var q := pos + |Sep(i)|;
    n := q + |LiteralTokens(v.elements[i])|;
    ElemLayout(toks, pos, v, i, q, n);
    LiteralRoundTrip(toks, ctx, t, q, v.elements[i]);
    ElemStep(toks, ctx, t, pos, v.elements, i, q, n);
  }

  /** An element read at the right place is appended, and the loop goes on after it. */
  lemma ElemStep(toks: seq<Token>, ctx: Context, t: AmbType, pos: nat, es: seq<Value>, i: nat, q: nat, n: nat)
    requires i < |es| && pos <= |toks|
    requires !IsSymbol(toks, pos, ']') && (i > 0 ==> IsSymbol(toks, pos, ','))
    requires q == if i > 0 then pos + 1 else pos
    requires ParseExpression(toks, ctx, t, q) == POk(es[i], n)
    ensures ParseArrayElems(toks, ctx, t, pos, es[..i]) == ParseArrayElems(toks, ctx, t, n, es[..i + 1])
  {
    calc {
      ParseArrayElems(toks, ctx, t, pos, es[..i]);
      { ArrayStep(toks, ctx, t, pos, es[..i], es[i], n); }
      ParseArrayElems(toks, ctx, t, n, es[..i] + [es[i]]);
      { TakeNext(es, i); }
      ParseArrayElems(toks, ctx, t, n, es[..i + 1]);
    }
  }

  /** Where the pieces of one printed array element sit. */
  lemma ElemLayout(toks: seq<Token>, pos: nat, v: Value, i: nat, q: nat, n: nat)
    requires v.ArrayV? && i < |v.elements|
    requires At(toks, pos, ElemsTokens(v, i))
    requires q == pos + |Sep(i)| && n == q + |LiteralTokens(v.elements[i])|
    ensures pos <= |toks| && !IsSymbol(toks, pos, ']') && (i > 0 ==> IsSymbol(toks, pos, ','))
    ensures At(toks, q, LiteralTokens(v.elements[i]))
    ensures At(toks, n, ElemsTokens(v, i + 1))
    ensures n + |ElemsTokens(v, i + 1)| == pos + |ElemsTokens(v, i)|
    ensures q == if i > 0 then pos + 1 else pos
  {
    var lit := LiteralTokens(v.elements[i]);
    AtSplit3(toks, pos, Sep(i), lit, ElemsTokens(v, i + 1));
    SepAt(toks, pos, i, lit);
  }

  /** The token at the start of an element: the comma, or else the literal's first token. */
  lemma SepAt(toks: seq<Token>, pos: nat, i: nat, lit: seq<Token>)
    requires |lit| > 0 && !lit[0].kind.Ident? && lit[0].kind != Sym(']') && lit[0].kind != Sym('}')
    requires At(toks, pos, Sep(i)) && At(toks, pos + |Sep(i)|, lit)
    ensures pos < |toks|
    ensures i > 0 ==> toks[pos] == Tk(Sym(','))
    ensures i == 0 ==> toks[pos] == lit[0]
  {
    AtHead(toks, pos + |Sep(i)|, lit);
    if i > 0 {
      AtHead(toks, pos, Sep(i));
    }
  }

  lemma {:induction false} EntriesRoundTrip(toks: seq<Token>, ctx: Context, t: AmbType, pos: nat, v: Value, i: nat)
    requires v.DictV? && PrintableEntries(v.entries) && i <= |v.entries|
    requires At(toks, pos, EntriesTokens(v, i))
    ensures ParseDictElems(toks, ctx, t, pos, v.entries[..i]) == POk(v, pos + |EntriesTokens(v, i)|)
    decreases v, 0, |v.entries| - i
  {
    if i == |v.entries| {
      EntriesEnd(toks, ctx, t, pos, v, i);
    } else {
      var n := EntryNext(toks, pos, v, i);
      EntriesRoundTrip(toks, ctx, t, n, v, i + 1);
      EntryHead(toks, ctx, t, pos, v, i, n);
    }
  }

  /** After the last entry the loop reads `}` and returns the dictionary. */
  lemma EntriesEnd(toks: seq<Token>, ctx: Context, t: AmbType, pos: nat, v: Value, i: nat)
    requires v.DictV? && i == |v.entries| && At(toks, pos, EntriesTokens(v, i))
    ensures ParseDictElems(toks, ctx, t, pos, v.entries[..i]) == POk(v, pos + |EntriesTokens(v, i)|)
  {
    AtHead(toks, pos, EntriesTokens(v, i));
    assert v.entries[..i] == v.entries;
  }

  /** The entry at index `i` reads back, so the loop from `pos` goes on after it, at `n`. */
  lemma EntryNext(toks: seq<Token>, pos: nat, v: Value, i: nat) returns (n: nat)
    requires v.DictV? && i < |v.entries|
    requires At(toks, pos, EntriesTokens(v, i))
    ensures At(toks, n, EntriesTokens(v, i + 1))
    ensures n + |EntriesTokens(v, i + 1)| == pos + |EntriesTokens(v, i)|
  {
    var q := pos + |Sep(i)|;
    n := q + 2 + |LiteralTokens(v.entries[i].val)|;
    EntryLayout(toks, pos, v, i, q);
  }

  lemma {:induction false} EntryHead(toks: seq<Token>, ctx: Context, t: AmbType, pos: nat, v: Value, i: nat, n: nat)
    requires v.DictV? && PrintableEntries(v.entries) && i < |v.entries|
    requires At(toks, pos, EntriesTokens(v, i))
    requires n + |EntriesTokens(v, i + 1)| == pos + |EntriesTokens(v, i)| && n <= |toks|
    ensures ParseDictElems(toks, ctx, t, pos, v.entries[..i])
         == ParseDictElems(toks, ctx, t, n, v.entries[..i + 1])
    decreases v, 0, 0
  {
    var q := pos + |Sep(i)|;
    EntryLayout(toks, pos, v, i, q);
    LiteralRoundTrip(toks, ctx, t, q + 2, v.entries[i].val);
    EntryAppend(v, i);
    EntryThenRest(toks, ctx, t, pos, v.entries, i, q, n);
  }

  /** An entry with a fresh key that reads back is appended, and the loop goes on after it. */
  lemma EntryThenRest(toks: seq<Token>, ctx: Context, t: AmbType, pos: nat, es: seq<Entry>, i: nat, q: nat, n: nat)
    requires i < |es| && pos <= |toks| && n <= |toks|
    requires !IsSymbol(toks, pos, '}') && (i > 0 ==> IsSymbol(toks, pos, ','))
    requires q == if i > 0 then pos + 1 else pos
    requires GetIdentifier(toks, q) == Some(es[i].key) && IsSymbol(toks, q + 1, ':')
    requires ParseExpression(toks, ctx, t, q + 2) == POk(es[i].val, n)
    requires DictSet(es[..i], es[i].key, es[i].val) == es[..i + 1]
    ensures ParseDictElems(toks, ctx, t, pos, es[..i]) == ParseDictElems(toks, ctx, t, n, es[..i + 1])
  {
    DictStep(toks, ctx, t, pos, es[..i], es[i].key, es[i].val, n);
  }

  /** Where the pieces of one printed dictionary entry sit. */
  lemma EntryLayout(toks: seq<Token>, pos: nat, v: Value, i: nat, q: nat)
    requires v.DictV? && i < |v.entries|
    requires At(toks, pos, EntriesTokens(v, i))
    requires q == pos + |Sep(i)|
    ensures pos <= |toks| && !IsSymbol(toks, pos, '}') && (i > 0 ==> IsSymbol(toks, pos, ','))
    ensures GetIdentifier(toks, q) == Some(v.entries[i].key) && IsSymbol(toks, q + 1, ':')
    ensures At(toks, q + 2, LiteralTokens(v.entries[i].val))
    ensures At(toks, q + 2 + |LiteralTokens(v.entries[i].val)|, EntriesTokens(v, i + 1))
    ensures |EntriesTokens(v, i)| == q - pos + 2 + |LiteralTokens(v.entries[i].val)| + |EntriesTokens(v, i + 1)|
  {
    var kv := [Tk(Ident(v.entries[i].key)), Tk(Sym(':'))];
    var lit := LiteralTokens(v.entries[i].val);
    AtSplit3(toks, pos, Sep(i), kv, lit + EntriesTokens(v, i + 1));
    AtSplit(toks, q + 2, lit, EntriesTokens(v, i + 1));
    KeyColonAt(toks, q, v.entries[i].key);
    CommaAt(toks, pos, i);
  }

  lemma KeyColonAt(toks: seq<Token>, pos: nat, key: string)
    requires At(toks, pos, [Tk(Ident(key)), Tk(Sym(':'))])
    ensures GetIdentifier(toks, pos) == Some(key) && IsSymbol(toks, pos + 1, ':')
  {
    AtIndex(toks, pos, [Tk(Ident(key)), Tk(Sym(':'))], 0);
    AtIndex(toks, pos, [Tk(Ident(key)), Tk(Sym(':'))], 1);
  }

  lemma CommaAt(toks: seq<Token>, pos: nat, i: nat)
    requires At(toks, pos, Sep(i))
    ensures i > 0 ==> IsSymbol(toks, pos, ',')
  {
    if i > 0 {
      AtHead(toks, pos, Sep(i));
    }
  }

  /** Appending the next entry of a dictionary with distinct keys is what `DictSet` does. */
  lemma EntryAppend(v: Value, i: nat)
    requires v.DictV? && PrintableEntries(v.entries) && i < |v.entries|
    ensures DictSet(v.entries[..i], v.entries[i].key, v.entries[i].val) == v.entries[..i + 1]
  {
    var es := v.entries;
    TakeNext(es, i);
    LookupAbsent(es[..i], es[i].key);
  }

  lemma {:induction false} MemberRoundTrip(toks: seq<Token>, ctx: Context, pos: nat, m: Member)
    requires PrintableMember(m, ctx)
    requires At(toks, pos, MemberTokens(m, ctx))
    ensures ParseMember(toks, ctx, pos) == POk(m, pos + |MemberTokens(m, ctx)|)
    decreases m, 3
  {
    HeadAt(toks, pos, m.ident, TypeString(m, ctx), MemberTail(m, ctx));
    match m.value
    case ProcFunc(args, s) => ProcMemberRoundTrip(toks, ctx, pos, m);
    case ListenerFunc(args, s) => ListenerMemberRoundTrip(toks, ctx, pos, m);
    case EventFunc(args, s) => EventMemberRoundTrip(toks, ctx, pos, m);
    case InitFunc(s) => InitMemberRoundTrip(toks, ctx, pos, m);
    case FrameV(f) => FrameMemberRoundTrip(toks, ctx, pos, m);
    case ScalarV(_) => LiteralMemberRoundTrip(toks, ctx, pos, m);
    case ArrayV(_) => LiteralMemberRoundTrip(toks, ctx, pos, m);
    case DictV(_) => LiteralMemberRoundTrip(toks, ctx, pos, m);
  }

  /** The first three tokens of a printed member are its head `ident : typestr`. */
  lemma HeadAt(toks: seq<Token>, pos: nat, ident: string, typestr: string, s: seq<Token>)
    requires At(toks, pos, [Tk(Ident(ident)), Tk(Sym(':')), Tk(Ident(typestr))] + s)
    ensures pos <= |toks| && MemberHead(toks, pos, ident, typestr)
    ensures At(toks, pos + 3, s)
  {
    var head := [Tk(Ident(ident)), Tk(Sym(':')), Tk(Ident(typestr))];
    AtSplit(toks, pos, head, s);
    AtIndex(toks, pos, head, 0);
    AtIndex(toks, pos, head, 1);
    AtIndex(toks, pos, head, 2);
  }

  /** A keyword token followed by `s`. */
  lemma KeywordAt(toks: seq<Token>, pos: nat, kw: string, s: seq<Token>)
    requires At(toks, pos, [Tk(Ident(kw))] + s)
    ensures pos < |toks| && GetIdentifier(toks, pos) == Some(kw)
    ensures At(toks, pos + 1, s)
  {
    AtSplit(toks, pos, [Tk(Ident(kw))], s);
    AtHead(toks, pos, [Tk(Ident(kw))]);
  }

  lemma CallLayout(toks: seq<Token>, pos: nat, inner: seq<Token>, script: string)
    requires At(toks, pos, CallTokens(inner, script))
    ensures pos <= |toks| && IsSymbol(toks, pos, '(')
    ensures At(toks, pos + 1, inner)
    ensures GetText(toks, pos + 1 + |inner|) == Some(script)
    ensures |CallTokens(inner, script)| == |inner| + 2
  {
    AtSplit3(toks, pos, [Tk(Sym('('))], inner, [Tk(TextTok(script))]);
    AtHead(toks, pos, [Tk(Sym('('))]);
    AtHead(toks, pos + 1 + |inner|, [Tk(TextTok(script))]);
  }

  lemma ProcCallRoundTrip(toks: seq<Token>, pos: nat, args: seq<string>, script: string)
    requires At(toks, pos, CallTokens(ArgTokens(args), script))
    ensures ParseProceduralFunc(toks, pos) == POk(ProcFunc(args, script), pos + |CallTokens(ArgTokens(args), script)|)
  {
    var inner := ArgTokens(args);
    CallLayout(toks, pos, inner, script);
    ArgNamesRoundTrip(toks, pos + 1, [], args);
    EmptyPrefix(args);
    ProcFuncStep(toks, pos, args, pos + 1 + |inner|, script);
  }

  lemma EventCallRoundTrip(toks: seq<Token>, pos: nat, args: seq<string>, script: string)
    requires At(toks, pos, CallTokens(ArgTokens(args), script))
    ensures ParseEventFunc(toks, pos) == POk(EventFunc(args, script), pos + |CallTokens(ArgTokens(args), script)|)
  {
    var inner := ArgTokens(args);
    CallLayout(toks, pos, inner, script);
    ArgNamesRoundTrip(toks, pos + 1, [], args);
    EmptyPrefix(args);
    EventFuncStep(toks, pos, args, pos + 1 + |inner|, script);
  }

  lemma ListenerCallRoundTrip(toks: seq<Token>, pos: nat, args: seq<PathArgument>, script: string)
    requires forall i :: 0 <= i < |args| ==> |args[i].expression.elements| >= 1
    requires At(toks, pos, CallTokens(PathArgTokens(args), script))
    ensures ParseListenerFunc(toks, pos) == POk(ListenerFunc(args, script), pos + |CallTokens(PathArgTokens(args), script)|)
  {
    var inner := PathArgTokens(args);
    CallLayout(toks, pos, inner, script);
    PathArgsFromEmpty(toks, pos + 1, args);
    ListenerFuncStep(toks, pos, args, pos + 1 + |inner|, script);
  }

  /** A printed listener argument list reads back as the arguments. */
  lemma PathArgsFromEmpty(toks: seq<Token>, pos: nat, args: seq<PathArgument>)
    requires forall i :: 0 <= i < |args| ==> |args[i].expression.elements| >= 1
    requires At(toks, pos, PathArgTokens(args))
    ensures ParsePathArgs(toks, pos, []) == POk(args, pos + |PathArgTokens(args)|)
  {
    PathArgsRoundTrip(toks, pos, [], args);
    EmptyPrefix(args);
  }

  lemma EmptyPrefix<T>(s: seq<T>)
    ensures [] + s == s
  {
  }

  lemma ProcMemberRoundTrip(toks: seq<Token>, ctx: Context, pos: nat, m: Member)
    requires m.value.ProcFunc? && PrintableMember(m, ctx)
    requires pos <= |toks| && MemberHead(toks, pos, m.ident, TypeString(m, ctx))
    requires At(toks, pos + 3, MemberTail(m, ctx))
    ensures ParseMember(toks, ctx, pos) == POk(m, pos + 3 + |MemberTail(m, ctx)|)
  {
    var call := CallTokens(ArgTokens(m.value.args), m.value.script);
    KeywordAt(toks, pos + 3, ProcedureTypeName, call);
    ProcCallRoundTrip(toks, pos + 4, m.value.args, m.value.script);
    ProcedureMember(toks, ctx, pos, m, pos + 4 + |call|);
  }

  /** A typed member whose `Func` part reads back as its value. */
  lemma ProcedureMember(toks: seq<Token>, ctx: Context, pos: nat, m: Member, n: nat)
    requires m.declType.Some? && TypeSpelled(m.declType.value, ctx)
    requires pos + 3 <= |toks| && MemberHead(toks, pos, m.ident, TypeKeyword(m.declType.value))
    requires GetIdentifier(toks, pos + 3) == Some(ProcedureTypeName)
    requires ParseProceduralFunc(toks, pos + 4) == POk(m.value, n)
    ensures ParseMember(toks, ctx, pos) == POk(m, n)
  {
    DispatchValueType(toks, ctx, pos, m.ident, TypeKeyword(m.declType.value));
    PropertyProcedure(toks, ctx, m.ident, m.declType.value, pos + 3);
  }

  lemma ListenerMemberRoundTrip(toks: seq<Token>, ctx: Context, pos: nat, m: Member)
    requires m.value.ListenerFunc? && PrintableMember(m, ctx)
    requires pos <= |toks| && MemberHead(toks, pos, m.ident, TypeString(m, ctx))
    requires At(toks, pos + 3, MemberTail(m, ctx))
    ensures ParseMember(toks, ctx, pos) == POk(m, pos + 3 + |MemberTail(m, ctx)|)
  {
    var call := CallTokens(PathArgTokens(m.value.pathArgs), m.value.script);
    KeywordAt(toks, pos + 3, ListenerTypeName, call);
    ListenerCallRoundTrip(toks, pos + 4, m.value.pathArgs, m.value.script);
    ListenerMember(toks, ctx, pos, m, pos + 4 + |call|);
  }

  /** A typed member whose `Listner` part reads back as its value. */
  lemma ListenerMember(toks: seq<Token>, ctx: Context, pos: nat, m: Member, n: nat)
    requires m.declType.Some? && TypeSpelled(m.declType.value, ctx)
    requires pos + 3 <= |toks| && MemberHead(toks, pos, m.ident, TypeKeyword(m.declType.value))
    requires GetIdentifier(toks, pos + 3) == Some(ListenerTypeName)
    requires ParseListenerFunc(toks, pos + 4) == POk(m.value, n)
    ensures ParseMember(toks, ctx, pos) == POk(m, n)
  {
    DispatchValueType(toks, ctx, pos, m.ident, TypeKeyword(m.declType.value));
    PropertyListener(toks, ctx, m.ident, m.declType.value, pos + 3);
  }

  lemma EventMemberRoundTrip(toks: seq<Token>, ctx: Context, pos: nat, m: Member)
    requires m.value.EventFunc? && PrintableMember(m, ctx)
    requires pos <= |toks| && MemberHead(toks, pos, m.ident, TypeString(m, ctx))
    requires At(toks, pos + 3, MemberTail(m, ctx))
    ensures ParseMember(toks, ctx, pos) == POk(m, pos + 3 + |MemberTail(m, ctx)|)
  {
    EventCallRoundTrip(toks, pos + 3, m.value.args, m.value.script);
    DispatchEvent(toks, ctx, pos, m.ident);
  }

  lemma InitMemberRoundTrip(toks: seq<Token>, ctx: Context, pos: nat, m: Member)
    requires m.value.InitFunc? && PrintableMember(m, ctx)
    requires pos <= |toks| && MemberHead(toks, pos, m.ident, TypeString(m, ctx))
    requires At(toks, pos + 3, MemberTail(m, ctx))
    ensures ParseMember(toks, ctx, pos) == POk(m, pos + 3 + |MemberTail(m, ctx)|)
  {
    AtHead(toks, pos + 3, MemberTail(m, ctx));
    DispatchInit(toks, ctx, pos, m.ident);
  }

  lemma FrameMemberRoundTrip(toks: seq<Token>, ctx: Context, pos: nat, m: Member)
    requires m.value.FrameV? && PrintableMember(m, ctx)
    requires pos <= |toks| && MemberHead(toks, pos, m.ident, TypeString(m, ctx))
    requires At(toks, pos + 3, MemberTail(m, ctx))
    ensures ParseMember(toks, ctx, pos) == POk(m, pos + 3 + |MemberTail(m, ctx)|)
    decreases m, 2
  {
    var f := m.value.frame;
    BodyRoundTrip(toks, ctx, pos + 3, f);
    DispatchFrame(toks, ctx, pos, m.ident, f.className);
  }

  lemma LiteralMemberRoundTrip(toks: seq<Token>, ctx: Context, pos: nat, m: Member)
    requires m.value.ScalarV? || m.value.ArrayV? || m.value.DictV?
    requires PrintableMember(m, ctx)
    requires pos <= |toks| && MemberHead(toks, pos, m.ident, TypeString(m, ctx))
    requires At(toks, pos + 3, MemberTail(m, ctx))
    ensures ParseMember(toks, ctx, pos) == POk(m, pos + 3 + |MemberTail(m, ctx)|)
  {
    var t := m.declType.value;
    AtHead(toks, pos + 3, MemberTail(m, ctx));
    LiteralRoundTrip(toks, ctx, t, pos + 3, m.value);
    DispatchValueType(toks, ctx, pos, m.ident, TypeKeyword(t));
    PropertyLiteral(toks, ctx, m.ident, t, pos + 3);
  }

  lemma {:induction false} BodyRoundTrip(toks: seq<Token>, ctx: Context, pos: nat, f: Frame)
    requires PrintableBody(f, ctx)
    requires At(toks, pos, BodyTokens(f, ctx))
    ensures ParseFrameBody(toks, ctx, f.instanceName, f.className, pos) == POk(f, pos + |BodyTokens(f, ctx)|)
    decreases f, 1
  {
    AtSplit(toks, pos, [Tk(Sym('{'))], MembersTokens(f, ctx, 0));
    AtHead(toks, pos, BodyTokens(f, ctx));
    MembersRoundTrip(toks, ctx, pos + 1, f, 0);
    assert f.members[..0] == [];
  }

  lemma {:induction false} MembersRoundTrip(toks: seq<Token>, ctx: Context, pos: nat, f: Frame, i: nat)
    requires PrintableBody(f, ctx) && i <= |f.members|
    requires At(toks, pos, MembersTokens(f, ctx, i))
    ensures ParseMembers(toks, ctx, pos, f.members[..i]) == POk(f.members, pos + |MembersTokens(f, ctx, i)|)
    decreases f, 0, |f.members| - i
  {
    if i == |f.members| {
      AtHead(toks, pos, MembersTokens(f, ctx, i));
      assert f.members[..i] == f.members;
    } else {
      var m := f.members[i];
      var n := pos + |MemberTokens(m, ctx)|;
      MembersLayout(toks, ctx, pos, f, i);
      MemberRoundTrip(toks, ctx, pos, m);
      MembersRoundTrip(toks, ctx, n, f, i + 1);
      TakeNext(f.members, i);
      assert A: ParseMembers(toks, ctx, n, f.members[..i] + [m]) == POk(f.members, pos + |MembersTokens(f, ctx, i)|);
      MemberThenRest(toks, ctx, pos, f.members[..i], m, n, POk(f.members, pos + |MembersTokens(f, ctx, i)|));
    }
  }

  /** A member that reads back is appended, and the loop's result is the rest's result. */
  lemma MemberThenRest(toks: seq<Token>, ctx: Context, pos: nat, acc: seq<Member>, m: Member, n: nat, r: PResult<seq<Member>>)
    requires pos <= |toks| && n <= |toks| && !IsSymbol(toks, pos, '}')
    requires ParseMember(toks, ctx, pos) == POk(m, n)
    requires ParseMembers(toks, ctx, n, acc + [m]) == r
    ensures ParseMembers(toks, ctx, pos, acc) == r
  {
    MembersStep(toks, ctx, pos, acc);
  }

  /** Where one printed member and the members after it sit. */
  lemma MembersLayout(toks: seq<Token>, ctx: Context, pos: nat, f: Frame, i: nat)
    requires PrintableBody(f, ctx) && i < |f.members|
    requires At(toks, pos, MembersTokens(f, ctx, i))
    ensures pos <= |toks| && !IsSymbol(toks, pos, '}')
    ensures At(toks, pos, MemberTokens(f.members[i], ctx))
    ensures At(toks, pos + |MemberTokens(f.members[i], ctx)|, MembersTokens(f, ctx, i + 1))
    ensures |MembersTokens(f, ctx, i)| == |MemberTokens(f.members[i], ctx)| + |MembersTokens(f, ctx, i + 1)|
  {
    var mt := MemberTokens(f.members[i], ctx);
    AtSplit(toks, pos, mt, MembersTokens(f, ctx, i + 1));
    AtHead(toks, pos, mt);
  }

  /** Printing a frame and parsing the tokens gives the frame back; anything after the
      closing brace is left unread. */
  lemma FrameRoundTrip(f: Frame, ctx: Context, rest: seq<Token>)
    requires PrintableBody(f, ctx)
    ensures ParseFrame(FrameTokens(f, ctx) + rest, ctx) == POk(f, |FrameTokens(f, ctx)|)
  {
    var toks := FrameTokens(f, ctx) + rest;
    var pre := [Tk(Ident(f.instanceName)), Tk(Sym(':')), Tk(Ident(f.className))];
    assert toks[0..|FrameTokens(f, ctx)|] == FrameTokens(f, ctx);
    AtSplit(toks, 0, pre, BodyTokens(f, ctx));
    AtIndex(toks, 0, pre, 0);
    AtIndex(toks, 0, pre, 1);
    AtIndex(toks, 0, pre, 2);
    BodyRoundTrip(toks, ctx, 3, f);
  }

  // ---------------------------------------------------------------------------
  // Printed frames pass through the folding pass

  /** Every string scalar of the literal is free of backslash-n escapes. */
  predicate PlainLiteral(v: Value) {
    match v
    case ScalarV(StrS(s)) => EscapeFree(s)
    case ArrayV(es) => forall i :: 0 <= i < |es| ==> PlainLiteral(es[i])
    case DictV(es) => forall i :: 0 <= i < |es| ==> PlainLiteral(es[i].val)
    case _ => true
  }

  predicate PlainMember(m: Member)
    decreases m, 1
  {
    match m.value
    case FrameV(g) => PlainBody(g)
    case _ => PlainLiteral(m.value)
  }

  /** Every literal of the frame and of the frames nested in it is plain. */
  predicate PlainBody(f: Frame)
    decreases f, 0
  {
    forall i :: 0 <= i < |f.members| ==> PlainMember(f.members[i])
  }

  predicate StringFree(toks: seq<Token>) {
    forall i :: 0 <= i < |toks| ==> !IsStr(toks[i])
  }

  lemma {:induction false} ArgTokensStringFree(names: seq<string>)
    ensures StringFree(ArgTokens(names))
    decreases |names|
  {
    if |names| > 1 {
      ArgTokensStringFree(names[1..]);
      StringFreeAppend([Tk(Ident(names[0])), Tk(Sym(','))], ArgTokens(names[1..]));
    }
  }

  lemma {:induction false} DotTailStringFree(xs: seq<string>)
    ensures StringFree(DotTail(xs))
    decreases |xs|
  {
    if |xs| > 0 {
      DotTailStringFree(xs[1..]);
      StringFreeAppend([Tk(Sym('.')), Tk(Ident(xs[0]))], DotTail(xs[1..]));
    }
  }

  lemma {:induction false} PathArgTokensStringFree(args: seq<PathArgument>)
    requires forall i :: 0 <= i < |args| ==> |args[i].expression.elements| >= 1
    ensures StringFree(PathArgTokens(args))
    decreases |args|
  {
    if |args| > 0 {
      var p := args[0].expression;
      DotTailStringFree(p.elements[1..]);
      StringFreeAppend([Tk(Ident(p.elements[0]))], DotTail(p.elements[1..]));
      StringFreeAppend([Tk(Ident(args[0].name)), Tk(Sym(':'))], PathTokens(p));
      var tail := if |args| == 1 then [Tk(Sym(')'))] else [Tk(Sym(','))] + PathArgTokens(args[1..]);
      if |args| > 1 {
        PathArgTokensStringFree(args[1..]);
        StringFreeAppend([Tk(Sym(','))], PathArgTokens(args[1..]));
      }
      StringFreeAppend([Tk(Ident(args[0].name)), Tk(Sym(':'))] + PathTokens(p), tail);
    }
  }

  lemma StringFreeAppend(a: seq<Token>, b: seq<Token>)
    requires StringFree(a) && StringFree(b)
    ensures StringFree(a + b)
  {
    var ab := a + b;
    forall i | 0 <= i < |ab|
      ensures !IsStr(ab[i])
    {
      if i < |a| {
        assert ab[i] == a[i];
      } else {
        assert ab[i] == b[i - |a|];
      }
    }
  }

  /** A printed call holds no string token: its list is names and symbols, its body text. */
  lemma CallStringFree(head: seq<Token>, inner: seq<Token>, script: string)
    requires StringFree(head) && StringFree(inner)
    ensures StringFree(head + CallTokens(inner, script)) && Settled(head + CallTokens(inner, script))
  {
    StringFreeAppend(inner, [Tk(TextTok(script))]);
    StringFreeAppend([Tk(Sym('('))], inner + [Tk(TextTok(script))]);
    StringFreeAppend(head, CallTokens(inner, script));
  }

  /** A printed literal is settled once a non-string token follows it. */
  lemma {:induction false} LiteralSettled(v: Value, b: seq<Token>)
    requires PrintableLiteral(v) && PlainLiteral(v)
    requires Settled(b) && |b| > 0 && !IsStr(b[0])
    ensures Settled(LiteralTokens(v) + b)
    decreases v, 1
  {
    match v
    case ScalarV(StrS(s)) =>
      SettledString(Tk(StrTok(s)), b);
    case ScalarV(_) =>
      SettledAppend(LiteralTokens(v), b);
    case ArrayV(es) =>
      ElemsSettled(v, 0);
      SettledAppend([Tk(Sym('['))], ElemsTokens(v, 0));
      SettledAppend(LiteralTokens(v), b);
    case DictV(es) =>
      EntriesSettled(v, 0);
      SettledAppend([Tk(Sym('{'))], EntriesTokens(v, 0));
      SettledAppend(LiteralTokens(v), b);
  }

  lemma {:induction false} ElemsSettled(v: Value, i: nat)
    requires v.ArrayV? && PrintableElems(v.elements) && PlainLiteral(v)
    ensures |ElemsTokens(v, i)| > 0 && Settled(ElemsTokens(v, i))
    ensures i > 0 || i >= |v.elements| ==> !IsStr(ElemsTokens(v, i)[0])
    decreases v, 0, if i < |v.elements| then |v.elements| - i else 0
  {
    if i < |v.elements| {
      var lit, rest := LiteralTokens(v.elements[i]), ElemsTokens(v, i + 1);
      ElemsSettled(v, i + 1);
      LiteralSettled(v.elements[i], rest);
      SettledAppend(Sep(i), lit + rest);
      assert ElemsTokens(v, i) == Sep(i) + (lit + rest);
    }
  }

  lemma {:induction false} EntriesSettled(v: Value, i: nat)
    requires v.DictV? && PrintableEntries(v.entries) && PlainLiteral(v)
    ensures |EntriesTokens(v, i)| > 0 && Settled(EntriesTokens(v, i)) && !IsStr(EntriesTokens(v, i)[0])
    decreases v, 0, if i < |v.entries| then |v.entries| - i else 0
  {
    if i < |v.entries| {
      var key := [Tk(Ident(v.entries[i].key)), Tk(Sym(':'))];
      var lit, rest := LiteralTokens(v.entries[i].val), EntriesTokens(v, i + 1);
      EntriesSettled(v, i + 1);
      LiteralSettled(v.entries[i].val, rest);
      SettledAppend(key, lit + rest);
      SettledAppend(Sep(i), key + (lit + rest));
      assert EntriesTokens(v, i) == Sep(i) + (key + (lit + rest));
    }
  }

  /** A printed member is settled once a non-string token follows it. */
  lemma {:induction false} MemberTailSettled(m: Member, ctx: Context, b: seq<Token>)
    requires PrintableMember(m, ctx) && PlainMember(m)
    requires Settled(b) && |b| > 0 && !IsStr(b[0])
    ensures Settled(MemberTail(m, ctx) + b)
    decreases m, 2
  {
    match m.value
    case ProcFunc(args, s) =>
      ArgTokensStringFree(args);
      CallStringFree([Tk(Ident(ProcedureTypeName))], ArgTokens(args), s);
      SettledAppend(MemberTail(m, ctx), b);
    case ListenerFunc(args, s) =>
      PathArgTokensStringFree(args);
      CallStringFree([Tk(Ident(ListenerTypeName))], PathArgTokens(args), s);
      SettledAppend(MemberTail(m, ctx), b);
    case EventFunc(args, s) =>
      ArgTokensStringFree(args);
      CallStringFree([], ArgTokens(args), s);
      assert [] + CallTokens(ArgTokens(args), s) == MemberTail(m, ctx);
      SettledAppend(MemberTail(m, ctx), b);
    case InitFunc(s) =>
      SettledAppend(MemberTail(m, ctx), b);
    case FrameV(f) =>
      BodySettled(f, ctx);
      SettledAppend(MemberTail(m, ctx), b);
    case _ =>
      LiteralSettled(m.value, b);
  }

  lemma {:induction false} MembersSettled(f: Frame, ctx: Context, i: nat)
    requires PrintableBody(f, ctx) && PlainBody(f) && i <= |f.members|
    ensures |MembersTokens(f, ctx, i)| > 0 && Settled(MembersTokens(f, ctx, i))
    ensures !IsStr(MembersTokens(f, ctx, i)[0])
    decreases f, 0, |f.members| - i
  {
    if i < |f.members| {
      var rest := MembersTokens(f, ctx, i + 1);
      MembersSettled(f, ctx, i + 1);
      MemberSettled(f.members[i], ctx, rest);
    }
  }

  /** A printed member, name and type included, is settled in front of a settled tail. */
  lemma {:induction false} MemberSettled(m: Member, ctx: Context, rest: seq<Token>)
    requires PrintableMember(m, ctx) && PlainMember(m)
    requires Settled(rest) && |rest| > 0 && !IsStr(rest[0])
    ensures Settled(MemberTokens(m, ctx) + rest) && !IsStr((MemberTokens(m, ctx) + rest)[0])
    decreases m, 3
  {
    var head := [Tk(Ident(m.ident)), Tk(Sym(':')), Tk(Ident(TypeString(m, ctx)))];
    var tail := MemberTail(m, ctx);
    MemberTailSettled(m, ctx, rest);
    SettledAppend(head, tail + rest);
    assert MemberTokens(m, ctx) + rest == head + (tail + rest);
  }

  lemma {:induction false} BodySettled(f: Frame, ctx: Context)
    requires PrintableBody(f, ctx) && PlainBody(f)
    ensures Settled(BodyTokens(f, ctx))
    decreases f, 1
  {
    MembersSettled(f, ctx, 0);
    SettledAppend([Tk(Sym('{'))], MembersTokens(f, ctx, 0));
  }

  /** A printed frame whose strings hold no backslash-n escapes is left alone by the
      folding pass, so `parse` reads it back as exactly that frame, whatever follows it. */
  lemma ParseRoundTrip(f: Frame, ctx: Context, rest: seq<Token>)
    requires PrintableBody(f, ctx) && PlainBody(f)
    ensures Parse(FrameTokens(f, ctx) + rest, ctx) == Parsed(f)
  {
    var pre := [Tk(Ident(f.instanceName)), Tk(Sym(':')), Tk(Ident(f.className))];
    BodySettled(f, ctx);
    SettledAppend(pre, BodyTokens(f, ctx));
    PreprocessSettled(FrameTokens(f, ctx), rest);
    FrameRoundTrip(f, ctx, Preprocess(rest));
  }
}

=== FILE: react_object.dfy ===
/** The reactive object a compiled frame becomes (`AMBReactObject`): one observed table of
    script values keyed by property name, a separate table of listener pointers, the list
    of property names the frame declared, and the observers registered on each property.
    Objects refer to each other by their index in the heap of compiled objects. */
module ReactObjects {
  import opened Wrappers
  import opened Frames

  /** Index of a react object in the heap of compiled objects. */
  type ObjId = nat

  /** Script-engine values as far as the binding layer inspects them. Numbers are integers;
      `JFunc` is a function object the engine handed back, `JRef` a react object. */
  datatype JsValue =
    | JNull
    | JBool(b: bool)
    | JNum(n: int)
    | JStr(s: string)
    | JArray(items: seq<JsValue>)
    | JDict(fields: map<string, JsValue>)
    | JFunc(handle: nat)
    | JRef(id: ObjId)

  /** `JSValue.isObject`: arrays, dictionaries, functions and wrapped native objects. */
  predicate IsObject(v: JsValue) {
    v.JArray? || v.JDict? || v.JFunc? || v.JRef?
  }

  const Two32: int := 0x1_0000_0000
  const Two31: int := 0x8000_0000

  predicate IsInt32(n: int) {
    -Two31 <= n < Two31
  }

  /** `JSValue.toInt32`: the number modulo 2^32, read as a signed 32-bit integer. */
  function ToInt32(n: int): (r: int)
    ensures IsInt32(r)
    ensures (n - r) % Two32 == 0
  {
    var m := n % Two32;
    if m >= Two31 then m - Two32 else m
  }

  /** A 32-bit number reads back as itself; any other number wraps around. */
  lemma Int32Unchanged(n: int)
    requires IsInt32(n)
    ensures ToInt32(n) == n
  {
    var r := ToInt32(n);
    assert (n - r) % Two32 == 0;
    assert -Two32 < n - r < Two32;
  }

  /** `AMBObjectPointer`: the parameter name inside the listener body, and the property of
      another react object it reads. */
  datatype ObjectPointer = ObjectPointer(referenceName: string, pointedName: string, pointedObject: ObjId)

  /** The closure `addCallback` registers: call `listener` with the owner and the pointed
      values, and store the result in the owner's property `ownerProperty`. */
  datatype Callback = Callback(owner: ObjId, ownerProperty: string, listener: JsValue, pointers: seq<ObjectPointer>)

  datatype ReactObject = ReactObject(
    frame: Frame,
    props: map<string, JsValue>,
    observers: map<string, seq<Callback>>,
    pointerTable: map<string, seq<ObjectPointer>>,
    scripted: seq<string>)

  /** `init(frame:...)`: the two default properties hold the frame's names. */
  function NewObject(f: Frame): (o: ReactObject)
    ensures ImmediateValue(o, "instanceName") == Some(JStr(f.instanceName))
    ensures ImmediateValue(o, "className") == Some(JStr(f.className))
    ensures forall p :: p != "instanceName" && p != "className" ==> ImmediateValue(o, p).None?
    ensures o.frame == f && o.scripted == [] && o.pointerTable == map[] && o.observers == map[]
  {
    var o := ReactObject(f, map[], map[], map[], []);
    SetImmediateValue(SetImmediateValue(o, "instanceName", JStr(f.instanceName)), "className", JStr(f.className))
  }

  /** `addScriptedPropertyName`. */
  function AddScriptedName(o: ReactObject, name: string): (r: ReactObject)
    ensures |r.scripted| == |o.scripted| + 1 && r.scripted[|o.scripted|] == name
    ensures r.scripted[..|o.scripted|] == o.scripted
    ensures r.frame == o.frame && r.props == o.props && r.observers == o.observers
    ensures r.pointerTable == o.pointerTable
  {
    o.(scripted := o.scripted + [name])
  }

  /** `immediateValue(forProperty:)`: the value stored under `p`, absent when nothing is. */
  function ImmediateValue(o: ReactObject, p: string): (r: Option<JsValue>)
    ensures r.Some? <==> p in o.props
    ensures r.Some? ==> r.value == o.props[p]
  {
    if p in o.props then Some(o.props[p]) else None
  }

  /** `setImmediateValue(value:forProperty:)`: only `p` changes. Observers are notified by
      the heap-level `SetAndNotify`. */
  function SetImmediateValue(o: ReactObject, p: string, v: JsValue): (r: ReactObject)
    ensures ImmediateValue(r, p) == Some(v)
    ensures forall q :: q != p ==> ImmediateValue(r, q) == ImmediateValue(o, q)
    ensures r.frame == o.frame && r.scripted == o.scripted && r.observers == o.observers
    ensures r.pointerTable == o.pointerTable
  {
    o.(props := o.props[p := v])
  }

  /** `get(_:)` from script: a string name reads its property, anything else reads null. */
  function Get(o: ReactObject, name: JsValue): (r: JsValue)
    ensures name.JStr? && name.s in o.props ==> r == o.props[name.s]
    ensures !(name.JStr? && name.s in o.props) ==> r == JNull
  {
    if name.JStr? then
      match ImmediateValue(o, name.s)
      case Some(v) => v
      case None => JNull
    else JNull
  }

  // ---------------------------------------------------------------------------
  // Typed access

  function BoolValue(o: ReactObject, p: string): (r: Option<bool>)
    ensures r.Some? <==> p in o.props && o.props[p].JBool?
    ensures r.Some? ==> o.props[p] == JBool(r.value)
  {
    match ImmediateValue(o, p)
    case Some(JBool(b)) => Some(b)
    case _ => None
  }

  function SetBoolValue(o: ReactObject, b: bool, p: string): ReactObject {
    SetImmediateValue(o, p, JBool(b))
  }

  /** `int32Value`: any number, wrapped to 32 bits. */
  function Int32Value(o: ReactObject, p: string): (r: Option<int>)
    ensures r.Some? <==> p in o.props && o.props[p].JNum?
    ensures r.Some? ==> IsInt32(r.value) && (o.props[p].n - r.value) % Two32 == 0
  {
    match ImmediateValue(o, p)
    case Some(JNum(n)) => Some(ToInt32(n))
    case _ => None
  }

  /** `setInt32Value` takes an `Int32`. */
  function SetInt32Value(o: ReactObject, n: int, p: string): ReactObject
    requires IsInt32(n)
  {
    SetImmediateValue(o, p, JNum(n))
  }

  /** `floatValue`: any number, as a real. */
  function FloatValue(o: ReactObject, p: string): (r: Option<real>)
    ensures r.Some? <==> p in o.props && o.props[p].JNum?
    ensures r.Some? ==> r.value == o.props[p].n as real
  {
    match ImmediateValue(o, p)
    case Some(JNum(n)) => Some(n as real)
    case _ => None
  }

  /** `setFloatValue`: numbers are integers in this model, so the value is an integer. */
  function SetFloatValue(o: ReactObject, n: int, p: string): ReactObject {
    SetImmediateValue(o, p, JNum(n))
  }

  function StringValue(o: ReactObject, p: string): (r: Option<string>)
    ensures r.Some? <==> p in o.props && o.props[p].JStr?
    ensures r.Some? ==> o.props[p] == JStr(r.value)
  {
    match ImmediateValue(o, p)
    case Some(JStr(s)) => Some(s)
    case _ => None
  }

  function SetStringValue(o: ReactObject, s: string, p: string): ReactObject {
    SetImmediateValue(o, p, JStr(s))
  }

  /** `objectValue`: the value, when it is a script object. */
  function ObjectValue(o: ReactObject, p: string): (r: Option<JsValue>)
    ensures r.Some? <==> p in o.props && IsObject(o.props[p])
    ensures r.Some? ==> r.value == o.props[p]
  {
    match ImmediateValue(o, p)
    case Some(v) => if IsObject(v) then Some(v) else None
    case None => None
  }

  /** `setObjectValue`: the conversion of the native object into a script value is
      outside the model, so the setter takes the converted value. */
  function SetObjectValue(o: ReactObject, v: JsValue, p: string): ReactObject {
    SetImmediateValue(o, p, v)
  }

  /** Each typed setter is read back by its getter; every other property is untouched. */
  lemma TypedRoundTrips(o: ReactObject, p: string, q: string, b: bool, n: int, x: int, s: string, v: JsValue)
    requires IsInt32(n) && q != p
    ensures BoolValue(SetBoolValue(o, b, p), p) == Some(b)
    ensures Int32Value(SetInt32Value(o, n, p), p) == Some(n)
    ensures FloatValue(SetInt32Value(o, n, p), p) == Some(n as real)
    ensures FloatValue(SetFloatValue(o, x, p), p) == Some(x as real)
    ensures ObjectValue(SetObjectValue(o, v, p), p) == if IsObject(v) then Some(v) else None
    ensures ImmediateValue(SetFloatValue(o, x, p), q) == ImmediateValue(o, q)
    ensures ImmediateValue(SetObjectValue(o, v, p), q) == ImmediateValue(o, q)
    ensures BoolValue(SetFloatValue(o, x, p), p).None? && StringValue(SetFloatValue(o, x, p), p).None?
    ensures StringValue(SetStringValue(o, s, p), p) == Some(s)
    ensures ImmediateValue(SetBoolValue(o, b, p), q) == ImmediateValue(o, q)
    ensures ImmediateValue(SetStringValue(o, s, p), q) == ImmediateValue(o, q)
    ensures Int32Value(SetBoolValue(o, b, p), p).None? && StringValue(SetBoolValue(o, b, p), p).None?
    ensures BoolValue(SetStringValue(o, s, p), p).None? && Int32Value(SetStringValue(o, s, p), p).None?
  {
    Int32Unchanged(n);
  }

  // ---------------------------------------------------------------------------
  // Child frames

  /** `childFrame(forProperty:)`: the react object stored under `p`, if that is what is stored. */
  function ChildFrame(o: ReactObject, p: string): (r: Option<ObjId>)
    ensures r.Some? <==> p in o.props && o.props[p].JRef?
    ensures r.Some? ==> o.props[p] == JRef(r.value)
  {
    match ImmediateValue(o, p)
    case Some(JRef(id)) => Some(id)
    case _ => None
  }

  function SetChildFrame(o: ReactObject, p: string, child: ObjId): ReactObject {
    SetImmediateValue(o, p, JRef(child))
  }

  /** A stored child frame reads back; a plain value under the same name is no child frame. */
  lemma ChildFrameRoundTrip(o: ReactObject, p: string, child: ObjId, v: JsValue)
    requires !v.JRef?
    ensures ChildFrame(SetChildFrame(o, p, child), p) == Some(child)
    ensures ChildFrame(SetImmediateValue(o, p, v), p).None?
    ensures ObjectValue(SetChildFrame(o, p, child), p) == Some(JRef(child))
  {
  }

  // ---------------------------------------------------------------------------
  // Listener slots

  /** The name a listener's function is stored under, in the same table as the properties. */
  function ListenerFuncName(p: string): string {
    "_lfunc_" + p
  }

  /** The key of a listener's pointers, in their own table. */
  function ListenerParamName(p: string): string {
    "_lparam_" + p
  }

  function SetListenerFunctionValue(o: ReactObject, f: JsValue, p: string): ReactObject {
    SetImmediateValue(o, ListenerFuncName(p), f)
  }

  function ListenerFunctionValue(o: ReactObject, p: string): Option<JsValue> {
    ImmediateValue(o, ListenerFuncName(p))
  }

  /** `setListenerFuncPointers`: the pointers are read back for listener `p`, every other
      listener keeps its own, and the property table is untouched. */
  function SetListenerFuncPointers(o: ReactObject, ptrs: seq<ObjectPointer>, p: string): (r: ReactObject)
    ensures ListenerFuncPointers(r, p) == Some(ptrs)
    ensures forall q :: q != p ==> ListenerFuncPointers(r, q) == ListenerFuncPointers(o, q)
    ensures r.frame == o.frame && r.props == o.props && r.scripted == o.scripted
    ensures r.observers == o.observers
  {
    ParamNamesDistinct(p);
    o.(pointerTable := o.pointerTable[ListenerParamName(p) := ptrs])
  }

  lemma ParamNamesDistinct(p: string)
    ensures forall q :: q != p ==> ListenerParamName(q) != ListenerParamName(p)
  {
    forall q | q != p
      ensures ListenerParamName(q) != ListenerParamName(p)
    {
      PrefixedNamesInjective("_lparam_", q, p);
    }
  }

  function ListenerFuncPointers(o: ReactObject, p: string): Option<seq<ObjectPointer>> {
    var k := ListenerParamName(p);
    if k in o.pointerTable then Some(o.pointerTable[k]) else None
  }

  lemma PrefixedNamesInjective(pre: string, a: string, b: string)
    ensures pre + a == pre + b ==> a == b
  {
    if pre + a == pre + b {
      assert a == (pre + a)[|pre|..];
      assert b == (pre + b)[|pre|..];
    }
  }

  /** A listener function is read back from its mangled slot; it never overwrites the
      listener's own property, nor another listener's slot. */
  lemma ListenerFunctionRoundTrip(o: ReactObject, f: JsValue, p: string, q: string)
    requires q != p
    ensures ListenerFunctionValue(SetListenerFunctionValue(o, f, p), p) == Some(f)
    ensures ListenerFunctionValue(SetListenerFunctionValue(o, f, p), q) == ListenerFunctionValue(o, q)
    ensures ImmediateValue(SetListenerFunctionValue(o, f, p), p) == ImmediateValue(o, p)
  {
    PrefixedNamesInjective("_lfunc_", p, q);
    assert ListenerFuncName(p) != p by {
      assert |ListenerFuncName(p)| > |p|;
    }
  }


  // ---------------------------------------------------------------------------
  // Observers

  /** The callbacks registered on `p`, in registration order; none on a property nobody
      observes. */
  function ObserversOf(o: ReactObject, p: string): (r: seq<Callback>)
    ensures p !in o.observers ==> r == []
    ensures p in o.observers ==> r == o.observers[p]
  {
    if p in o.observers then o.observers[p] else []
  }

  /** `addObserver(forProperty:callback:)`. */
  function AddObserver(o: ReactObject, p: string, cb: Callback): (r: ReactObject)
    ensures ObserversOf(r, p) == ObserversOf(o, p) + [cb]
    ensures forall q :: q != p ==> ObserversOf(r, q) == ObserversOf(o, q)
    ensures r.frame == o.frame && r.props == o.props && r.scripted == o.scripted
    ensures r.pointerTable == o.pointerTable
  {
    o.(observers := o.observers[p := ObserversOf(o, p) + [cb]])
  }
}

=== FILE: strings.dfy ===
/** String helpers the model needs: Swift's `joined(separator:)`, its inverse on one
    separator character, and the dotted-path prefix relation used by the compiler's
    object map. */
module Strings {

  /** `xs.joined(separator: sep)`: the elements with `sep` between neighbours, none at either end. */
  function Join(xs: seq<string>, sep: string): (r: string)
    ensures |xs| > 0 ==> xs[0] <= r && |r| == TotalLength(xs) + (|xs| - 1) * |sep|
    ensures |xs| == 0 ==> r == ""
    decreases |xs|
  {
    if |xs| == 0 then ""
    else if |xs| == 1 then xs[0]
    else xs[0] + sep + Join(xs[1..], sep)
  }

  /** The summed lengths of the elements. */
  function TotalLength(xs: seq<string>): nat
    decreases |xs|
  {
    if |xs| == 0 then 0 else |xs[0]| + TotalLength(xs[1..])
  }

  /** Cuts `s` at every occurrence of `c`; the independent inverse of `Join` with a one-character separator. */
  function Split(s: string, c: char): (r: seq<string>)
    ensures |r| >= 1
    decreases |s|
  {
    if |s| == 0 then [""]
    else if s[0] == c then [""] + Split(s[1..], c)
    else
      var rest := Split(s[1..], c);
      [[s[0]] + rest[0]] + rest[1..]
  }

  /** A name that cannot be confused with a path separator. */
  predicate DotFree(s: string) {
    '.' !in s
  }

  predicate AllFree(xs: seq<string>, c: char) {
    forall i :: 0 <= i < |xs| ==> c !in xs[i]
  }

  /** `k` is `q` itself or a path below `q` (`q` followed by a dot and more). */
  predicate IsPathPrefix(q: string, k: string) {
    k == q || (|q| < |k| && k[..|q|] == q && k[|q|] == '.')
  }

  lemma {:induction false} SplitWithoutSeparator(s: string, c: char)
    requires c !in s
    ensures Split(s, c) == [s]
    decreases |s|
  {
    if |s| > 0 {
      assert c !in s[1..];
      SplitWithoutSeparator(s[1..], c);
      assert [s[0]] + s[1..] == s;
    }
  }

  lemma {:induction false} SplitAfterSeparator(a: string, c: char, b: string)
    requires c !in a
    ensures Split(a + [c] + b, c) == [a] + Split(b, c)
    decreases |a|
  {
    if |a| == 0 {
      assert a + [c] + b == [c] + b;
      assert ([c] + b)[1..] == b;
    } else {
      var s := a + [c] + b;
      assert s[0] == a[0];
      assert s[1..] == a[1..] + [c] + b;
      assert c !in a[1..];
      SplitAfterSeparator(a[1..], c, b);
      assert [a[0]] + a[1..] == a;
    }
  }

  /** Joining with a one-character separator that no element contains, then splitting on it, gives the elements back. */
  lemma {:induction false} SplitJoin(xs: seq<string>, c: char)
    requires |xs| >= 1
    requires AllFree(xs, c)
    ensures Split(Join(xs, [c]), c) == xs
    decreases |xs|
  {
    if |xs| == 1 {
      assert c !in xs[0];
      SplitWithoutSeparator(xs[0], c);
    } else {
      assert c !in xs[0];
      SplitAfterSeparator(xs[0], c, Join(xs[1..], [c]));
      SplitJoin(xs[1..], c);
      assert [xs[0]] + xs[1..] == xs;
    }
  }

  /** Every path below `q + "." + n` is also below `q`, and strictly longer than `q`. */
  lemma BelowChildIsBelowParent(q: string, n: string, k: string)
    requires IsPathPrefix(q + "." + n, k)
    ensures IsPathPrefix(q, k)
    ensures |k| > |q|
  {
    var qc := q + "." + n;
    assert k[..|qc|] == qc || k == qc;
    assert k[..|q|] == qc[..|q|];
    assert qc[..|q|] == q;
    assert k[|q|] == qc[|q|] == '.';
  }

  /** Two sibling paths `s.a` and `s.b` with dot-free names share no descendant path unless `a == b`. */
  lemma SiblingPathsDisjoint(s: string, a: string, b: string, k: string)
    requires DotFree(a) && DotFree(b)
    requires IsPathPrefix(s + "." + a, k)
    requires IsPathPrefix(s + "." + b, k)
    ensures a == b
  {
    var qa := s + "." + a;
    var qb := s + "." + b;
    var base := |s| + 1;
    assert k[..|qa|] == qa;
    assert k[..|qb|] == qb;
    assert forall i :: 0 <= i < |a| ==> k[base + i] == a[i] by {
      forall i | 0 <= i < |a| ensures k[base + i] == a[i] {
        assert k[..|qa|][base + i] == qa[base + i];
      }
    }
    assert forall i :: 0 <= i < |b| ==> k[base + i] == b[i] by {
      forall i | 0 <= i < |b| ensures k[base + i] == b[i] {
        assert k[..|qb|][base + i] == qb[base + i];
      }
    }
    if |a| < |b| {
      assert false;
    } else if |b| < |a| {
      assert false;
    } else {
      assert forall i :: 0 <= i < |a| ==> a[i] == b[i];
    }
  }

  // ---------------------------------------------------------------------------
  // Decimal numbers

  predicate IsDecimal(s: string) {
    forall i :: 0 <= i < |s| ==> '0' <= s[i] <= '9'
  }

  function Digit(d: nat): (c: char)
    requires d < 10
    ensures '0' <= c <= '9' && c as int - '0' as int == d
  {
    ('0' as int + d) as char
  }

  /** The interpolation `\(n)` of a natural number: its decimal digits, most significant
      first, with no leading zero. */
  function NatToString(n: nat): (s: string)
    ensures 0 < |s| && IsDecimal(s)
    ensures s[0] == '0' <==> n == 0
    ensures n == 0 ==> s == "0"
    decreases n
  {
    if n < 10 then [Digit(n)] else NatToString(n / 10) + [Digit(n % 10)]
  }

  /** The value a digit string denotes, read independently of `NatToString`. */
  function DecimalValue(s: string): nat
    requires IsDecimal(s)
    decreases |s|
  {
    if |s| == 0 then 0 else 10 * DecimalValue(s[..|s| - 1]) + (s[|s| - 1] as int - '0' as int)
  }

  /** Reading the digits back gives the number. */
  lemma {:induction false} NatToStringRoundTrip(n: nat)
    ensures DecimalValue(NatToString(n)) == n
    decreases n
  {
    if n >= 10 {
      NatToStringRoundTrip(n / 10);
      var s := NatToString(n);
      assert s[..|s| - 1] == NatToString(n / 10);
    }
  }
}

=== FILE: tokens.dfy ===
/** The parser's view of the token stream, and the string-folding pass it runs before
    parsing (`AMBParser.preprocess`). The tokenizer itself is outside the model: its
    output is taken as a given sequence of tokens. */
module Tokens {
  import opened Wrappers

  /** The token kinds the parser distinguishes. Floating-point literals are not modelled;
      signed and unsigned integer literals share `IntTok`. */
  datatype TokenKind =
    | Ident(name: string)
    | Sym(sym: char)
    | BoolTok(b: bool)
    | IntTok(n: int)
    | StrTok(s: string)
    | TextTok(text: string)
    | Reserved(word: string)
    | Comment(comment: string)

  datatype Token = Token(kind: TokenKind, line: nat)

  predicate IsStr(t: Token) {
    t.kind.StrTok?
  }

  /** The two-character escape backslash-n appears at position `i`. */
  predicate EscapeAt(s: string, i: int) {
    0 <= i && i + 1 < |s| && s[i] == '\\' && s[i + 1] == 'n'
  }

  /** `str.replacingOccurrences(of: "\\n", with: "\n")`: left-to-right replacement of the
      escape by a newline character. */
  function DecodeNewlines(s: string): (r: string)
    ensures |r| <= |s|
    ensures forall i :: 0 <= i < |r| ==> !EscapeAt(r, i)
    ensures (forall i :: 0 <= i < |s| ==> !EscapeAt(s, i)) ==> r == s
    ensures |s| > 0 ==> |r| > 0 && r[0] == (if EscapeAt(s, 0) then '\n' else s[0])
    decreases |s|
  {
    if |s| == 0 then ""
    else if EscapeAt(s, 0) then
      assert forall i :: 0 <= i < |s| - 2 ==> (EscapeAt(s[2..], i) <==> EscapeAt(s, i + 2));
      var d := DecodeNewlines(s[2..]);
      var r := "\n" + d;
      assert forall i :: 1 <= i < |r| ==> (EscapeAt(r, i) <==> EscapeAt(d, i - 1));
      r
    else
      assert forall i :: 0 <= i < |s| - 1 ==> (EscapeAt(s[1..], i) <==> EscapeAt(s, i + 1));
      var d := DecodeNewlines(s[1..]);
      var r := [s[0]] + d;
      assert forall i :: 1 <= i < |r| ==> (EscapeAt(r, i) <==> EscapeAt(d, i - 1));
      r
  }

  /** A string run being collected: its text so far and the line of its first token. */
  datatype Pending = Pending(text: string, line: nat)

  function Extend(p: Option<Pending>, t: Token): Option<Pending>
    requires IsStr(t)
  {
    match p
    case Some(q) => Some(Pending(q.text + DecodeNewlines(t.kind.s), q.line))
    case None => Some(Pending(DecodeNewlines(t.kind.s), t.line))
  }

  function Flush(p: Option<Pending>): seq<Token> {
    match p
    case Some(q) => [Token(StrTok(q.text), q.line)]
    case None => []
  }

  /** The folding pass from the front, with the pending run carried along. Nothing is
      flushed at the end of the input. */
  function Fold(toks: seq<Token>, pending: Option<Pending>): seq<Token>
    decreases |toks|
  {
    if |toks| == 0 then []
    else if IsStr(toks[0]) then Fold(toks[1..], Extend(pending, toks[0]))
    else Flush(pending) + [toks[0]] + Fold(toks[1..], None)
  }

  /** `preprocess`: the output has no two string tokens side by side, ends on a non-string
      token, and holds the non-string tokens of the input in their original order. */
  function Preprocess(toks: seq<Token>): (r: seq<Token>)
    ensures NoAdjacentStrings(r)
    ensures NonStrings(r) == NonStrings(toks)
    ensures |r| > 0 ==> !IsStr(r[|r| - 1])
  {
    FoldShape(toks, None);
    Fold(toks, None)
  }

  /** The loop of `preprocess`, proved equal to the functional definition. */
  method PreprocessLoop(toks: seq<Token>) returns (result: seq<Token>)
    ensures result == Preprocess(toks)
  {
    result := [];
    var pending: Option<Pending> := None;
    var i := 0;
    while i < |toks|
      invariant 0 <= i <= |toks|
      invariant result + Fold(toks[i..], pending) == Fold(toks, None)
    {
      var t := toks[i];
      assert toks[i..][0] == t && toks[i..][1..] == toks[i + 1..];
      if IsStr(t) {
        pending := Extend(pending, t);
      } else {
        result := result + Flush(pending) + [t];
        pending := None;
      }
      i := i + 1;
    }
  }

  /** Concatenation of the decoded texts of a run of string tokens. */
  function RunText(run: seq<Token>): string
    requires forall i :: 0 <= i < |run| ==> IsStr(run[i])
  {
    if |run| == 0 then ""
    else
      assert IsStr(run[|run| - 1]);
      RunText(run[..|run| - 1]) + DecodeNewlines(run[|run| - 1].kind.s)
  }

  function NonStrings(toks: seq<Token>): seq<Token> {
    if |toks| == 0 then []
    else if IsStr(toks[0]) then NonStrings(toks[1..])
    else [toks[0]] + NonStrings(toks[1..])
  }

  predicate NoAdjacentStrings(toks: seq<Token>) {
    forall i :: 0 <= i < |toks| - 1 ==> !(IsStr(toks[i]) && IsStr(toks[i + 1]))
  }

  lemma {:induction false} FoldRun(run: seq<Token>, pending: Option<Pending>, rest: seq<Token>)
    requires forall i :: 0 <= i < |run| ==> IsStr(run[i])
    ensures Fold(run + rest, pending) == Fold(rest, ExtendAll(pending, run))
    decreases |run|
  {
    if |run| > 0 {
      assert (run + rest)[0] == run[0];
      assert (run + rest)[1..] == run[1..] + rest;
      FoldRun(run[1..], Extend(pending, run[0]), rest);
      ExtendAllCons(pending, run);
    } else {
      assert run + rest == rest;
    }
  }

  function ExtendAll(p: Option<Pending>, run: seq<Token>): Option<Pending>
    requires forall i :: 0 <= i < |run| ==> IsStr(run[i])
  {
    if |run| == 0 then p else Extend(ExtendAll(p, run[..|run| - 1]), run[|run| - 1])
  }

  lemma {:induction false} ExtendAllCons(p: Option<Pending>, run: seq<Token>)
    requires |run| > 0
    requires forall i :: 0 <= i < |run| ==> IsStr(run[i])
    ensures ExtendAll(Extend(p, run[0]), run[1..]) == ExtendAll(p, run)
    decreases |run|
  {
    if |run| > 1 {
      assert run[1..][..|run[1..]| - 1] == run[..|run| - 1][1..];
      ExtendAllCons(p, run[..|run| - 1]);
    }
  }

  lemma {:induction false} ExtendAllFromNone(run: seq<Token>)
    requires |run| > 0
    requires forall i :: 0 <= i < |run| ==> IsStr(run[i])
    ensures ExtendAll(None, run) == Some(Pending(RunText(run), run[0].line))
    decreases |run|
  {
    if |run| == 1 {
      assert run[..0] == [];
      assert RunText(run[..0]) == "";
      assert "" + DecodeNewlines(run[0].kind.s) == DecodeNewlines(run[0].kind.s);
    } else {
      ExtendAllFromNone(run[..|run| - 1]);
    }
  }

  /** A run of string tokens followed by a non-string token becomes ONE string token
      holding the decoded texts joined, on the line of the run's first token, followed by
      that token. */
  lemma {:induction false} FoldedRun(run: seq<Token>, t: Token, rest: seq<Token>)
    requires |run| > 0
    requires forall i :: 0 <= i < |run| ==> IsStr(run[i])
    requires !IsStr(t)
    ensures Preprocess(run + [t] + rest)
         == [Token(StrTok(RunText(run)), run[0].line), t] + Preprocess(rest)
  {
    var tail := [t] + rest;
    assert run + [t] + rest == run + tail;
    FoldRun(run, None, tail);
    ExtendAllFromNone(run);
    FoldAtNonString(t, rest, Some(Pending(RunText(run), run[0].line)));
  }

  /** A non-string token flushes the pending run and passes through. */
  lemma {:induction false} FoldAtNonString(t: Token, rest: seq<Token>, p: Option<Pending>)
    requires !IsStr(t)
    ensures Fold([t] + rest, p) == Flush(p) + [t] + Fold(rest, None)
  {
    assert ([t] + rest)[0] == t && ([t] + rest)[1..] == rest;
  }

  /** A non-string token at the front passes through unchanged. */
  lemma NonStringPassesThrough(t: Token, rest: seq<Token>)
    requires !IsStr(t)
    ensures Preprocess([t] + rest) == [t] + Preprocess(rest)
  {
    assert ([t] + rest)[0] == t && ([t] + rest)[1..] == rest;
  }

  /** A string run at the very end of the input is dropped: the loop never flushes after
      its last iteration. */
  lemma TrailingRunDropped(prefix: seq<Token>, run: seq<Token>)
    requires forall i :: 0 <= i < |run| ==> IsStr(run[i])
    ensures Preprocess(prefix + run) == Preprocess(prefix)
  {
    FoldPrefix(prefix, None, run);
  }

  lemma {:induction false} FoldPrefix(prefix: seq<Token>, p: Option<Pending>, run: seq<Token>)
    requires forall i :: 0 <= i < |run| ==> IsStr(run[i])
    ensures Fold(prefix + run, p) == Fold(prefix, p)
    decreases |prefix|
  {
    if |prefix| == 0 {
      assert prefix + run == run;
      FoldRun(run, p, []);
      assert run + [] == run;
    } else {
      assert (prefix + run)[0] == prefix[0];
      assert (prefix + run)[1..] == prefix[1..] + run;
      if IsStr(prefix[0]) {
        FoldPrefix(prefix[1..], Extend(p, prefix[0]), run);
      } else {
        FoldPrefix(prefix[1..], None, run);
      }
    }
  }

  /** Folding never leaves two string tokens next to each other, and keeps every
      non-string token in its original order. */
  lemma {:induction false} FoldShape(toks: seq<Token>, p: Option<Pending>)
    ensures NoAdjacentStrings(Fold(toks, p))
    ensures NonStrings(Fold(toks, p)) == NonStrings(toks)
    ensures |Fold(toks, p)| > 0 ==> !IsStr(Fold(toks, p)[|Fold(toks, p)| - 1])
    decreases |toks|
  {
    if |toks| > 0 {
      if IsStr(toks[0]) {
        FoldShape(toks[1..], Extend(p, toks[0]));
      } else {
        FoldShape(toks[1..], None);
        var tail := Fold(toks[1..], None);
        var head := Flush(p) + [toks[0]];
        assert Fold(toks, p) == head + tail;
        NonStringsAppend(head, tail);
        NonStringsAppend(Flush(p), [toks[0]]);
        assert NonStrings([toks[0]]) == [toks[0]];
        assert NonStrings(Flush(p)) == [] by {
          if p.Some? {
            assert IsStr(Flush(p)[0]);
            assert Flush(p)[1..] == [];
          }
        }
        var r := head + tail;
        forall i | 0 <= i < |r| - 1
          ensures !(IsStr(r[i]) && IsStr(r[i + 1]))
        {
          if i + 1 < |head| {
            assert |head| <= 2;
            assert r[i + 1] == head[i + 1] == toks[0];
          } else if i + 1 == |head| {
            assert r[i] == toks[0];
          } else {
            assert r[i] == tail[i - |head|] && r[i + 1] == tail[i + 1 - |head|];
          }
        }
        if |tail| > 0 {
          assert r[|r| - 1] == tail[|tail| - 1];
        } else {
          assert r[|r| - 1] == toks[0];
        }
      }
    }
  }

  /** The string has no backslash-n escape for the folding pass to decode. */
  predicate EscapeFree(s: string) {
    forall i :: 0 <= i < |s| ==> !EscapeAt(s, i)
  }

  /** Tokens the folding pass has nothing to do on: every string token is escape-free and
      followed by a non-string token, so no run is longer than one token and none is left
      pending at the end. */
  predicate Settled(toks: seq<Token>) {
    forall i :: 0 <= i < |toks| && IsStr(toks[i]) ==>
      EscapeFree(toks[i].kind.s) && i + 1 < |toks| && !IsStr(toks[i + 1])
  }

  /** Settled tokens pass through the folding pass unchanged, whatever follows them. */
  lemma PreprocessSettled(toks: seq<Token>, rest: seq<Token>)
    requires Settled(toks)
    ensures Preprocess(toks + rest) == toks + Preprocess(rest)
  {
    FoldSettled(toks, rest);
  }

  lemma {:induction false} FoldSettled(toks: seq<Token>, rest: seq<Token>)
    requires Settled(toks)
    ensures Fold(toks + rest, None) == toks + Fold(rest, None)
    decreases |toks|
  {
    if |toks| == 0 {
      assert toks + rest == rest;
    } else {
      var k := if IsStr(toks[0]) then 2 else 1;
      var head, tail, r := toks[..k], toks[k..], Fold(rest, None);
      assert Fold(head + (tail + rest), None) == head + Fold(tail + rest, None) by {
        SettledHead(toks, tail + rest);
      }
      assert Fold(tail + rest, None) == tail + r by {
        SettledDrop(toks, k);
        FoldSettled(tail, rest);
      }
      assert toks + rest == head + (tail + rest);
      assert head + (tail + r) == toks + r;
    }
  }

  /** A settled sequence's first token, with its partner when it is a string, passes
      through the folding pass as it is. */
  lemma SettledHead(toks: seq<Token>, rest: seq<Token>)
    requires Settled(toks) && |toks| > 0
    ensures var k := if IsStr(toks[0]) then 2 else 1;
      k <= |toks| && Fold(toks[..k] + rest, None) == toks[..k] + Fold(rest, None)
  {
    if IsStr(toks[0]) {
      var s, t := toks[0], toks[1];
      assert toks[..2] + rest == [s] + ([t] + rest);
      FoldRun([s], None, [t] + rest);
      ExtendAllFromNone([s]);
      assert [s][..0] == [];
      assert RunText([s]) == DecodeNewlines(s.kind.s) == s.kind.s;
      FoldAtNonString(t, rest, Some(Pending(RunText([s]), s.line)));
      assert Flush(Some(Pending(RunText([s]), s.line))) == [s];
      assert toks[..2] == [s] + [t];
    } else {
      assert toks[..1] + rest == [toks[0]] + rest;
      FoldAtNonString(toks[0], rest, None);
    }
  }

  lemma SettledDrop(toks: seq<Token>, k: nat)
    requires Settled(toks) && k <= |toks|
    ensures Settled(toks[k..])
  {
    var tail := toks[k..];
    forall i | 0 <= i < |tail| && IsStr(tail[i])
      ensures EscapeFree(tail[i].kind.s) && i + 1 < |tail| && !IsStr(tail[i + 1])
    {
      assert tail[i] == toks[i + k];
      assert i + 1 < |tail| ==> tail[i + 1] == toks[i + 1 + k];
    }
  }

  /** Settled sequences stay settled when put side by side. */
  lemma SettledAppend(a: seq<Token>, b: seq<Token>)
    requires Settled(a) && Settled(b)
    ensures Settled(a + b)
  {
    var ab := a + b;
    forall i | 0 <= i < |ab| && IsStr(ab[i])
      ensures EscapeFree(ab[i].kind.s) && i + 1 < |ab| && !IsStr(ab[i + 1])
    {
      if i < |a| {
        assert ab[i] == a[i] && ab[i + 1] == a[i + 1];
      } else {
        assert ab[i] == b[i - |a|];
        assert ab[i + 1] == b[i + 1 - |a|];
      }
    }
  }

  /** One escape-free string token in front of settled tokens that start with a non-string. */
  lemma SettledString(t: Token, b: seq<Token>)
    requires IsStr(t) && EscapeFree(t.kind.s)
    requires Settled(b) && |b| > 0 && !IsStr(b[0])
    ensures Settled([t] + b)
  {
    var tb := [t] + b;
    forall i | 0 <= i < |tb| && IsStr(tb[i])
      ensures EscapeFree(tb[i].kind.s) && i + 1 < |tb| && !IsStr(tb[i + 1])
    {
      if i > 0 {
        assert tb[i] == b[i - 1];
        assert i + 1 < |tb| ==> tb[i + 1] == b[i];
      }
    }
  }

  lemma {:induction false} NonStringsAppend(a: seq<Token>, b: seq<Token>)
    ensures NonStrings(a + b) == NonStrings(a) + NonStrings(b)
    decreases |a|
  {
    if |a| == 0 {
      assert a + b == b;
    } else {
      assert (a + b)[0] == a[0];
      assert (a + b)[1..] == a[1..] + b;
      NonStringsAppend(a[1..], b);
    }
  }
}

=== FILE: wrappers.dfy ===
/** Failure-compatible Option and Result types shared by every module of the model. */
module Wrappers {

  /** Some/None, standing in for Swift optionals. */
  datatype Option<+T> = None | Some(value: T) {
    predicate IsFailure() {
      None?
    }

    function PropagateFailure<U>(): Option<U>
      requires None?
    {
      None
    }

    function Extract(): T
      requires Some?
    {
      value
    }
  }

  /** Success carrying a value, or failure carrying the error message the source puts in its NSError. */
  datatype Result<+T> = Ok(value: T) | Err(msg: string) {
    predicate IsFailure() {
      Err?
    }

    function PropagateFailure<U>(): Result<U>
      requires Err?
    {
      Err(msg)
    }

    function Extract(): T
      requires Ok?
    {
      value
    }
  }
}
